=== FILE: README.md ===
# Molino: inventory and ledger engine, modelled in Dafny

This project models the core of the Molino ERP. Molino is a multi-company web system
for a grain mill. The core covers the following:

- **Weighbridge intakes** (`recepciones`): a truck is weighed full (`BRUTO`) and empty
  (`TARA`). Once both legs exist, the intake gets a ticket code `R-YYYYMMDD-{id}` and a
  random QR token.
- **Lab grading**: moisture above 14 % and the impurity percentage become kilogram
  discounts on the physical net weight. What is left is the payable weight.
- **Silos and lots**: the warehouse service turns a graded intake into a lot stored in a
  silo. It moves lots between silos (`trasiego`) and merges two lots into a new one
  (`mezcla`). Every step is logged as an inventory movement. A lot's current silo is the
  one named by its latest movement.
- **Production orders**: closing an order records the milling yield and consumes the
  input lots. It also lowers their silos, credits the finished-goods stock and finalises
  the order.
- **Maquila ledger**: this is toll milling. Clients deposit wheat and earn flour credit.
  The ledger is a list of signed movements whose per-product sums are the flour
  balances. Wheat deposits not yet credited are "pending". The web client computes
  previews and suggestions that anticipate the server's arithmetic.
- **Chilean RUT check digit**: the modulo-11 check as the two web forms implement it.
- **CSV export**: the quoting of the database export script.

Each source file of the core is one Dafny module:

| file | models |
|---|---|
| `common.dfy`, `sums.dfy` | shared values and helpers |
| `database.dfy` | the company database |
| `codes.dfy` | ticket and entity codes |
| `recepciones.dfy` | `recepcionesService.js` |
| `laboratorio.dfy` | the discount formula and the lab-screen scan |
| `laboratorio_servicio.dfy` | `upsertLaboratorio` |
| `inventario.dfy` | the read side of `wmsService.js` |
| `wms.dfy` | the write side of `wmsService.js` |
| `produccion.dfy` | `produccionService.js` |
| `maquila.dfy` | `maquilaService.js` |
| `maquila_ruta.dfy` | the movement route |
| `maquila_cliente.dfy` | the maquila screen |
| `rut.dfy` | the RUT check |
| `csv.dfy` | `export_all_db.js` |

**The database.** It is one object, `Database.Store`. It has a field per table (a `map`
from id to row, or a `seq` for append-only logs) and a serial counter per table. Tables the
services only point into through foreign keys (branches, warehouses, suppliers,
agricultural products) are sets of ids, so an INSERT that names a missing row fails as
PostgreSQL's would. The services are methods that take the store. Each one names in its `modifies` clause exactly the
tables it writes, and its contract states the new contents of those tables.

**Service shape.** A service's checks are a function that returns the first rejection
(or none). The method's contract ties its error to that function and states that a
rejected call writes nothing.

**Units.**
- Intake, lot, silo and production weights are whole kilograms. Maquila ledger amounts are
  hundredths of a kilogram, since `maquila_movimientos.kg` is `DECIMAL(12,2)`.
- Percentages (moisture, impurities, work-type share) are integers in hundredths, since
  the columns are `DECIMAL(5,2)`.
- A formula ingredient's proportion is an integer in ten-thousandths of a kilogram per
  unit, since `proporcion_kg_por_unidad` is `DECIMAL(12,4)`. A usual 1.3 is 13000.
- Whole kilograms are unbounded. The source's `INTEGER` range is not modelled (see
  "## Left out").
- `Math.round` and PostgreSQL `ROUND` are modelled separately (`Common.JsRoundDiv`,
  `Common.PgRoundDiv`) because they differ on negative halves.
- A request number is `JsNum`: a finite value, or `NonFinite` for NaN and both infinities
  alike (see "## Left out" for where JavaScript tells them apart).

**Places where the code does something other than its own schema or names suggest; the model follows the code:**

- **Production loss.** The recorded loss of a closed order is milled wheat minus finished
  flour. The by-products sent with the request are stored in their own table but are
  never put in the by-product columns of the yield row (`produccionService.js:156-175`).
  So the generated `merma_kg` column (`setup_schema.js:404`) does not subtract them.
- **Transfers.** A transfer changes the two silo levels and logs the movement. It never
  writes the lot itself. The lot it returns shows its current quantity minus the
  transferred kilograms, but that value is not stored (`wmsService.js:357-404`).
- **Merge destination check.** The check that the destination silo differs from the
  source silos (`wmsService.js:442`) compares a column the query never selects, so it
  never rejects. The model has no such check.
- **Merge movements.** Both `MEZCLA_SALIDA` rows name the merge's destination silo as
  their destination. So after a merge the source lots, too, are reported as lying in
  the destination silo (`WmsService.RegistrarMezcla`).
- **Production consumption.** Consumption rows (`CONSUMO_PRODUCCION`) carry no silo.
  After a lot is consumed once, its current silo is unknown, and a second consumption
  of the same lot lowers no silo (`ProduccionService.ConsumoRepetidoNoTocaSilos`).
- **RUT check on the users screen.** `usuarios.js` defines `validarRut` twice. The second
  definition (lines 471-487) is the one in effect, and it is the one modelled.

## Model

| member | source | states |
|---|---|---|
| Codes.NormalizarCodigo | backend/services/recepcionesService.js:3-8 | a normalised scanned code contains no white space and no lower-case letter and, with the ASCII-only case mapping modelled, is never longer than the input |
| Codes.NormalizarSinTrim | backend/services/recepcionesService.js:3-8 | the `trim` adds nothing: normalising equals deleting every white-space character and upper-casing |
| Codes.NormalizarCodigoIdempotent | backend/services/recepcionesService.js:3-8 | normalising an already normalised code changes nothing |
| Codes.CodigoSeEncuentra | backend/services/recepcionesService.js:143-152 | a stored code without white space is found by any query that differs from it only in white space and letter case |
| Codes.EntityCode | backend/services/recepcionesService.js:129-131 | a generated driver/truck/trailer code starts with its kind's prefix and a dash and has no white space or lower case |
| Codes.EntityCodeInjective | backend/services/recepcionesService.js:129-131 | two entities of the same kind and company never get the same code |
| Codes.EntityCodeSeEncuentra | backend/services/recepcionesService.js:143-152 | the lookup by code finds a freshly generated code exactly as stored |
| Codes.BuildTicketCodigo | backend/services/recepcionesService.js:10-16 | a ticket code is `R-`, eight date digits, a dash and the decimal intake id |
| Codes.TicketCodigoRoundTrip | backend/services/recepcionesService.js:10-16 | the date and intake id can be read back from a ticket code |
| Codes.TicketCodigoInjective | backend/services/recepcionesService.js:10-16 | distinct (date, intake) pairs never share a ticket code, which the unique ticket index relies on |
| Codes.TicketEsDe | backend/services/recepcionesService.js:10-16 | a ticket code names the intake it was built for |
| Codes.TokenTicket | backend/services/recepcionesService.js:504 | the QR token starts with `T-` and, being upper-cased, has no lower-case letter |
| Codes.MezclaCodigo | backend/services/wmsService.js:498-506 | a default merge lot code is `MIX-`, eight date digits, a dash and more characters after it |
| Codes.MezclaNoEsTicket | backend/services/wmsService.js:498-506 | a merge lot code is never mistaken for an intake ticket code |
| Codes.MovimientoBarcode | backend/routes/maquila.js:210 | a movement barcode is `MOV-` followed by the movement id |
| Codes.MovimientoBarcodeRoundTrip | backend/routes/maquila.js:210 | the movement id is read back from its barcode |
| Csv.EscapeCsv | backend/scripts/export_all_db.js:6-14 | NULL exports as an empty field; a value is written unchanged exactly when it has no comma, quote or line break; a field holding one of those is wrapped in quotes |
| Csv.EscapeCsvRoundTrip | backend/scripts/export_all_db.js:10-13 | un-quoting an exported field gives back the original value |
| Csv.UndoubleDoubleQuotes | backend/scripts/export_all_db.js:11 | doubling the quotes of a value loses nothing |
| Csv.Cells | backend/scripts/export_all_db.js:18 | a row exports one field per header column, in header order |
| Csv.Lines | backend/scripts/export_all_db.js:16-20 | the export has one data line per row, each the comma-joined fields of that row |
| Csv.RowsToCsvLineCount | backend/scripts/export_all_db.js:16-20 | without line breaks in the data, the file holds exactly as many line feeds as data rows, one after the header and one between rows |
| Database.NetoFisico | backend/scripts/setup_schema.js:190 | the physical net exists exactly when both legs were weighed, and net plus tare equals gross |
| Database.Merma | backend/scripts/setup_schema.js:404 | the loss plus flour, bran, semolina and other by-products equals the wheat milled |
| Database.TicketUnico | backend/scripts/setup_schema.js:219 | when every ticket code names its own intake, no two intakes share a ticket code |
| Inventario.PorcentajeOcupacion | backend/services/wmsService.js:23-27 | occupancy is 0 for a silo without capacity, otherwise level/capacity in percent rounded to the nearest integer |
| Inventario.OcupacionEnRango | backend/services/wmsService.js:23-27 | a silo filled within its capacity shows between 0 and 100 % |
| Inventario.AlertaYOcupacion | backend/services/wmsService.js:23-33 | an overflow alert implies at least 90 % shown, and 91 % or more shown implies an alert |
| Inventario.OcupacionNoventaSinAlerta | backend/services/wmsService.js:23-33 | a silo can show 90 % without the alert: 179 kg in 200 kg rounds to 90 % but is below the 90 % threshold |
| Inventario.UltimoMovimiento | backend/services/wmsService.js:58-68 | a lot's latest movement is one of its movements and no other movement of the lot is later by (date, id); none exactly when the lot has no movement |
| Inventario.UltimoTrasAgregar | backend/services/wmsService.js:58-68 | a movement appended with the current clock and a fresh id becomes the lot's latest, and the lot is then in its destination (or origin) silo |
| Inventario.UltimoOtroLote | backend/services/wmsService.js:58-68 | a movement of another lot does not change a lot's latest movement or silo |
| Inventario.ListarLotes | backend/services/wmsService.js:46-104 | the listing holds exactly the lots in the filtered state (default `activo`), each with the silo of its latest movement; with a silo filter, exactly those of them whose latest movement names that silo as origin or destination |
| Inventario.ListadoEnSuSilo | backend/services/wmsService.js:53-55 | filtering by a silo lists every lot currently in it |
| Inventario.ListadoTambienEnOrigen | backend/services/wmsService.js:53-55 | after a transfer, filtering by the source silo still lists the lot, with the destination as its silo |
| Inventario.RecepcionesPendientes | backend/services/wmsService.js:106-122 | an intake is pending storage exactly when it has a lab row and no lot |
| Inventario.PendienteTrasCrearLote | backend/services/wmsService.js:106-122 | creating a lot from an intake removes exactly that intake from the pending list |
| Laboratorio.CalcularDescuentos | backend/services/laboratorioService.js:118-129 | each discount is net × percentage rounded to the nearest kilogram (moisture only above 14 %); payable = max(net − discounts, 0), never above a non-negative net; dry clean grain pays its whole net |
| Laboratorio.MasHumedadPagaMenos | backend/services/laboratorioService.js:118-129 | for a fixed net and impurities, more moisture never raises the payable weight |
| Laboratorio.CalcularDescuentosCliente | frontend/js/laboratorio.js:87-109 | the browser's total is blank exactly for maquila intakes, otherwise payable weight × agreed price rounded |
| Laboratorio.ClienteIgualServidor | frontend/js/laboratorio.js:87-109 | the browser shows exactly the discounts and payable weight the server stores |
| Laboratorio.Split | frontend/js/laboratorio.js:425 | splitting the scan at the vertical bar yields at least one piece and no piece holds the separator |
| Laboratorio.SplitJoin | frontend/js/laboratorio.js:425 | joining the pieces with the separator gives the scanned text back |
| Laboratorio.LeerEscaneo | frontend/js/laboratorio.js:400-442 | a blank scan looks nothing up; otherwise the lookup code is never empty; plain text is the code; a parsed JSON QR with a code supplies code and token; any other scan with a vertical bar is split into code and token; JSON-looking text whose JSON gives no code is itself the code, with the JSON token if there is one |
| Laboratorio.EtiquetaCodigoToken | frontend/js/laboratorio.js:425-430 | a printed label of code, vertical bar and token is read back as exactly that code and token |
| LaboratorioService.Graduada | backend/services/laboratorioService.js:206-214 | grading changes only the two discounts and the payable weight, keeps the physical net, and the payable is non-negative and at most the net |
| LaboratorioService.UpsertLaboratorio | backend/services/laboratorioService.js:131-217 | an unknown intake yields nothing and writes nothing; otherwise the lab row is replaced and the intake graded with the discounts returned |
| LaboratorioService.GraduarDosVeces | backend/services/laboratorioService.js:131-217 | re-sending the same measures leaves the intake as the first grading left it |
| LaboratorioService.LaboratorioDecideElPago | backend/services/recepcionesService.js:511-518 | graded before or after the ticket is issued, the intake pays the graded weight |
| MaquilaService.SaldoTrasRegistrar | backend/services/maquilaService.js:5-13 | appending a movement changes a (client, product) flour balance by its kg exactly when it belongs to that account |
| MaquilaService.SaldosHarina | backend/services/maquilaService.js:5-13 | there is one flour balance per product group of the client's movements, zero sums included, and each is the sum of that group; products absent have balance 0 |
| MaquilaService.SaldosCuenta | backend/services/maquilaService.js:65-75 | the statement lists exactly the products with a non-zero balance, each with its sum |
| MaquilaService.PendientesAcreditar | backend/services/maquilaService.js:216-236 | an intake awaits credit exactly when it is a maquila intake with a positive payable or physical net and no confirmed credit movement names it |
| MaquilaService.PendientesDe | backend/services/maquilaService.js:16-28 | the pending wheat of a client is exactly its intakes awaiting credit |
| MaquilaService.AcreditadaTrasRegistrar | backend/services/maquilaService.js:24-27 | an intake becomes credited exactly by a confirmed credit movement that names it |
| MaquilaService.PendientesTrasRegistrar | backend/services/maquilaService.js:227-231 | a confirmed credit removes its intake from the pending list and any other movement leaves the list unchanged |
| MaquilaService.TrigoPendienteTrasRegistrar | backend/services/maquilaService.js:16-28 | a confirmed credit for a pending intake lowers the client's pending wheat by that intake's weight; anything else leaves it |
| MaquilaService.CreditoSacaDePendientes | backend/services/maquilaService.js:216-236 | after a confirmed credit its intake is no longer pending, globally or for the client |
| MaquilaService.PendienteTrasIngreso | backend/services/maquilaService.js:16-28 | a new maquila intake with positive payable weight becomes pending and adds its weight to its client's pending wheat |
| MaquilaService.PesoCuenta | backend/services/maquilaService.js:59-62 | the statement's weight differs from the pending-list weight exactly when the payable is 0 and the physical net is not |
| MaquilaService.DepositosCuenta | backend/services/maquilaService.js:49-62 | the statement's deposits are exactly the client's maquila intakes |
| MaquilaService.CuentaCorriente | backend/services/maquilaService.js:39-111 | no statement for an unknown client; otherwise its flour lines are exactly the non-zero balances, each with its sum, and its wheat total is the sum of its deposits |
| MaquilaService.DepositoTrasIngreso | backend/services/maquilaService.js:49-62 | a new intake raises the client's deposited wheat by its statement weight exactly when it is the client's maquila intake |
| MaquilaService.TotalHarinaTrasRegistrar | backend/services/maquilaService.js:131-135 | a movement changes a client's summary flour total by its kg exactly when it is the client's |
| MaquilaService.HarinaResumenKg | backend/services/maquilaService.js:142-143 | the summary's flour kg (from hundredths) is 0 exactly for totals in [−0.5, 0.5) kg and never negative for a non-negative total |
| MaquilaService.PesoResumen | backend/services/maquilaService.js:126-130 | the summary's weight differs from the statement's exactly when the payable is NULL or 0 and the physical net is not 0 |
| MaquilaService.Resumen | backend/services/maquilaService.js:116-149 | the summary lists exactly the clients with deposited wheat or a non-zero flour total, each with its own totals |
| MaquilaService.PctTexto | backend/services/maquilaService.js:172 | a whole percentage renders as digits only; a fractional one ends in a non-zero digit after a decimal point |
| MaquilaService.CrearTipoTrabajo | backend/services/maquilaService.js:164-176 | a percentage outside (0, 100] is rejected, and then a flour product id that does not exist fails on its foreign key, both with nothing written; otherwise one new work type is added, and all stored percentages stay valid |
| MaquilaService.TipoActualizado | backend/services/maquilaService.js:185-194 | each field left out of the update keeps its value; a sent percentage is within (0, 100]; an empty update changes nothing |
| MaquilaService.ActualizarTipoTrabajo | backend/services/maquilaService.js:178-205 | an unknown id updates nothing; an invalid percentage, and then a changed flour product that does not exist, is rejected with nothing written; otherwise exactly that type is replaced by its update |
| MaquilaService.ProductoTrasCambio | backend/services/maquilaService.js:193-199 | the flour product after an update is never 0: a sent non-zero id replaces the stored one, and an omitted one keeps it |
| MaquilaService.EliminarTipoTrabajo | backend/services/maquilaService.js:207-213 | the type is removed and its id returned exactly when it existed |
| MaquilaService.RechazoMovimiento | backend/services/maquilaService.js:252-287 | a movement is accepted exactly when its kg is a finite non-zero number and each referenced branch, warehouse, client, product and intake exists; a bad kg is reported before any foreign key, and an unknown branch before the other keys |
| MaquilaService.RegistrarMovimientoMaquila | backend/services/maquilaService.js:238-304 | a rejected movement writes nothing; an accepted one is appended, moves exactly its own account's balance by its kg, and a confirmed credit takes its intake off the pending list |
| MaquilaService.NetoDirecto | backend/services/maquilaService.js:320-332 | a positive sent net is used as is; otherwise gross − tare when gross > 0 and gross > tare; a usable net is always positive |
| MaquilaService.RechazoDirecto | backend/services/maquilaService.js:314-332 | a direct intake is refused without a client, or when no positive net can be derived |
| MaquilaService.RegistrarRecepcionDirecta | backend/services/maquilaService.js:314-397 | a refused intake writes nothing; an accepted one stores a finalised maquila intake with its ticket and weighings, becomes pending credit and raises its client's pending wheat by its net |
| MaquilaCliente.SugerirKg | frontend/js/maquila.js:203-204 | 100 % suggests the whole deposit, and a valid percentage never suggests more than was deposited nor less than 0 |
| MaquilaCliente.PorcentajeAceptado | frontend/js/maquila.js:489-495 | the form accepts exactly the percentages the server accepts |
| MaquilaCliente.PrevisualizarRetiro | frontend/js/maquila.js:302-316 | with a product chosen, the preview is balance − withdrawal, flagged as danger exactly when negative and as success when non-negative and something is withdrawn |
| MaquilaCliente.PrevisualizacionAnticipaRetiro | frontend/js/maquila.js:302-316 | the preview equals the balance the ledger will hold once the route stores the withdrawal |
| MaquilaCliente.CalcNetoExpress | frontend/js/maquila.js:572-579 | the express form's net is the net the server derives when none is sent, and is positive |
| MaquilaRuta.KgNormalizado | backend/routes/maquila.js:187-194 | a withdrawal is made non-positive and a credit non-negative, keeping the magnitude; a missing kg becomes 0; other types are untouched |
| MaquilaRuta.SucursalEfectiva | backend/routes/maquila.js:176-180 | the branch sent wins; without one the user's branch is used |
| MaquilaRuta.RegistrarMovimientoRuta | backend/routes/maquila.js:170-199 | a missing client or type is refused first; otherwise the service's checks decide; a stored withdrawal strictly lowers and a stored credit strictly raises the client's balance |
| ProduccionService.AgregarIngredientes | backend/services/produccionService.js:24-31 | adds one ingredient row per entry, with consecutive new ids, leaving existing rows untouched |
| ProduccionService.CrearFormula | backend/services/produccionService.js:15-34 | an unknown finished product is refused with nothing written; otherwise the formula is added and its ingredient rows are written in order up to the first entry PostgreSQL refuses, which makes the call fail with that entry's error after those writes; the rows of the new formula are exactly the ones written |
| ProduccionService.InsertarIngredientes | backend/services/produccionService.js:24-31 | the loop inserts the ingredient rows of the entries in order, stopping at the first entry PostgreSQL refuses, and returns how many it wrote |
| ProduccionService.RechazoIngrediente | backend/db/migrations/20260122_produccion.js:9-16 | an ingredient row is accepted exactly when it has a proportion, the proportion fits `DECIMAL(12,4)` and the product exists; a missing proportion is the NOT NULL error and an oversized one the overflow error, both before the foreign key |
| ProduccionService.IngredientesAceptados | backend/services/produccionService.js:24-31 | the number of leading entries PostgreSQL accepts: every entry before it is accepted and the entry at it is refused |
| ProduccionService.FilasDeLaFormula | backend/services/produccionService.js:15-31 | after inserting rows for a new formula, the rows that name it are exactly the inserted ones |
| ProduccionService.SinIngredientesDe | backend/services/produccionService.js:57-64 | deleting a formula's ingredients keeps exactly the rows of other formulas |
| ProduccionService.EliminarFormula | backend/services/produccionService.js:57-64 | the ingredients always go; a formula used by an order is then refused and kept, otherwise it is deleted |
| ProduccionService.EliminarDeshaceCrear | backend/services/produccionService.js:15-64 | deleting the ingredients of a just-created formula restores the ingredient table |
| ProduccionService.CrearOrdenProduccion | backend/services/produccionService.js:110-136 | an unknown formula, and then an unknown branch, is refused with nothing written; otherwise an open order is added that can later be closed |
| ProduccionService.RechazoCierre | backend/services/produccionService.js:148-153 | an order can be closed exactly when it exists and is not finalised |
| ProduccionService.FilasSubproducto | backend/services/produccionService.js:166-175 | one by-product row per entry, in order |
| ProduccionService.RegistrarSubproductos | backend/services/produccionService.js:166-175 | the loop appends exactly those rows and returns their total |
| ProduccionService.Consumido | backend/services/produccionService.js:186-191 | a consumed lot loses the kilograms and becomes consumed when nothing is left |
| ProduccionService.DescontarSilo | backend/services/produccionService.js:193-204 | the current silo of the lot, if known, loses the kilograms, and the total in silos falls by exactly that amount |
| ProduccionService.ConsumirInsumo | backend/services/produccionService.js:180-215 | consuming an unknown lot fails; otherwise a trace row and a consumption movement are added and the lot and its silo are lowered |
| ProduccionService.ConsumoFalla | backend/services/produccionService.js:178-216 | consuming the inputs fails exactly when one of them names an unknown lot |
| ProduccionService.ConsumoTotalLotes | backend/services/produccionService.js:178-216 | a successful consumption lowers the total in lots by the sum of the consumed kilograms |
| ProduccionService.ConsumoRepetidoNoTocaSilos | backend/services/produccionService.js:193-215 | after one consumption a lot's silo is unknown, so a second consumption of it lowers no silo |
| ProduccionService.ConsumirLotes | backend/services/produccionService.js:178-216 | the loop leaves the traces, lots, silos and movements the consumption function describes, and succeeds exactly when it does |
| ProduccionService.ConsumirUno | backend/services/produccionService.js:180-215 | one loop iteration performs exactly one input's consumption |
| ProduccionService.AcreditarStock | backend/services/produccionService.js:219-223 | the target product's finished stock rises by the flour produced and no other product changes |
| ProduccionService.RegistrarFilaRendimiento | backend/services/produccionService.js:156-175 | the yield row is inserted with zero by-product columns, and its by-product rows are appended |
| ProduccionService.CerrarOrden | backend/services/produccionService.js:219-230 | the stock is credited and the order finalised |
| ProduccionService.RegistrarRendimiento | backend/services/produccionService.js:138-233 | an unknown or finalised order is refused with nothing written; otherwise the yield and inputs are recorded, the loss is wheat − flour, and a successful close credits the stock and makes a second close fail |
| RecepcionesService.MathRound | backend/services/recepcionesService.js:456 | a reading is stored as the nearest whole kilogram |
| RecepcionesService.NuevaRecepcion | backend/services/recepcionesService.js:244-298 | a new intake is in process, has no ticket, defaults to `compra`, has zero weights and is not ready for a ticket |
| RecepcionesService.ColumnaSinFila | backend/services/recepcionesService.js:259-277 | an intake request passes the foreign keys exactly when each branch, supplier and agricultural product id it sends is absent or exists; an unknown branch is named first |
| RecepcionesService.CrearRecepcion | backend/services/recepcionesService.js:244-298 | a request naming a branch, supplier or agricultural product that does not exist fails on that foreign key with nothing written; otherwise exactly one new intake is stored under a fresh id |
| RecepcionesService.Emitir | backend/services/recepcionesService.js:488-519 | with both legs positive a ticket is issued; an existing ticket is kept; without a lab row the payable becomes gross − tare; nothing else changes |
| RecepcionesService.SegundaEmisionNula | backend/services/recepcionesService.js:506-510 | issuing again never replaces a ticket |
| RecepcionesService.EmitirTicketSiCorresponde | backend/services/recepcionesService.js:488-519 | only the named intake changes, by one ticket emission |
| RecepcionesService.ConPesada | backend/services/recepcionesService.js:462-485 | a gross leg sets the gross weight; a tare leg sets the tare and the exit time |
| RecepcionesService.RechazoPesaje | backend/services/recepcionesService.js:442-450 | a weighing is accepted exactly for type BRUTO or TARA (any case) and a non-negative reading, with the type error reported first |
| RecepcionesService.RegistrarPesaje | backend/services/recepcionesService.js:441-486 | a refused weighing writes nothing; an accepted one logs the rounded reading, updates the leg and issues the ticket when due |
| RecepcionesService.CompraPesadaEmiteTicket | backend/services/recepcionesService.js:462-518 | a purchase weighed gross then tare gets its ticket at the second leg and pays gross − tare |
| RecepcionesService.PesajesCompletos | backend/services/recepcionesService.js:304-327 | one weighing row per leg sent |
| RecepcionesService.ConPesadas | backend/services/recepcionesService.js:304-327 | the legs sent are stored rounded, and the tare sets the exit time |
| RecepcionesService.RealizarPesajeCompleto | backend/services/recepcionesService.js:300-342 | weighing an unknown intake fails on the foreign key when a leg is sent and writes nothing; otherwise the legs are stored and the ticket issued when due |
| RecepcionesService.BuscarPorCodigo | backend/services/recepcionesService.js:143-152 | the lookup finds exactly the rows whose stored code matches the normalised query |
| RecepcionesService.CodigoGeneradoEsClave | backend/services/recepcionesService.js:143-152 | a generated code is unchanged by both the query and the column normalisation |
| RecepcionesService.CoincidenSoloIguales | backend/services/recepcionesService.js:143-152 | two generated codes of a kind match only when their ids are equal |
| RecepcionesService.CodigoEncuentraSuFila | backend/services/recepcionesService.js:143-152 | when every row holds its own generated code, a code finds its own row and only it |
| RecepcionesService.AltaConCodigo | backend/services/recepcionesService.js:129-137 | adding a row with its generated code keeps codes unique and makes the new code find it |
| RecepcionesService.CrearChofer | backend/services/recepcionesService.js:118-141 | a new driver gets code `CH-{company}-{id}`, and the lookup by that code finds exactly it |
| RecepcionesService.CrearCamion | backend/services/recepcionesService.js:163-186 | a new truck gets code `CA-{company}-{id}`, and the lookup by that code finds exactly it |
| RecepcionesService.CrearCarro | backend/services/recepcionesService.js:208-231 | a new trailer gets code `CR-{company}-{id}`, and the lookup by that code finds exactly it |
| Rut.WeightedSumDefined | frontend/js/usuarios.js:478-482 | the weighted sum is a number exactly when the body is all digits |
| Rut.ExpectedDvIsMod11 | frontend/js/maquila.js:75-77 | the expected check digit is the one that makes weighted sum plus digit a multiple of 11 (K = 10, 0 = 11) |
| Rut.QuitarSeparadores | frontend/js/maquila.js:64 | cleaning removes every dot, dash and white-space character |
| Rut.ValidarRutMaquila | frontend/js/maquila.js:62-78 | the maquila form accepts exactly a cleaned RUT whose last character is the check digit of the rest |
| Rut.SumarCuerpo | frontend/js/maquila.js:69-74 | the loop computes the modulo-11 weighted sum (weights 2..7 from the right) |
| Rut.RutConKMinuscula | frontend/js/maquila.js:62-78 | a RUT whose check digit is K is accepted when typed with a lower-case k |
| Common.RemoveChar | backend/services/recepcionesService.js:148 | every occurrence of the character is gone and every other character is kept as often as it occurred; a string without it is unchanged |
| Common.RemoveCharAppend | frontend/js/usuarios.js:472 | removal distributes over concatenation, so the kept characters keep their order |
| Rut.PrimerGuion | frontend/js/usuarios.js:472 | the index of the first dash: no dash before it, a dash at it unless it is the length |
| Rut.QuitarPrimerGuion | frontend/js/usuarios.js:472 | a dash-free string is unchanged, and at most one character is ever removed |
| Rut.QuitarEnPrimerGuion | frontend/js/usuarios.js:472 | the character removed is the first dash, and everything before and after it is kept in order |
| Rut.QuitaElPrimerGuion | frontend/js/usuarios.js:472 | for whichever index holds the first dash, the result is the string without exactly that character |
| Rut.ValidarRut | frontend/js/usuarios.js:471-487 | the users form accepts exactly a RUT of 8 or more characters (after cleaning) whose last character is the check digit of the rest |
| Rut.SumarCuerpoJs | frontend/js/usuarios.js:478-482 | the loop computes the modulo-11 weighted sum (weights 2..7 from the right), and NaN exactly when a body character is not a digit |
| Rut.UsuariosEsMaquilaConLargo | frontend/js/usuarios.js:471-487 | on clean input the users check is the maquila check plus the length floor |
| Rut.SoloCaracteresRut | frontend/js/usuarios.js:398 | typing keeps only digits, K/k, dots and dashes |
| Rut.SinFormato | frontend/js/usuarios.js:401 | the unformatted RUT has no dots or dashes |
| Rut.RutCrudo | frontend/js/usuarios.js:398-401 | the raw RUT is upper-case digits with at most a final K |
| Rut.AlEscribirRut | frontend/js/usuarios.js:396-420 | the field shows the formatted raw RUT and is marked valid exactly when the users check accepts it |
| Rut.AlEnviarRut | frontend/js/usuarios.js:422-431 | the form is blocked exactly when the users check rejects the raw RUT |
| Rut.FormatearEstable | frontend/js/usuarios.js:396-431 | re-reading a formatted RUT gives the same raw RUT, so submit agrees with what typing showed |
| WmsService.CantidadBase | backend/services/wmsService.js:214-225 | a positive requested quantity wins; otherwise the payable weight when positive; otherwise the physical net; 0 exactly when none is positive |
| WmsService.ResolverRecepcion | backend/services/wmsService.js:174-197 | the entry resolves to the one intake it names, by ticket code or by id |
| WmsService.RechazoLote | backend/services/wmsService.js:168-231 | a lot is created exactly when the entry and silo are given, the intake resolves and has a ticket, the silo exists and the quantity is positive |
| WmsService.LoteAceptado | backend/services/wmsService.js:168-231 | an accepted request names an existing ticketed intake, an existing silo and a positive quantity |
| WmsService.Ingresar | backend/services/wmsService.js:255-262 | only the destination silo changes: its level rises by the quantity, it takes the product if it had none, and the total in silos rises by the quantity |
| WmsService.CrearLoteDesdeRecepcion | backend/services/wmsService.js:162-293 | a refused request writes nothing; otherwise a new active lot, a silo intake and an `INGRESO_SILO` movement are stored, the total in lots rises by the quantity, and the lot lies in the destination silo |
| WmsService.RechazoTrasiego | backend/services/wmsService.js:302-355 | a transfer is accepted exactly when lot and two distinct silos exist, the quantity is positive, and both the lot and the source silo hold enough |
| WmsService.Trasladar | backend/services/wmsService.js:357-369 | the source loses and the destination gains the quantity, other silos are untouched, and the total in silos is unchanged |
| WmsService.RegistrarTrasiego | backend/services/wmsService.js:295-405 | a refused transfer writes nothing; otherwise silos are moved and a `TRASIEGO` movement logged, the lot row is not written, and the lot then lies in the destination silo |
| WmsService.RechazoMezcla | backend/services/wmsService.js:416-496 | a merge is accepted exactly when two distinct lots, the destination and both lots' current silos exist, the quantities are positive and both lots and silos hold enough |
| WmsService.CodigoMezcla | backend/services/wmsService.js:498-506 | a given lot code is used as is; otherwise a `MIX-` code that is never an intake ticket code |
| WmsService.SilosTrasMezcla | backend/services/wmsService.js:529-548 | each silo's new level is its old one plus the merged total if it is the destination, minus A's quantity if it is A's silo, minus B's if it is B's, so coinciding silos compound; the others are unchanged and the total in silos is conserved |
| WmsService.LotesTrasMezcla | backend/services/wmsService.js:509-641 | a new active lot of the combined quantity is added, each source loses its part, and the total in lots is unchanged |
| WmsService.MovimientosMezcla | backend/services/wmsService.js:552-628 | two `MEZCLA_SALIDA` rows from the source silos and one `MEZCLA_ENTRADA` row for the new lot, all into the destination |
| WmsService.RegistrarMezcla | backend/services/wmsService.js:407-653 | a refused merge writes nothing; otherwise lots, silos and movements change as above and the new lot (and both sources) lie in the destination silo |
| WmsService.MezclaSiloActual | backend/services/wmsService.js:552-628 | after the three merge movements, the new lot and both source lots lie in the destination silo |

## Left out

- HTTP routing, authentication, sessions and role checks are not modelled. Only the
  maquila movement route's own normalisation is.
- RecepcionesService.RegistrarPesaje, RecepcionesService.RealizarPesajeCompleto,
  LaboratorioService.UpsertLaboratorio, WmsService.Ingresar, WmsService.Trasladar,
  WmsService.RegistrarMezcla, WmsService.CrearLoteDesdeRecepcion, ProduccionService.AcreditarStock
  and ProduccionService.RegistrarRendimiento: kilograms, silo levels, lot quantities and
  stock are unbounded integers. The source's columns for them are PostgreSQL `INTEGER`
  (`backend/scripts/setup_schema.js:188-194`, 294-311, 351 and 397-402). A value outside
  −2^31..2^31−1 makes the source's UPDATE or INSERT fail with "integer out of range".
  The model stores the value and reports success. An example is a gross weighing of
  3 000 000 000 kg. That failure is not modelled.
- ProduccionService.CrearFormula: a proportion is an integer number of ten-thousandths of a
  kilogram, as `DECIMAL(12,4)` stores it. The rounding PostgreSQL applies to a value with
  more digits is not modelled, and neither is a proportion sent as text that is not a
  number. A NULL `producto_agricola_id` (the column allows it, and the foreign key does
  not check NULL) cannot be expressed, because an entry's product is an integer.
- The model holds one company. The `empresa_id` scoping of every query is not modelled.
  This includes production's silo update (`produccionService.js:194-203`), which
  filters by id only.
- Concurrency is not modelled. Neither are transactions: the source runs each statement
  on its own.
- Ordering, `LIMIT`s and display joins of listings are not modelled. Listings are sets or
  maps of ids. This covers the `LIMIT 500` of the statement and the `LIMIT 200` of the
  pending list.
- These listings and look-ups are not modelled:
  - `listarMovimientos`;
  - `obtenerRecepcionPorId`, `obtenerRecepcionPorTicket` and `obtenerRecepcionPorCodigo`;
  - the lab listings;
  - the production statistics.

  They only read and join.
- These columns are not modelled:
  - users, observations and reasons;
  - driver, truck and trailer details other than their codes;
  - sack counts and lab measures other than moisture and impurities.

  Uniqueness of RUTs and plates is not modelled either.
- Clocks and randomness are parameters: the date (`hoy`), timestamps (`now`,
  `ahoraMs`) and the random part of the QR token (`aleatorio`).
- PDF tickets, barcode rendering, real-time notifications and the DOM are not modelled.
- The product look-up by name in the direct maquila intake is a parameter.
- The scan parser's `decodeURIComponent` and `JSON.parse` are a parameter.
- `escapeCsv`'s `Date` branch and the export's file writing are not modelled.
- Form validators for e-mail and phone are not modelled.
- Floating-point display arithmetic of the web screens is not modelled.
- RecepcionesService.RealizarPesajeCompleto: a leg that `Number` turns into NaN is not
  modelled. A reading is a real, or absent.
- WmsService.CrearLoteDesdeRecepcion, WmsService.RegistrarTrasiego and
  WmsService.RegistrarMezcla: requested quantities are whole kilograms. So the source's
  `Math.round` of a quantity is the identity here, and fractional requests are not
  modelled.
- WmsService.CrearLoteDesdeRecepcion: a refusal is returned as a failure kind
  (`FallaLote`), not as the message text. `WmsService.MensajeLote` gives the text thrown
  for each kind.
- Codes.NormalizarCodigo, Codes.StoredCodeKey, RecepcionesService.BuscarPorCodigo,
  RecepcionesService.RegistrarPesaje and MaquilaRuta.RegistrarMovimientoRuta: upper-casing
  maps ASCII letters only. JavaScript's `toUpperCase` and SQL `UPPER` map all of Unicode,
  where `ß` becomes `SS` (so a result can be longer than its input) and `ı` becomes `I`.
- ProduccionService.ConsumirInsumo: each input is read through `lote_id` alone. The source
  also accepts an `id_lote` alias for the lot, movement and silo updates
  (`produccionService.js:190-212`) but writes the trace row from `lote_id`; that alias is
  not modelled. The web screen sends `lote_id` only.
- ProduccionService.ConsumirLotes and ProduccionService.RegistrarRendimiento: the same
  `id_lote` alias is not modelled.
- RecepcionesService.CrearRecepcion: the driver and trailer ids of the request are not
  modelled, so neither are their foreign keys.
- Foreign keys to users (`usuario_id` and similar) are not modelled, since users are not.
- A SERIAL value taken by an INSERT that then fails on a foreign key is not modelled: the
  model's counter stays put where the database's sequence skips one id.
- MaquilaService.NetoDirecto: an infinite `peso_neto` is `NonFinite`, so the model falls
  back to bruto − tara. The source keeps the infinity as the net, since it is neither falsy
  nor ≤ 0, and then fails writing it into an INTEGER column.
- MaquilaService.RechazoDirecto: an infinite bruto or tara counts as 0. The source's
  `Number(x) || 0` keeps it, so `peso_bruto: 1000, peso_tara: "Infinity"` yields a net of
  −Infinity and "Peso neto inválido", where the model accepts a net of 1000.
- MaquilaService.RegistrarRecepcionDirecta: because of the two lines above, it writes an
  intake for requests with an infinite weight that the source refuses or fails to write.
- MaquilaCliente.PrevisualizarRetiro and MaquilaCliente.CalcNetoExpress: form fields go
  through `NumOrZero`, which counts an infinity as 0. That matches the screens only if
  their number inputs never yield an infinity. The page markup is not part of this model,
  so this is not shown.
- MaquilaService.CuentaCorriente and MaquilaService.Resumen are ghost functions. They
  state what the statement and the summary contain; they are not queries that run.

=== FILE: codes.dfy ===
/**
 * The printed and scanned codes of the plant: normalised scan input, intake
 * ticket codes `R-YYYYMMDD-{id}`, merged-lot codes `MIX-YYYYMMDD-{a}-{b}`,
 * driver/truck/trailer codes `CH-`/`CA-`/`CR-{empresa}-{id}` and the ledger
 * barcode text `MOV-{id}`.
 */
module Codes {
  import opened Common

  // ---------------------------------------------------------------------------
  // Normalisation of scanned codes
  // ---------------------------------------------------------------------------

  /** `s.replace(/\s+/g, "")`: every white-space character removed. */
  function RemoveSpaces(s: string): (r: string)
    ensures |r| <= |s|
    ensures forall i :: 0 <= i < |r| ==> !IsSpace(r[i])
    ensures (forall i :: 0 <= i < |s| ==> !IsSpace(s[i])) ==> r == s
  {
    if s == [] then []
    else if IsSpace(s[0]) then RemoveSpaces(s[1..])
    else [s[0]] + RemoveSpaces(s[1..])
  }

  /**
   * `normalizarCodigo`: `String(value || "")`, trimmed, stripped of all white
   * space and upper-cased. A missing value is the empty string.
   */
  function NormalizarCodigo(value: string): (r: string)
    ensures |r| <= |value|
    ensures forall i :: 0 <= i < |r| ==> !IsSpace(r[i]) && !IsLowerAscii(r[i])
  {
    Upper(RemoveSpaces(Trim(value)))
  }

  /** Normalising twice is normalising once. */
  lemma NormalizarCodigoIdempotent(value: string)
    ensures NormalizarCodigo(NormalizarCodigo(value)) == NormalizarCodigo(value)
  {
    var n := NormalizarCodigo(value);
    assert Trim(n) == n;
    assert RemoveSpaces(n) == n;
    UpperIdempotent(RemoveSpaces(Trim(value)));
  }

  /** The trim is subsumed by the removal of all white space. */
  lemma {:induction false} RemoveSpacesTrimStart(s: string)
    ensures RemoveSpaces(TrimStart(s)) == RemoveSpaces(s)
  {
    if s != [] && IsSpace(s[0]) {
      RemoveSpacesTrimStart(s[1..]);
    }
  }

  lemma {:induction false} RemoveSpacesAppend(a: string, b: string)
    ensures RemoveSpaces(a + b) == RemoveSpaces(a) + RemoveSpaces(b)
  {
    if a != [] {
      assert (a + b)[1..] == a[1..] + b;
      RemoveSpacesAppend(a[1..], b);
    } else {
      assert a + b == b;
    }
  }

  lemma {:induction false} RemoveSpacesTrimEnd(s: string)
    ensures RemoveSpaces(TrimEnd(s)) == RemoveSpaces(s)
  {
    if s != [] && IsSpace(s[|s| - 1]) {
      var init := s[..|s| - 1];
      RemoveSpacesTrimEnd(init);
      assert s == init + [s[|s| - 1]];
      RemoveSpacesAppend(init, [s[|s| - 1]]);
      assert RemoveSpaces([s[|s| - 1]]) == [];
    }
  }

  /** So a code is normalised to the same text however it was padded. */
  lemma NormalizarSinTrim(value: string)
    ensures NormalizarCodigo(value) == Upper(RemoveSpaces(value))
  {
    RemoveSpacesTrimEnd(TrimStart(value));
    RemoveSpacesTrimStart(value);
  }

  /** SQL `UPPER(REPLACE(codigo, ' ', ''))`: only the plain space is removed. */
  function StoredCodeKey(codigo: string): string {
    Upper(RemoveChar(codigo, ' '))
  }

  /** The `WHERE` of `buscarChoferPorCodigo` and its truck and trailer twins. */
  predicate CodigoCoincide(stored: Option<string>, query: string) {
    stored.Some? && StoredCodeKey(stored.value) == NormalizarCodigo(query)
  }

  /**
   * A stored code without white space or lower-case letters is found by
   * itself and by any padded or lower-case spelling of itself.
   */
  lemma {:induction false} CodigoSeEncuentra(stored: string, query: string)
    requires forall i :: 0 <= i < |stored| ==> !IsSpace(stored[i])
    requires Upper(RemoveSpaces(query)) == Upper(stored)
    ensures CodigoCoincide(Some(stored), query)
  {
    NormalizarSinTrim(query);
    assert forall i :: 0 <= i < |stored| ==> stored[i] != ' ' by {
      assert IsSpace(' ');
    }
    assert RemoveChar(stored, ' ') == stored;
  }

  // ---------------------------------------------------------------------------
  // Codes of drivers, trucks and trailers
  // ---------------------------------------------------------------------------

  datatype EntityKind = Chofer | Camion | Carro

  function Prefix(k: EntityKind): string {
    match k
    case Chofer => "CH"
    case Camion => "CA"
    case Carro => "CR"
  }

  /** The code `crearChofer`, `crearCamion` and `crearCarro` assign. */
  function EntityCode(k: EntityKind, empresaId: nat, id: nat): (c: string)
    ensures |c| > |Prefix(k)| + 1 && c[..|Prefix(k)| + 1] == Prefix(k) + "-"
    ensures forall i :: 0 <= i < |c| ==> !IsSpace(c[i]) && !IsLowerAscii(c[i])
  {
    var c := Prefix(k) + "-" + NatToString(empresaId) + "-" + NatToString(id);
    assert forall i :: |Prefix(k)| + 1 <= i < |c| ==> IsDigit(c[i]) || c[i] == '-';
    c
  }

  /** Within one company and kind, distinct rows get distinct codes. */
  lemma EntityCodeInjective(k: EntityKind, empresaId: nat, a: nat, b: nat)
    requires EntityCode(k, empresaId, a) == EntityCode(k, empresaId, b)
    ensures a == b
  {
    var head := Prefix(k) + "-" + NatToString(empresaId) + "-";
    assert EntityCode(k, empresaId, a) == head + NatToString(a);
    assert EntityCode(k, empresaId, b) == head + NatToString(b);
    assert NatToString(a) == EntityCode(k, empresaId, a)[|head|..];
    assert NatToString(b) == EntityCode(k, empresaId, b)[|head|..];
    NatToStringInjective(a, b);
  }

  /** A generated code, scanned back as typed or in lower case, finds its row. */
  lemma EntityCodeSeEncuentra(k: EntityKind, empresaId: nat, id: nat)
    ensures CodigoCoincide(Some(EntityCode(k, empresaId, id)), EntityCode(k, empresaId, id))
  {
    var c := EntityCode(k, empresaId, id);
    assert RemoveSpaces(c) == c;
    CodigoSeEncuentra(c, c);
  }

  // ---------------------------------------------------------------------------
  // Dates in codes
  // ---------------------------------------------------------------------------

  /** The local calendar date of "now", read by the caller. */
  datatype Date = Date(year: nat, month: nat, day: nat)

  predicate ValidDate(d: Date) {
    1000 <= d.year <= 9999 && 1 <= d.month <= 12 && 1 <= d.day <= 31
  }

  /** `${y}${m}${d}` with month and day padded to two digits. */
  function DateStamp(d: Date): (s: string)
    ensures AllDigits(s)
  {
    NatToString(d.year) + Pad2(d.month) + Pad2(d.day)
  }

  /** `buildTicketCodigo`: `R-YYYYMMDD-{recepcionId}`. */
  function BuildTicketCodigo(d: Date, recepcionId: nat): (c: string)
    requires ValidDate(d)
    ensures |c| >= 12 && c[..2] == "R-" && c[10] == '-'
    ensures AllDigits(c[2..10]) && AllDigits(c[11..])
  {
    NatToStringFourDigits(d.year);
    Pad2Value(d.month);
    Pad2Value(d.day);
    "R-" + DateStamp(d) + "-" + NatToString(recepcionId)
  }

  /** Reads a ticket code back into its date and intake id. */
  function ParseTicketCodigo(c: string): Option<(Date, nat)> {
    if |c| >= 12 && c[..2] == "R-" && c[10] == '-' && AllDigits(c[11..])
       && AllDigits(c[2..6]) && AllDigits(c[6..8]) && AllDigits(c[8..10])
    then
      Some((Date(DigitsValue(c[2..6]), DigitsValue(c[6..8]), DigitsValue(c[8..10])), DigitsValue(c[11..])))
    else
      None
  }

  lemma DateStampParts(d: Date)
    requires ValidDate(d)
    ensures |DateStamp(d)| == 8
    ensures DigitsValue(DateStamp(d)[..4]) == d.year
    ensures DigitsValue(DateStamp(d)[4..6]) == d.month
    ensures DigitsValue(DateStamp(d)[6..]) == d.day
  {
    var s := DateStamp(d);
    NatToStringFourDigits(d.year);
    Pad2Value(d.month);
    Pad2Value(d.day);
    DigitsValueOfNatToString(d.year);
    assert s[..4] == NatToString(d.year);
    assert s[4..6] == Pad2(d.month);
    assert s[6..] == Pad2(d.day);
  }

  /** The ticket code encodes the date and the intake id, and nothing is lost. */
  lemma TicketCodigoRoundTrip(d: Date, recepcionId: nat)
    requires ValidDate(d)
    ensures ParseTicketCodigo(BuildTicketCodigo(d, recepcionId)) == Some((d, recepcionId))
  {
    var c := BuildTicketCodigo(d, recepcionId);
    var s := DateStamp(d);
    DateStampParts(d);
    assert c[2..10] == s;
    assert c[2..6] == s[..4];
    assert c[6..8] == s[4..6];
    assert c[8..10] == s[6..];
    assert c[11..] == NatToString(recepcionId);
    DigitsValueOfNatToString(recepcionId);
  }

  /** Two intakes never share a ticket code, whatever the dates. */
  lemma TicketCodigoInjective(d1: Date, id1: nat, d2: Date, id2: nat)
    requires ValidDate(d1) && ValidDate(d2)
    requires BuildTicketCodigo(d1, id1) == BuildTicketCodigo(d2, id2)
    ensures id1 == id2 && d1 == d2
  {
    TicketCodigoRoundTrip(d1, id1);
    TicketCodigoRoundTrip(d2, id2);
  }

  /** The code reads back as a ticket of intake `id`. */
  predicate EsTicketDe(c: string, id: int) {
    var p := ParseTicketCodigo(c);
    p.Some? && p.value.1 == id
  }

  /** A code built for an intake belongs to that intake. */
  lemma TicketEsDe(d: Date, id: nat)
    requires ValidDate(d)
    ensures EsTicketDe(BuildTicketCodigo(d, id), id)
  {
    TicketCodigoRoundTrip(d, id);
  }

  /**
   * The secret token printed beside a ticket code:
   * `T-{empresaId}-{id}-{random part}`, upper-cased; the random part (and the
   * base-36 clock where the caller appends one) is given by the caller.
   */
  function TokenTicket(empresaId: nat, id: nat, aleatorio: string): (t: string)
    ensures |t| > 2 && t[..2] == "T-"
    ensures forall i :: 0 <= i < |t| ==> !IsLowerAscii(t[i])
  {
    Upper("T-" + NatToString(empresaId) + "-" + NatToString(id) + "-" + aleatorio)
  }

  /** `MIX-${y}${m}${d}-${loteA}-${loteB}`, the default code of a merged lot. */
  function MezclaCodigo(d: Date, loteA: int, loteB: int): (c: string)
    requires ValidDate(d)
    ensures |c| > 13 && c[..4] == "MIX-" && AllDigits(c[4..12]) && c[12] == '-'
  {
    DateStampParts(d);
    "MIX-" + DateStamp(d) + "-" + IntToString(loteA) + "-" + IntToString(loteB)
  }

  /** A merge code never looks like an intake ticket. */
  lemma MezclaNoEsTicket(d: Date, a: int, b: int)
    requires ValidDate(d)
    ensures ParseTicketCodigo(MezclaCodigo(d, a, b)).None?
  {
    var c := MezclaCodigo(d, a, b);
    assert c[..2] == "MI";
  }

  // ---------------------------------------------------------------------------
  // Ledger barcode
  // ---------------------------------------------------------------------------

  /** The text of the Code 128 barcode of a maquila movement: `MOV-{id}`. */
  function MovimientoBarcode(id: string): (t: string)
    ensures |t| == |id| + 4 && t[..4] == "MOV-" && t[4..] == id
  {
    "MOV-" + id
  }

  function ParseMovimientoBarcode(t: string): Option<string> {
    if |t| >= 4 && t[..4] == "MOV-" then Some(t[4..]) else None
  }

  /** A movement id of the ledger is read back from its barcode. */
  lemma MovimientoBarcodeRoundTrip(id: nat)
    ensures ParseMovimientoBarcode(MovimientoBarcode(NatToString(id))).Some?
    ensures DigitsValue(ParseMovimientoBarcode(MovimientoBarcode(NatToString(id))).value) == id
  {
    DigitsValueOfNatToString(id);
  }
}

=== FILE: common.dfy ===
/**
 * Values shared by every part of the model: optional columns, service results,
 * JavaScript numbers, the two rounding rules in use (JavaScript's `Math.round`
 * and PostgreSQL's `ROUND` on numerics), and the string operations the source
 * relies on (`trim`, `/\s/`, `toUpperCase`, decimal rendering of integers).
 */
module Common {

  /** A nullable column or an optional field. */
  datatype Option<+T> = None | Some(value: T) {
    function GetOr(default: T): T {
      if Some? then value else default
    }
  }

  /** What a service call returns: a value, or the text of the `Error` it throws. */
  datatype Result<+T> = Ok(value: T) | Err(msg: string)

  /**
   * A service result whose failure is named by a kind rather than by its text;
   * each service maps the kind to the text it throws.
   */
  datatype Resultado<+T, +F> = Hecho(value: T) | Falla(causa: F)

  /**
   * A JavaScript number as produced by `Number(x)` on a request field. Quantities
   * are whole kilograms (or hundredths of a percent), so a finite value is an
   * `int`; `NonFinite` stands for NaN and the two infinities.
   */
  datatype JsNum = Finite(v: int) | NonFinite

  /**
   * `Number(x) || 0` on a form field: NaN counts as 0. JavaScript keeps an
   * infinity (it is truthy); `NonFinite` does not tell it from NaN, so here it
   * counts as 0 too.
   */
  function NumOrZero(x: JsNum): int {
    if x.Finite? then x.v else 0
  }

  /** An id field read with `x || null`: 0 (or NaN) becomes NULL. */
  function IdOrNull(x: int): (r: Option<int>)
    ensures r.Some? <==> x != 0
    ensures r.Some? ==> r.value == x
  {
    if x == 0 then None else Some(x)
  }

  function Max(a: int, b: int): (m: int)
    ensures m >= a && m >= b && (m == a || m == b)
  {
    if a >= b then a else b
  }

  /** Multiplying by a non-negative factor keeps the order. */
  lemma MulMonotone(c: int, x: int, y: int)
    requires c >= 0 && x <= y
    ensures c * x <= c * y
  {
    assert c * y - c * x == c * (y - x);
  }

  /**
   * JavaScript's `Math.round(n / d)` for d > 0: the integer r with
   * r <= n/d + 1/2 < r + 1 (halves round up, towards +infinity).
   */
  function JsRoundDiv(n: int, d: int): (r: int)
    requires d > 0
    ensures 2 * d * r <= 2 * n + d < 2 * d * r + 2 * d
  {
    (2 * n + d) / (2 * d)
  }

  /**
   * PostgreSQL's `ROUND(n / d)` on a numeric with d > 0: halves round away
   * from zero, so it is symmetric around 0, unlike `Math.round`.
   */
  function PgRoundDiv(n: int, d: int): (r: int)
    requires d > 0
    ensures n >= 0 ==> r == JsRoundDiv(n, d)
    ensures n < 0 ==> r == -JsRoundDiv(-n, d)
  {
    if n >= 0 then JsRoundDiv(n, d) else -JsRoundDiv(-n, d)
  }

  /** Unlike `Math.round`, `ROUND` treats n and -n alike. */
  lemma PgRoundSymmetric(n: int, d: int)
    requires d > 0
    ensures PgRoundDiv(-n, d) == -PgRoundDiv(n, d)
  {
  }

  // ---------------------------------------------------------------------------
  // Characters and strings
  // ---------------------------------------------------------------------------

  predicate IsDigit(c: char) {
    '0' <= c <= '9'
  }

  predicate AllDigits(s: string) {
    forall i :: 0 <= i < |s| ==> IsDigit(s[i])
  }

  /**
   * The characters JavaScript's `\s` and `String.prototype.trim` treat as white
   * space: the ECMAScript WhiteSpace and LineTerminator code points.
   */
  predicate IsSpace(c: char) {
    c == ' ' || c == '\t' || c == '\n' || c == '\r' || c == '\U{000B}' || c == '\U{000C}'
    || c == '\U{00A0}' || c == '\U{1680}' || ('\U{2000}' <= c <= '\U{200A}')
    || c == '\U{2028}' || c == '\U{2029}' || c == '\U{202F}' || c == '\U{205F}'
    || c == '\U{3000}' || c == '\U{FEFF}'
  }

  predicate IsLowerAscii(c: char) {
    'a' <= c <= 'z'
  }

  /** `toUpperCase` on one character, for the ASCII letters. */
  function UpperChar(c: char): (u: char)
    ensures !IsLowerAscii(u)
    ensures !IsLowerAscii(c) ==> u == c
    ensures IsSpace(u) <==> IsSpace(c)
    ensures IsDigit(u) <==> IsDigit(c)
  {
    if IsLowerAscii(c) then (c as int - 32) as char else c
  }

  function Upper(s: string): (u: string)
    ensures |u| == |s|
    ensures forall i :: 0 <= i < |s| ==> u[i] == UpperChar(s[i])
  {
    if s == [] then [] else [UpperChar(s[0])] + Upper(s[1..])
  }

  lemma {:induction false} UpperIdempotent(s: string)
    ensures Upper(Upper(s)) == Upper(s)
  {
    var u := Upper(s);
    var uu := Upper(u);
    assert |uu| == |u|;
    forall i | 0 <= i < |u| ensures uu[i] == u[i] {
      assert !IsLowerAscii(u[i]);
    }
  }

  lemma UpperAppend(a: string, b: string)
    ensures Upper(a + b) == Upper(a) + Upper(b)
  {
    var l := Upper(a + b);
    var r := Upper(a) + Upper(b);
    assert |l| == |r|;
    forall i | 0 <= i < |l| ensures l[i] == r[i] {
      if i < |a| {
        assert (a + b)[i] == a[i];
      } else {
        assert (a + b)[i] == b[i - |a|];
      }
    }
  }

  /** `s.trim()`: drops white space at both ends. */
  function Trim(s: string): (t: string)
    ensures |t| <= |s|
    ensures t != [] ==> !IsSpace(t[0]) && !IsSpace(t[|t| - 1])
    ensures (forall i :: 0 <= i < |s| ==> !IsSpace(s[i])) ==> t == s
  {
    TrimEnd(TrimStart(s))
  }

  function TrimStart(s: string): (t: string)
    ensures |t| <= |s| && t == s[|s| - |t|..]
    ensures t != [] ==> !IsSpace(t[0])
  {
    if s != [] && IsSpace(s[0]) then TrimStart(s[1..]) else s
  }

  function TrimEnd(s: string): (t: string)
    ensures |t| <= |s| && t == s[..|t|]
    ensures t != [] ==> !IsSpace(t[|t| - 1])
    ensures t != [] && !IsSpace(s[0]) ==> !IsSpace(t[0])
  {
    if s != [] && IsSpace(s[|s| - 1]) then TrimEnd(s[..|s| - 1]) else s
  }

  predicate Contains(s: string, c: char) {
    exists i :: 0 <= i < |s| && s[i] == c
  }

  /**
   * Every occurrence of `c` deleted and the other characters kept: a global
   * `replace` of one character by nothing, in JavaScript or in SQL.
   */
  function RemoveChar(s: string, c: char): (r: string)
    ensures |r| <= |s|
    ensures forall i :: 0 <= i < |r| ==> r[i] != c
    ensures multiset(r) == multiset(s)[c := 0]
    ensures (forall i :: 0 <= i < |s| ==> s[i] != c) ==> r == s
  {
    if s == [] then []
    else
      assert s == [s[0]] + s[1..];
      if s[0] == c then RemoveChar(s[1..], c)
      else [s[0]] + RemoveChar(s[1..], c)
  }

  /** Removal works piece by piece, so the kept characters stay in their order. */
  lemma {:induction false} RemoveCharAppend(a: string, b: string, c: char)
    ensures RemoveChar(a + b, c) == RemoveChar(a, c) + RemoveChar(b, c)
  {
    if a == [] {
      assert a + b == b;
    } else {
      assert (a + b)[0] == a[0] && (a + b)[1..] == a[1..] + b;
      RemoveCharAppend(a[1..], b, c);
    }
  }

  /** `parts.join(sep)`. */
  function Join(parts: seq<string>, sep: string): string {
    if parts == [] then ""
    else if |parts| == 1 then parts[0]
    else parts[0] + sep + Join(parts[1..], sep)
  }

  // ---------------------------------------------------------------------------
  // Decimal rendering of integers (`String(n)`, template literals)
  // ---------------------------------------------------------------------------

  function DigitChar(d: nat): (c: char)
    requires d < 10
    ensures IsDigit(c) && c as int == '0' as int + d
  {
    ('0' as int + d) as char
  }

  function DigitValue(c: char): (d: nat)
    requires IsDigit(c)
    ensures d < 10 && DigitChar(d) == c
  {
    c as int - '0' as int
  }

  /** `String(n)` for a non-negative integer: decimal, no leading zeros. */
  function NatToString(n: nat): (s: string)
    ensures |s| >= 1 && AllDigits(s)
    ensures |s| > 1 ==> s[0] != '0'
  {
    if n < 10 then [DigitChar(n)] else NatToString(n / 10) + [DigitChar(n % 10)]
  }

  /** `String(n)` for any integer. */
  function IntToString(n: int): (s: string)
    ensures n >= 0 ==> s == NatToString(n)
    ensures n < 0 ==> s == "-" + NatToString(-n)
  {
    if n >= 0 then NatToString(n) else "-" + NatToString(-n)
  }

  /** The value of a non-empty string of digits (`Number("007") == 7`). */
  function DigitsValue(s: string): nat
    requires AllDigits(s)
  {
    if s == [] then 0 else 10 * DigitsValue(s[..|s| - 1]) + DigitValue(s[|s| - 1])
  }

  lemma {:induction false} DigitsValueOfNatToString(n: nat)
    ensures DigitsValue(NatToString(n)) == n
  {
    var s := NatToString(n);
    if n >= 10 {
      DigitsValueOfNatToString(n / 10);
      assert s[..|s| - 1] == NatToString(n / 10);
      assert DigitValue(s[|s| - 1]) == n % 10;
    }
  }

  /** Distinct numbers render as distinct strings. */
  lemma NatToStringInjective(a: nat, b: nat)
    requires NatToString(a) == NatToString(b)
    ensures a == b
  {
    DigitsValueOfNatToString(a);
    DigitsValueOfNatToString(b);
  }

  lemma {:induction false} NatToStringFourDigits(n: nat)
    requires 1000 <= n <= 9999
    ensures |NatToString(n)| == 4
  {
    assert NatToString(n) == NatToString(n / 10) + [DigitChar(n % 10)];
    assert NatToString(n / 10) == NatToString(n / 100) + [DigitChar((n / 10) % 10)];
    assert NatToString(n / 100) == NatToString(n / 1000) + [DigitChar((n / 100) % 10)];
    assert |NatToString(n / 1000)| == 1;
  }

  /** `String(n).padStart(2, "0")`. */
  function Pad2(n: nat): (s: string)
    ensures AllDigits(s) && |s| >= 2
  {
    if n < 10 then "0" + NatToString(n) else NatToString(n)
  }

  lemma {:induction false} Pad2Value(n: nat)
    requires n < 100
    ensures |Pad2(n)| == 2 && DigitsValue(Pad2(n)) == n
  {
    if n < 10 {
      var p := Pad2(n);
      assert p == ['0', DigitChar(n)];
      assert p[..1] == ['0'] && p[..1][..0] == [];
      assert DigitValue(p[1]) == n;
      assert DigitsValue(p[..1]) == 10 * DigitsValue(p[..1][..0]) + DigitValue('0') == 0;
      assert p[..|p| - 1] == p[..1];
    } else {
      DigitsValueOfNatToString(n);
      assert NatToString(n) == NatToString(n / 10) + [DigitChar(n % 10)];
      assert NatToString(n / 10) == [DigitChar(n / 10)];
    }
  }
}

=== FILE: csv.dfy ===
/**
 * The database export (`escapeCsv`, `rowsToCsv`): fields are quoted as in
 * section 2 (rules 6 and 7) of RFC 4180, records are separated by a bare LF.
 * A cell is the string form of the column value, or None for SQL NULL and for
 * a key the row does not have (`undefined`).
 */
module Csv {
  import opened Common

  function Count(s: string, c: char): nat {
    if s == [] then 0 else (if s[0] == c then 1 else 0) + Count(s[1..], c)
  }

  lemma {:induction false} CountAppend(a: string, b: string, c: char)
    ensures Count(a + b, c) == Count(a, c) + Count(b, c)
  {
    if a == [] {
      assert a + b == b;
    } else {
      assert (a + b)[1..] == a[1..] + b;
      CountAppend(a[1..], b, c);
    }
  }

  lemma {:induction false} CountAbsent(s: string, c: char)
    requires !Contains(s, c)
    ensures Count(s, c) == 0
  {
    if s != [] {
      assert !Contains(s[1..], c) by {
        forall i | 0 <= i < |s[1..]| ensures s[1..][i] != c {
          assert s[1..][i] == s[i + 1];
        }
      }
      CountAbsent(s[1..], c);
    }
  }

  predicate NeedsQuoting(s: string) {
    Contains(s, '"') || Contains(s, ',') || Contains(s, '\n') || Contains(s, '\r')
  }

  /** `s.replace(/"/g, '""')`. */
  function DoubleQuotes(s: string): (r: string)
    ensures |r| >= |s|
  {
    if s == [] then []
    else if s[0] == '"' then "\"\"" + DoubleQuotes(s[1..])
    else [s[0]] + DoubleQuotes(s[1..])
  }

  /** `escapeCsv` for a value that is not a `Date`. */
  function EscapeCsv(v: Option<string>): (r: string)
    ensures v.None? ==> r == ""
    ensures v.Some? ==> (r == v.value <==> !NeedsQuoting(v.value))
    ensures (Contains(r, ',') || Contains(r, '\n') || Contains(r, '\r') || Contains(r, '"'))
            ==> |r| >= 2 && r[0] == '"' && r[|r| - 1] == '"'
  {
    if v.None? then ""
    else if NeedsQuoting(v.value) then "\"" + DoubleQuotes(v.value) + "\""
    else v.value
  }

  /** Collapses each `""` back to `"`; the reading of a quoted field's interior. */
  function Undouble(t: string): string {
    if t == [] then []
    else if |t| >= 2 && t[0] == '"' && t[1] == '"' then "\"" + Undouble(t[2..])
    else [t[0]] + Undouble(t[1..])
  }

  /** A reader's view of one field: strip the outer quotes and undouble the interior. */
  function UnescapeCsv(f: string): string {
    if |f| >= 2 && f[0] == '"' && f[|f| - 1] == '"' then Undouble(f[1..|f| - 1]) else f
  }

  lemma {:induction false} UndoubleDoubleQuotes(s: string)
    ensures Undouble(DoubleQuotes(s)) == s
  {
    if s != [] {
      UndoubleDoubleQuotes(s[1..]);
      if s[0] == '"' {
        assert DoubleQuotes(s)[2..] == DoubleQuotes(s[1..]);
      } else {
        assert DoubleQuotes(s)[1..] == DoubleQuotes(s[1..]);
        assert DoubleQuotes(s)[0] == s[0];
      }
      assert s == [s[0]] + s[1..];
    }
  }

  /** Escaping loses nothing: every non-null value is read back as written. */
  lemma EscapeCsvRoundTrip(s: string)
    ensures UnescapeCsv(EscapeCsv(Some(s))) == s
  {
    if NeedsQuoting(s) {
      var r := EscapeCsv(Some(s));
      assert r[1..|r| - 1] == DoubleQuotes(s);
      UndoubleDoubleQuotes(s);
    } else if |s| >= 2 {
      assert !Contains(s, '"');
      assert s[0] != '"';
    }
  }

  /** The cell of column k: `escapeCsv(r[k])`, a missing key reading as `undefined`. */
  function Cell(row: map<string, Option<string>>, k: string): string {
    EscapeCsv(if k in row then row[k] else None)
  }

  function Cells(keys: seq<string>, row: map<string, Option<string>>): (cs: seq<string>)
    ensures |cs| == |keys|
    ensures forall i :: 0 <= i < |keys| ==> cs[i] == Cell(row, keys[i])
  {
    if keys == [] then [] else [Cell(row, keys[0])] + Cells(keys[1..], row)
  }

  function Lines(keys: seq<string>, rows: seq<map<string, Option<string>>>): (ls: seq<string>)
    ensures |ls| == |rows|
    ensures forall i :: 0 <= i < |rows| ==> ls[i] == Join(Cells(keys, rows[i]), ",")
  {
    if rows == [] then [] else [Join(Cells(keys, rows[0]), ",")] + Lines(keys, rows[1..])
  }

  /** `rowsToCsv`: a header line of the keys, then one line per row, LF-separated. */
  function RowsToCsv(keys: seq<string>, rows: seq<map<string, Option<string>>>): string {
    Join([Join(keys, ",")] + Lines(keys, rows), "\n")
  }

  lemma {:induction false} CountJoin(parts: seq<string>, sep: string, c: char)
    requires parts != []
    ensures Count(Join(parts, sep), c) == (|parts| - 1) * Count(sep, c) + SumCounts(parts, c)
  {
    if |parts| > 1 {
      CountJoin(parts[1..], sep, c);
      CountAppend(parts[0] + sep, Join(parts[1..], sep), c);
      CountAppend(parts[0], sep, c);
    }
  }

  function SumCounts(parts: seq<string>, c: char): nat {
    if parts == [] then 0 else Count(parts[0], c) + SumCounts(parts[1..], c)
  }

  lemma {:induction false} SumCountsZero(parts: seq<string>, c: char)
    requires forall i :: 0 <= i < |parts| ==> !Contains(parts[i], c)
    ensures SumCounts(parts, c) == 0
  {
    if parts != [] {
      CountAbsent(parts[0], c);
      SumCountsZero(parts[1..], c);
    }
  }

  predicate NoNewlineIn(row: map<string, Option<string>>) {
    forall k :: k in row && row[k].Some? ==> !Contains(row[k].value, '\n')
  }

  lemma CellNoNewline(row: map<string, Option<string>>, k: string)
    requires NoNewlineIn(row)
    ensures !Contains(Cell(row, k), '\n')
  {
    if k in row && row[k].Some? && NeedsQuoting(row[k].value) {
      var s := row[k].value;
      DoubleQuotesKeeps(s, '\n');
    }
  }

  lemma {:induction false} DoubleQuotesKeeps(s: string, c: char)
    requires c != '"' && !Contains(s, c)
    ensures !Contains(DoubleQuotes(s), c)
  {
    if s != [] {
      assert !Contains(s[1..], c) by {
        forall i | 0 <= i < |s[1..]| ensures s[1..][i] != c {
          assert s[1..][i] == s[i + 1];
        }
      }
      DoubleQuotesKeeps(s[1..], c);
      var r := DoubleQuotes(s);
      var head := if s[0] == '"' then "\"\"" else [s[0]];
      assert r == head + DoubleQuotes(s[1..]);
      forall i | 0 <= i < |r| ensures r[i] != c {
        if i >= |head| {
          assert r[i] == DoubleQuotes(s[1..])[i - |head|];
        }
      }
    }
  }

  lemma LineNoNewline(keys: seq<string>, row: map<string, Option<string>>)
    requires NoNewlineIn(row)
    ensures Count(Join(Cells(keys, row), ","), '\n') == 0
  {
    var cs := Cells(keys, row);
    if cs != [] {
      forall i | 0 <= i < |cs| ensures !Contains(cs[i], '\n') {
        CellNoNewline(row, keys[i]);
      }
      SumCountsZero(cs, '\n');
      CountJoin(cs, ",", '\n');
    } else {
      assert Join(cs, ",") == "";
    }
  }

  lemma {:induction false} CountZero(s: string, c: char)
    requires Count(s, c) == 0
    ensures !Contains(s, c)
  {
    if Contains(s, c) {
      var p :| 0 <= p < |s| && s[p] == c;
      CountPositive(s, p, c);
    }
  }

  lemma {:induction false} CountPositive(s: string, p: nat, c: char)
    requires p < |s| && s[p] == c
    ensures Count(s, c) > 0
  {
    if p > 0 {
      CountPositive(s[1..], p - 1, c);
    }
  }

  lemma HeaderNoNewline(keys: seq<string>)
    requires forall i :: 0 <= i < |keys| ==> !Contains(keys[i], '\n')
    ensures !Contains(Join(keys, ","), '\n')
  {
    if keys != [] {
      SumCountsZero(keys, '\n');
      CountJoin(keys, ",", '\n');
      CountZero(Join(keys, ","), '\n');
    }
  }

  /**
   * With no line break in a key or a value, the export has exactly one line per
   * row after the header: as many LF characters as rows.
   */
  lemma RowsToCsvLineCount(keys: seq<string>, rows: seq<map<string, Option<string>>>)
    requires forall i :: 0 <= i < |keys| ==> !Contains(keys[i], '\n')
    requires forall j :: 0 <= j < |rows| ==> NoNewlineIn(rows[j])
    ensures Count(RowsToCsv(keys, rows), '\n') == |rows|
  {
    var ls := Lines(keys, rows);
    var parts := [Join(keys, ",")] + ls;
    forall i | 0 <= i < |parts| ensures !Contains(parts[i], '\n') {
      if i == 0 {
        HeaderNoNewline(keys);
      } else {
        assert parts[i] == Join(Cells(keys, rows[i - 1]), ",");
        LineNoNewline(keys, rows[i - 1]);
        CountZero(parts[i], '\n');
      }
    }
    SumCountsZero(parts, '\n');
    CountJoin(parts, "\n", '\n');
  }
}

=== FILE: database.dfy ===
/**
 * The tables of one company (`empresa`) that the inventory, production and
 * maquila services read and write. Every table the services change in place is
 * a field of `Store`; a table with a SERIAL key is a map from id to row plus
 * the next value of its sequence; an append-only table whose order matters is
 * a sequence. Columns the services never read back are not modelled.
 * Weights are whole kilograms; percentages are hundredths of a percent.
 */
module Database {
  import opened Common
  import opened Codes

  // ---------------------------------------------------------------------------
  // Rows
  // ---------------------------------------------------------------------------

  /**
   * A row of `recepciones` (weighbridge intake). `bruto`, `tara`, the discounts
   * and `netoPagar` are INTEGER columns defaulting to 0; `fechaSalida` is the
   * exit time (the caller's clock).
   */
  datatype Recepcion = Recepcion(
    tipo: string,                      // 'compra' or 'maquila'
    sucursalId: Option<int>,
    proveedorId: Option<int>,
    clienteId: Option<int>,
    productoId: Option<int>,           // producto_agricola_id
    bruto: Option<int>,
    tara: Option<int>,
    descHumedad: Option<int>,
    descImpurezas: Option<int>,
    netoPagar: Option<int>,            // peso_neto_a_pagar_kg
    ticketCodigo: Option<string>,
    ticketToken: Option<string>,
    estado: string,
    fechaSalida: Option<int>)

  /** The generated column `peso_neto_fisico_kg = peso_bruto_kg - peso_tara_kg`. */
  function NetoFisico(r: Recepcion): (n: Option<int>)
    ensures n.Some? <==> r.bruto.Some? && r.tara.Some?
    ensures n.Some? ==> n.value + r.tara.value == r.bruto.value
  {
    if r.bruto.Some? && r.tara.Some? then Some(r.bruto.value - r.tara.value) else None
  }

  /** A row of `pesajes`: one weighing of an intake. */
  datatype Pesaje = Pesaje(recepcionId: int, tipo: string, pesoKg: int, fecha: int)

  /** The lab measures a discount is computed from (`laboratorio`, one row per intake). */
  datatype LabRow = LabRow(humedad: Option<int>, impurezas: Option<int>)

  /** `silos`: `capacidad_max_kg`, current level (`COALESCE(nivel_actual_kg, 0)`) and stored product. */
  datatype Silo = Silo(capacidad: int, nivel: int, productoActual: Option<int>)

  /** `lotes`: a traceable batch of grain (`codigo_lote`, `cantidad_inicial_kg`, `cantidad_actual_kg`). */
  datatype Lote = Lote(codigo: string, recepcionId: Option<int>, inicial: int, actual: int, estado: string)

  const LoteActivo: string := "activo"
  const LoteConsumido: string := "consumido"

  datatype TipoMovimiento = IngresoSilo | Trasiego | MezclaSalida | MezclaEntrada | ConsumoProduccion

  /** `movimientos_inventario`: one movement of a lot between silos. `fecha` defaults to now(). */
  datatype Movimiento = Movimiento(
    id: int, tipo: TipoMovimiento, origen: Option<int>, destino: Option<int>,
    lote: int, kg: int, fecha: int)

  /** `formulas` and `formula_ingredientes`. */
  datatype Formula = Formula(nombre: string, descripcion: Option<string>, productoTerminadoId: Option<int>,
                             mermaTolerablePct: Option<int>)
  /** `proporcion_kg_por_unidad` is `DECIMAL(12,4) NOT NULL`: held in ten-thousandths of a kilogram. */
  datatype Ingrediente = Ingrediente(formulaId: int, productoAgricolaId: int, proporcion: int)

  /** `ordenes_produccion`. */
  datatype Orden = Orden(numeroOp: string, sucursalId: Option<int>, formulaId: int,
                         productoObjetivoId: Option<int>, cantidadObjetivo: Option<int>, estado: string)

  const OrdenAbierta: string := "abierta"
  const OrdenFinalizada: string := "finalizada"

  /** `rendimientos`; the by-product columns default to 0 and the service never sets them. */
  datatype Rendimiento = Rendimiento(ordenId: int, trigo: int, harina: int,
                                     afrecho: int, semita: int, otros: int)

  /** The generated column `merma_kg = trigo - (harina + afrecho + semita + otros)`. */
  function Merma(r: Rendimiento): (m: int)
    ensures m + r.harina + r.afrecho + r.semita + r.otros == r.trigo
  {
    r.trigo - (r.harina + r.afrecho + r.semita + r.otros)
  }

  /** `produccion_subproductos_obtenidos` and `orden_produccion_insumos`. */
  datatype Subproducto = Subproducto(rendimientoId: int, nombre: string, kg: int)
  datatype Insumo = Insumo(ordenId: int, loteId: int, kg: int)

  /**
   * `maquila_movimientos`: one line of a client's flour account. `kg` is the
   * signed DECIMAL(12,2) column, held in hundredths of a kilogram.
   */
  datatype MovMaquila = MovMaquila(
    id: int, sucursalId: Option<int>, bodegaId: Option<int>, clienteId: Option<int>,
    productoHarinaId: Option<int>, recepcionId: Option<int>, tipo: string, kg: int)

  const CreditoConfirmado: string := "CREDITO_HARINA_CONFIRMADO_KG"
  const RetiroHarina: string := "RETIRO_HARINA_KG"

  /** `maquila_tipos_trabajo`: a milling percentage offered to clients. */
  datatype TipoTrabajo = TipoTrabajo(nombre: string, porcentaje: int, productoHarinaId: Option<int>,
                                     activo: bool, orden: int)

  predicate TicketsPropios(recepciones: map<int, Recepcion>) {
    forall id :: id in recepciones && recepciones[id].ticketCodigo.Some? ==>
      EsTicketDe(recepciones[id].ticketCodigo.value, id)
  }

  /** With codes owned by their intakes, a ticket code identifies at most one intake. */
  lemma TicketUnico(recepciones: map<int, Recepcion>, a: int, b: int)
    requires TicketsPropios(recepciones)
    requires a in recepciones && b in recepciones && recepciones[a].ticketCodigo.Some?
    requires recepciones[a].ticketCodigo == recepciones[b].ticketCodigo
    ensures a == b
  {
  }

  // ---------------------------------------------------------------------------
  // The database of one company
  // ---------------------------------------------------------------------------

  class Store {
    const empresaId: nat

    // Ids of the rows that foreign keys can name; the service never writes these tables.
    var sucursales: set<int>
    var bodegas: set<int>
    var proveedores: set<int>
    var productosAgricolas: set<int>

    var recepciones: map<int, Recepcion>
    var nextRecepcion: int
    var pesajes: seq<Pesaje>
    var laboratorio: map<int, LabRow>          // keyed by recepcion_id (UNIQUE)

    var silos: map<int, Silo>
    var lotes: map<int, Lote>
    var nextLote: int
    var movimientos: seq<Movimiento>
    var nextMovimiento: int

    var stockTerminado: map<int, int>          // productos_terminados.stock_actual
    var formulas: map<int, Formula>
    var nextFormula: int
    var ingredientes: map<int, Ingrediente>
    var nextIngrediente: int
    var ordenes: map<int, Orden>
    var nextOrden: int
    var rendimientos: map<int, Rendimiento>
    var nextRendimiento: int
    var subproductos: seq<Subproducto>
    var insumos: seq<Insumo>

    var clientes: set<int>                     // clientes_maquila of the company
    var maquila: seq<MovMaquila>
    var nextMaquila: int
    var tiposTrabajo: map<int, TipoTrabajo>
    var nextTipo: int

    var choferes: map<int, Option<string>>     // the `codigo` column
    var nextChofer: int
    var camiones: map<int, Option<string>>
    var nextCamion: int
    var carros: map<int, Option<string>>
    var nextCarro: int

    /**
     * Every SERIAL is ahead of the ids it has handed out (ids start at 1), and
     * every ticket code is the `R-YYYYMMDD-{id}` code of its own intake, so no
     * two intakes share one (the partial unique index on `ticket_codigo`).
     */
    ghost predicate ValidRecepciones()
      reads this`recepciones, this`nextRecepcion
    {
      && nextRecepcion >= 1 && (forall id :: id in recepciones ==> 1 <= id < nextRecepcion)
      && TicketsPropios(recepciones)
    }

    /** Lot ids and movement ids are SERIALs; every movement names an existing lot (foreign key). */
    ghost predicate ValidInventario()
      reads this`lotes, this`nextLote, this`movimientos, this`nextMovimiento
    {
      && nextLote >= 1 && (forall id :: id in lotes ==> 1 <= id < nextLote)
      && (forall i :: 0 <= i < |movimientos| ==> movimientos[i].lote in lotes)
      && nextMovimiento >= 1
      && (forall i :: 0 <= i < |movimientos| ==> 1 <= movimientos[i].id < nextMovimiento)
      && (forall i, j :: 0 <= i < j < |movimientos| ==> movimientos[i].id < movimientos[j].id)
    }

    /**
     * SERIAL counters as above, and the foreign keys of the production tables:
     * ingredient rows and orders name an existing formula, yields an existing order.
     */
    ghost predicate ValidProduccion()
      reads this`formulas, this`nextFormula, this`ingredientes, this`nextIngrediente,
            this`ordenes, this`nextOrden, this`rendimientos, this`nextRendimiento
    {
      && nextFormula >= 1 && (forall id :: id in formulas ==> 1 <= id < nextFormula)
      && nextIngrediente >= 1 && (forall id :: id in ingredientes ==> 1 <= id < nextIngrediente)
      && nextOrden >= 1 && (forall id :: id in ordenes ==> 1 <= id < nextOrden)
      && nextRendimiento >= 1 && (forall id :: id in rendimientos ==> 1 <= id < nextRendimiento)
      && (forall id :: id in ingredientes ==> ingredientes[id].formulaId in formulas)
      && (forall id :: id in ordenes ==> ordenes[id].formulaId in formulas)
      && (forall id :: id in rendimientos ==> rendimientos[id].ordenId in ordenes)
    }

    /** SERIAL counters, and the ledger's foreign key `recepcion_id REFERENCES recepciones`. */
    ghost predicate ValidMaquila()
      reads this`maquila, this`nextMaquila, this`tiposTrabajo, this`nextTipo, this`recepciones
    {
      && nextMaquila >= 1
      && (forall i :: 0 <= i < |maquila| && maquila[i].recepcionId.Some? ==> maquila[i].recepcionId.value in recepciones)
      && (forall i :: 0 <= i < |maquila| ==> 1 <= maquila[i].id < nextMaquila)
      && nextTipo >= 1 && (forall id :: id in tiposTrabajo ==> 1 <= id < nextTipo)
    }

    ghost predicate ValidTransporte()
      reads this`choferes, this`nextChofer, this`camiones, this`nextCamion, this`carros, this`nextCarro
    {
      && nextChofer >= 1 && (forall id :: id in choferes ==> 1 <= id < nextChofer)
      && nextCamion >= 1 && (forall id :: id in camiones ==> 1 <= id < nextCamion)
      && nextCarro >= 1 && (forall id :: id in carros ==> 1 <= id < nextCarro)
    }

    ghost predicate Valid()
      reads this
    {
      ValidRecepciones() && ValidInventario() && ValidProduccion() && ValidMaquila() && ValidTransporte()
    }

    // -------------------------------------------------------------------------
    // Row writes of the intake table
    // -------------------------------------------------------------------------

    /** `INSERT INTO recepciones ... RETURNING id`; a new intake has no ticket yet. */
    method InsertarRecepcion(r: Recepcion) returns (id: int)
      requires ValidRecepciones() && r.ticketCodigo.None?
      modifies this`recepciones, this`nextRecepcion
      ensures ValidRecepciones()
      ensures id == old(nextRecepcion) && id !in old(recepciones) && recepciones == old(recepciones)[id := r]
      ensures nextRecepcion == old(nextRecepcion) + 1
      ensures old(ValidMaquila()) ==> ValidMaquila()
    {
      id := nextRecepcion;
      recepciones := recepciones[id := r];
      nextRecepcion := nextRecepcion + 1;
    }

    /** `UPDATE recepciones SET ... WHERE id = ...`; a ticket code it writes is the intake's own. */
    method ActualizarRecepcion(id: int, r: Recepcion)
      requires ValidRecepciones() && id in recepciones
      requires r.ticketCodigo.Some? ==> EsTicketDe(r.ticketCodigo.value, id)
      modifies this`recepciones
      ensures ValidRecepciones()
      ensures recepciones == old(recepciones)[id := r]
      ensures old(ValidMaquila()) ==> ValidMaquila()
    {
      recepciones := recepciones[id := r];
    }

    // -------------------------------------------------------------------------
    // Row writes of the inventory tables; each keeps the table's invariant
    // -------------------------------------------------------------------------

    /** `INSERT INTO lotes ... RETURNING id`. */
    method InsertarLote(l: Lote) returns (id: int)
      requires ValidInventario()
      modifies this`lotes, this`nextLote
      ensures ValidInventario()
      ensures id == old(nextLote) && id !in old(lotes) && lotes == old(lotes)[id := l]
      ensures forall i :: 0 <= i < |movimientos| ==> movimientos[i].lote != id
    {
      id := nextLote;
      lotes := lotes[id := l];
      nextLote := nextLote + 1;
    }

    /** `UPDATE lotes SET ... WHERE id = ...` on an existing lot. */
    method ActualizarLote(id: int, l: Lote)
      requires ValidInventario() && id in lotes
      modifies this`lotes
      ensures ValidInventario()
      ensures lotes == old(lotes)[id := l]
    {
      lotes := lotes[id := l];
    }

    /** `INSERT INTO movimientos_inventario ... RETURNING *`, stamped with `fecha`. */
    method InsertarMovimiento(tipo: TipoMovimiento, origen: Option<int>, destino: Option<int>,
                              lote: int, kg: int, fecha: int)
      returns (m: Movimiento)
      requires ValidInventario() && lote in lotes
      modifies this`movimientos, this`nextMovimiento
      ensures ValidInventario()
      ensures m == Movimiento(old(nextMovimiento), tipo, origen, destino, lote, kg, fecha)
      ensures movimientos == old(movimientos) + [m]
      ensures nextMovimiento == old(nextMovimiento) + 1
    {
      m := Movimiento(nextMovimiento, tipo, origen, destino, lote, kg, fecha);
      movimientos := movimientos + [m];
      nextMovimiento := nextMovimiento + 1;
    }

    // -------------------------------------------------------------------------
    // Row writes of the production tables
    // -------------------------------------------------------------------------

    /** One `INSERT INTO formula_ingredientes` row of an existing formula. */
    method InsertarIngrediente(ing: Ingrediente) returns (id: int)
      requires ValidProduccion() && ing.formulaId in formulas
      modifies this`ingredientes, this`nextIngrediente
      ensures ValidProduccion()
      ensures id == old(nextIngrediente) && id !in old(ingredientes) && ingredientes == old(ingredientes)[id := ing]
      ensures nextIngrediente == old(nextIngrediente) + 1
    {
      id := nextIngrediente;
      ingredientes := ingredientes[id := ing];
      nextIngrediente := nextIngrediente + 1;
    }

    /** `INSERT INTO formulas ... RETURNING *`. */
    method InsertarFormula(f: Formula) returns (id: int)
      requires ValidProduccion()
      modifies this`formulas, this`nextFormula
      ensures ValidProduccion()
      ensures id == old(nextFormula) && id !in old(formulas) && formulas == old(formulas)[id := f]
      ensures nextFormula == old(nextFormula) + 1
    {
      id := nextFormula;
      formulas := formulas[id := f];
      nextFormula := nextFormula + 1;
    }

    /** `INSERT INTO rendimientos ... RETURNING *` for an existing order. */
    method InsertarRendimiento(rd: Rendimiento) returns (id: int)
      requires ValidProduccion() && rd.ordenId in ordenes
      modifies this`rendimientos, this`nextRendimiento
      ensures ValidProduccion()
      ensures id == old(nextRendimiento) && id !in old(rendimientos) && rendimientos == old(rendimientos)[id := rd]
    {
      id := nextRendimiento;
      rendimientos := rendimientos[id := rd];
      nextRendimiento := nextRendimiento + 1;
    }

    /** `UPDATE ordenes_produccion SET ...` on an existing order, keeping its formula. */
    method ActualizarOrden(id: int, o: Orden)
      requires ValidProduccion() && id in ordenes && o.formulaId == ordenes[id].formulaId
      modifies this`ordenes
      ensures ValidProduccion()
      ensures ordenes == old(ordenes)[id := o]
    {
      ordenes := ordenes[id := o];
    }

    /** A company whose tables are all empty. */
    constructor (empresaId: nat)
      ensures Valid()
      ensures this.empresaId == empresaId
      ensures sucursales == {} && bodegas == {} && proveedores == {} && productosAgricolas == {}
      ensures recepciones == map[] && pesajes == [] && laboratorio == map[]
      ensures silos == map[] && lotes == map[] && movimientos == []
      ensures stockTerminado == map[] && formulas == map[] && ingredientes == map[]
      ensures ordenes == map[] && rendimientos == map[] && subproductos == [] && insumos == []
      ensures clientes == {} && maquila == [] && tiposTrabajo == map[]
      ensures choferes == map[] && camiones == map[] && carros == map[]
    {
      this.empresaId := empresaId;
      sucursales, bodegas, proveedores, productosAgricolas := {}, {}, {}, {};
      recepciones, nextRecepcion, pesajes, laboratorio := map[], 1, [], map[];
      silos, lotes, nextLote, movimientos, nextMovimiento := map[], map[], 1, [], 1;
      stockTerminado, formulas, nextFormula, ingredientes, nextIngrediente := map[], map[], 1, map[], 1;
      ordenes, nextOrden, rendimientos, nextRendimiento := map[], 1, map[], 1;
      subproductos, insumos := [], [];
      clientes, maquila, nextMaquila, tiposTrabajo, nextTipo := {}, [], 1, map[], 1;
      choferes, nextChofer, camiones, nextCamion, carros, nextCarro := map[], 1, map[], 1, map[], 1;
    }
  }
}

=== FILE: inventario.dfy ===
/**
 * The read side of the silo/lot inventory: the silo map (occupancy and
 * overflow alert), the latest movement of a lot and the silo it is taken to be
 * in, the lot listing, the intakes still waiting for a lot, and the totals that
 * transfers and merges keep.
 */
module Inventario {
  import opened Common
  import opened Database
  import opened Sums

  // ---------------------------------------------------------------------------
  // Silo map
  // ---------------------------------------------------------------------------

  /**
   * `porcentaje_ocupacion`: `ROUND(nivel * 100 / capacidad_max_kg)` on numerics
   * when the capacity is positive, else 0.
   */
  function PorcentajeOcupacion(s: Silo): (p: int)
    ensures s.capacidad <= 0 ==> p == 0
    ensures s.capacidad > 0 && s.nivel >= 0 ==>
      2 * s.capacidad * p <= 200 * s.nivel + s.capacidad < 2 * s.capacidad * p + 2 * s.capacidad
    ensures s.capacidad > 0 && s.nivel < 0 ==> p <= 0
  {
    if s.capacidad > 0 then PgRoundDiv(s.nivel * 100, s.capacidad) else 0
  }

  /** `alerta_rebalse`: a positive capacity and a level of at least 90 % of it. */
  predicate AlertaRebalse(s: Silo) {
    s.capacidad > 0 && 10 * s.nivel >= 9 * s.capacidad
  }

  /** A silo within its capacity shows between 0 and 100 %. */
  lemma OcupacionEnRango(s: Silo)
    requires s.capacidad > 0 && 0 <= s.nivel <= s.capacidad
    ensures 0 <= PorcentajeOcupacion(s) <= 100
  {
    var p := PorcentajeOcupacion(s);
    var c := s.capacidad;
    if p > 100 {
      MulMonotone(2 * c, 101, p);
      assert false;
    }
    if p < 0 {
      MulMonotone(2 * c, p + 1, 0);
      assert false;
    }
  }

  /**
   * The alert and the rounded percentage agree away from the boundary: an alerted
   * silo shows at least 90 %, and one showing 91 % or more is alerted.
   */
  lemma AlertaYOcupacion(s: Silo)
    requires s.capacidad > 0 && s.nivel >= 0
    ensures AlertaRebalse(s) ==> PorcentajeOcupacion(s) >= 90
    ensures PorcentajeOcupacion(s) >= 91 ==> AlertaRebalse(s)
  {
    var p := PorcentajeOcupacion(s);
    var c := s.capacidad;
    if AlertaRebalse(s) && p < 90 {
      MulMonotone(2 * c, p + 1, 90);
      assert false;
    }
    if p >= 91 {
      MulMonotone(2 * c, 91, p);
    }
  }


  /** At the boundary they differ: 179 kg in a 200 kg silo rounds to 90 % without an alert. */
  lemma OcupacionNoventaSinAlerta()
    ensures PorcentajeOcupacion(Silo(200, 179, None)) == 90
    ensures !AlertaRebalse(Silo(200, 179, None))
  {
  }

  // ---------------------------------------------------------------------------
  // Latest movement and current silo of a lot
  // ---------------------------------------------------------------------------

  /** In `ORDER BY fecha, id`, a comes no later than b. */
  predicate NoPosterior(a: Movimiento, b: Movimiento) {
    a.fecha < b.fecha || (a.fecha == b.fecha && a.id <= b.id)
  }

  /** The lot's movement that `ORDER BY fecha DESC, id DESC LIMIT 1` returns. */
  function UltimoMovimiento(movs: seq<Movimiento>, lote: int): (u: Option<Movimiento>)
    ensures u.None? <==> forall i :: 0 <= i < |movs| ==> movs[i].lote != lote
    ensures u.Some? ==> u.value in movs && u.value.lote == lote
    ensures u.Some? ==> forall i :: 0 <= i < |movs| && movs[i].lote == lote ==> NoPosterior(movs[i], u.value)
  {
    if movs == [] then None
    else
      var init := movs[..|movs| - 1];
      var m := movs[|movs| - 1];
      var prev := UltimoMovimiento(init, lote);
      assert forall i :: 0 <= i < |init| ==> init[i] == movs[i];
      if m.lote != lote then prev
      else if prev.None? || NoPosterior(prev.value, m) then Some(m)
      else prev
  }

  /**
   * The silo a lot is taken to be in: `COALESCE(silo_destino_id, silo_origen_id)`
   * of its latest movement; None when it has no movement or the latest one
   * names no silo.
   */
  function SiloActual(movs: seq<Movimiento>, lote: int): Option<int> {
    match UltimoMovimiento(movs, lote)
    case None => None
    case Some(m) => if m.destino.Some? then m.destino else m.origen
  }

  /** The caller's clock is not behind any recorded movement. */
  predicate RelojAlDia(movs: seq<Movimiento>, now: int) {
    forall i :: 0 <= i < |movs| ==> movs[i].fecha <= now
  }

  /** Every recorded movement id is below `next` (the SERIAL is ahead of them). */
  predicate IdsBajo(movs: seq<Movimiento>, next: int) {
    forall i :: 0 <= i < |movs| ==> movs[i].id < next
  }

  /** A movement appended with the current time and a fresh id becomes its lot's latest. */
  lemma UltimoTrasAgregar(movs: seq<Movimiento>, m: Movimiento)
    requires RelojAlDia(movs, m.fecha) && IdsBajo(movs, m.id)
    ensures UltimoMovimiento(movs + [m], m.lote) == Some(m)
    ensures SiloActual(movs + [m], m.lote) == if m.destino.Some? then m.destino else m.origen
  {
    assert (movs + [m])[..|movs|] == movs;
  }

  /** A movement of another lot does not change a lot's latest movement. */
  lemma UltimoOtroLote(movs: seq<Movimiento>, m: Movimiento, lote: int)
    requires m.lote != lote
    ensures UltimoMovimiento(movs + [m], lote) == UltimoMovimiento(movs, lote)
    ensures SiloActual(movs + [m], lote) == SiloActual(movs, lote)
  {
    assert (movs + [m])[..|movs|] == movs;
  }

  // ---------------------------------------------------------------------------
  // Listings
  // ---------------------------------------------------------------------------

  /** `estado || "activo"`: the state filter of the lot listing. */
  function EstadoFiltro(estado: string): string {
    if estado == "" then LoteActivo else estado
  }

  /** The silo filter: the latest movement names the silo as destination or as origin. */
  predicate TocaSilo(movs: seq<Movimiento>, lote: int, siloId: int) {
    var u := UltimoMovimiento(movs, lote);
    u.Some? && (u.value.destino == Some(siloId) || u.value.origen == Some(siloId))
  }

  /**
   * `listarLotes`: the lots in the requested state (active by default), each
   * with its derived `silo_id`; with a silo filter (`siloId != 0`) only lots
   * whose latest movement touches that silo.
   */
  function ListarLotes(lotes: map<int, Lote>, movs: seq<Movimiento>, estado: string, siloId: int)
    : (r: map<int, Option<int>>)
    ensures forall id :: id in r ==> id in lotes && lotes[id].estado == EstadoFiltro(estado)
    ensures forall id :: id in r ==> r[id] == SiloActual(movs, id)
    ensures siloId != 0 ==> forall id :: id in r <==> (id in lotes && lotes[id].estado == EstadoFiltro(estado)
                                                       && TocaSilo(movs, id, siloId))
    ensures siloId == 0 ==> forall id :: id in lotes && lotes[id].estado == EstadoFiltro(estado) ==> id in r
  {
    map id | id in lotes && lotes[id].estado == EstadoFiltro(estado)
                         && (siloId == 0 || TocaSilo(movs, id, siloId))
      :: SiloActual(movs, id)
  }

  /** A lot is listed under the silo it is in. */
  lemma ListadoEnSuSilo(lotes: map<int, Lote>, movs: seq<Movimiento>, estado: string, id: int, s: int)
    requires id in lotes && lotes[id].estado == EstadoFiltro(estado)
    requires s != 0 && SiloActual(movs, id) == Some(s)
    ensures id in ListarLotes(lotes, movs, estado, s)
  {
  }

  /**
   * After a transfer out of silo o, the lot is also listed under o, although its
   * derived silo is the destination: the filter matches the origin column too.
   */
  lemma ListadoTambienEnOrigen(lotes: map<int, Lote>, movs: seq<Movimiento>, id: int, o: int, d: int, now: int, movId: int)
    requires id in lotes && lotes[id].estado == LoteActivo
    requires o != 0 && o != d
    requires RelojAlDia(movs, now) && IdsBajo(movs, movId)
    ensures var movs' := movs + [Movimiento(movId, Trasiego, Some(o), Some(d), id, 1, now)];
      id in ListarLotes(lotes, movs', "", o) && ListarLotes(lotes, movs', "", o)[id] == Some(d)
  {
    UltimoTrasAgregar(movs, Movimiento(movId, Trasiego, Some(o), Some(d), id, 1, now));
  }

  /**
   * `listarRecepcionesPendientes`: intakes that have a lab row and no lot yet.
   */
  function RecepcionesPendientes(recepciones: map<int, Recepcion>, laboratorio: map<int, LabRow>,
                                 lotes: map<int, Lote>): (r: set<int>)
    ensures forall id :: id in r <==>
      id in recepciones && id in laboratorio && forall l :: l in lotes ==> lotes[l].recepcionId != Some(id)
  {
    set id | id in recepciones && id in laboratorio && forall l :: l in lotes ==> lotes[l].recepcionId != Some(id)
  }

  /** Creating a lot for an intake removes it from the pending list and changes nothing else in it. */
  lemma PendienteTrasCrearLote(recepciones: map<int, Recepcion>, laboratorio: map<int, LabRow>,
                               lotes: map<int, Lote>, loteId: int, lote: Lote)
    requires loteId !in lotes && lote.recepcionId.Some?
    ensures RecepcionesPendientes(recepciones, laboratorio, lotes[loteId := lote])
            == RecepcionesPendientes(recepciones, laboratorio, lotes) - {lote.recepcionId.value}
  {
    var r := lote.recepcionId.value;
    var lotes' := lotes[loteId := lote];
    var antes := RecepcionesPendientes(recepciones, laboratorio, lotes);
    var despues := RecepcionesPendientes(recepciones, laboratorio, lotes');
    forall id | id in antes && id != r
      ensures id in despues
    {
      forall l | l in lotes'
        ensures lotes'[l].recepcionId != Some(id)
      {
        if l != loteId {
          assert l in lotes;
        }
      }
    }
    forall id | id in despues
      ensures id in antes && id != r
    {
      assert loteId in lotes';
      forall l | l in lotes
        ensures lotes[l].recepcionId != Some(id)
      {
        assert l in lotes' && lotes'[l] == lotes[l];
      }
    }
  }

  // ---------------------------------------------------------------------------
  // Totals
  // ---------------------------------------------------------------------------

  function Niveles(silos: map<int, Silo>): map<int, int> {
    map k | k in silos :: silos[k].nivel
  }

  /** The grain held in all silos of the company. */
  ghost function TotalEnSilos(silos: map<int, Silo>): int {
    SumMap(Niveles(silos))
  }

  function Saldos(lotes: map<int, Lote>): map<int, int> {
    map k | k in lotes :: lotes[k].actual
  }

  /** The grain all lots of the company account for. */
  ghost function TotalEnLotes(lotes: map<int, Lote>): int {
    SumMap(Saldos(lotes))
  }

  /** Changing one silo's level by `delta` changes the total by `delta`. */
  lemma TotalEnSilosAjuste(silos: map<int, Silo>, k: int, delta: int)
    requires k in silos
    ensures TotalEnSilos(silos[k := silos[k].(nivel := silos[k].nivel + delta)]) == TotalEnSilos(silos) + delta
  {
    var s' := silos[k := silos[k].(nivel := silos[k].nivel + delta)];
    assert Niveles(s') == Niveles(silos)[k := silos[k].nivel + delta];
    SumMapUpdate(Niveles(silos), k, silos[k].nivel + delta);
  }

  /** Changing one lot's balance by `delta` changes the total by `delta`. */
  lemma TotalEnLotesAjuste(lotes: map<int, Lote>, k: int, delta: int)
    requires k in lotes
    ensures TotalEnLotes(lotes[k := lotes[k].(actual := lotes[k].actual + delta)]) == TotalEnLotes(lotes) + delta
  {
    var l' := lotes[k := lotes[k].(actual := lotes[k].actual + delta)];
    assert Saldos(l') == Saldos(lotes)[k := lotes[k].actual + delta];
    SumMapUpdate(Saldos(lotes), k, lotes[k].actual + delta);
  }

  /** A new lot adds its balance to the total. */
  lemma TotalEnLotesNuevo(lotes: map<int, Lote>, k: int, lote: Lote)
    requires k !in lotes
    ensures TotalEnLotes(lotes[k := lote]) == TotalEnLotes(lotes) + lote.actual
  {
    assert Saldos(lotes[k := lote]) == Saldos(lotes)[k := lote.actual];
    SumMapInsert(Saldos(lotes), k, lote.actual);
  }
}

=== FILE: laboratorio.dfy ===
/**
 * Lab grading: the moisture and impurity discounts of `calcularDescuentos`
 * (server and web client), the client's monetary total, and the ticket-scan
 * parser of the lab screen. Percentages are integers in hundredths of a
 * percent (the columns are DECIMAL(5,2)); weights are whole kilograms.
 */
module Laboratorio {
  import opened Common

  /** `HUMEDAD_ESTANDAR`: 14 %, in hundredths. */
  const HumedadEstandar: int := 1400

  /** `Number(x) || 0`: a missing or non-numeric measure counts as 0. */
  function Num(x: Option<int>): int {
    x.GetOr(0)
  }

  datatype Descuentos = Descuentos(humedadKg: int, impurezasKg: int, netoPagarKg: int)

  /**
   * `calcularDescuentos` of the lab service: each discount is the net weight
   * times the percentage, rounded to the nearest kilogram (halves up), and the
   * payable weight is what is left, never below 0.
   */
  function CalcularDescuentos(neto: Option<int>, humedad: Option<int>, impurezas: Option<int>): (d: Descuentos)
    ensures 2 * 10000 * d.humedadKg <= 2 * Num(neto) * Max(Num(humedad) - HumedadEstandar, 0) + 10000
                                      < 2 * 10000 * d.humedadKg + 2 * 10000
    ensures 2 * 10000 * d.impurezasKg <= 2 * Num(neto) * Num(impurezas) + 10000
                                        < 2 * 10000 * d.impurezasKg + 2 * 10000
    ensures d.netoPagarKg == Max(Num(neto) - d.humedadKg - d.impurezasKg, 0)
    ensures d.netoPagarKg >= 0
    ensures Num(humedad) <= HumedadEstandar ==> d.humedadKg == 0
    ensures Num(neto) >= 0 && Num(impurezas) >= 0 ==> d.netoPagarKg <= Num(neto)
    ensures Num(humedad) <= HumedadEstandar && Num(impurezas) == 0 ==> d.netoPagarKg == Max(Num(neto), 0)
  {
    var n := Num(neto);
    var exceso := Max(Num(humedad) - HumedadEstandar, 0);
    var dh := JsRoundDiv(n * exceso, 10000);
    var di := JsRoundDiv(n * Num(impurezas), 10000);
    NonNegativeRound(n, exceso);
    NonNegativeRound(n, Num(impurezas));
    Descuentos(dh, di, Max(n - dh - di, 0))
  }

  lemma NonNegativeRound(n: int, p: int)
    ensures n >= 0 && p >= 0 ==> JsRoundDiv(n * p, 10000) >= 0
  {
    if n >= 0 && p >= 0 {
      assert n * p >= 0;
    }
  }

  lemma JsRoundDivMonotone(a: int, b: int, d: int)
    requires d > 0 && a <= b
    ensures JsRoundDiv(a, d) <= JsRoundDiv(b, d)
  {
    var ra := JsRoundDiv(a, d);
    var rb := JsRoundDiv(b, d);
    if ra > rb {
      MulMonotone(2 * d, rb + 1, ra);
      assert false;
    }
  }

  /** Wetter grain never pays more: the payable weight falls as moisture rises. */
  lemma MasHumedadPagaMenos(neto: int, h1: int, h2: int, impurezas: Option<int>)
    requires neto >= 0 && h1 <= h2
    ensures CalcularDescuentos(Some(neto), Some(h2), impurezas).netoPagarKg
            <= CalcularDescuentos(Some(neto), Some(h1), impurezas).netoPagarKg
  {
    var e1 := Max(h1 - HumedadEstandar, 0);
    var e2 := Max(h2 - HumedadEstandar, 0);
    assert neto * e1 <= neto * e2 by {
      assert e1 <= e2;
    }
    JsRoundDivMonotone(neto * e1, neto * e2, 10000);
  }

  // ---------------------------------------------------------------------------
  // The web client's copy of the formula
  // ---------------------------------------------------------------------------

  /** The lab form after `calcularDescuentos` ran in the browser; None is a blank total. */
  datatype FormularioLab = FormularioLab(descuentos: Descuentos, totalPagar: Option<int>)

  /**
   * The client `calcularDescuentos`: the same discounts, plus the monetary total
   * for purchases, `Math.round(netoPagar * precio)` with the agreed price in
   * hundredths of a peso per kilogram; blank for maquila intakes.
   */
  function CalcularDescuentosCliente(neto: Option<int>, humedad: Option<int>, impurezas: Option<int>,
                                     esMaquila: bool, precio: Option<int>): (f: FormularioLab)
    ensures f.totalPagar.None? <==> esMaquila
    ensures f.totalPagar.Some? ==>
      2 * 100 * f.totalPagar.value <= 2 * f.descuentos.netoPagarKg * Num(precio) + 100
                                    < 2 * 100 * f.totalPagar.value + 200
  {
    var n := Num(neto);
    var exceso := if Num(humedad) - HumedadEstandar >= 0 then Num(humedad) - HumedadEstandar else 0;
    var dh := (2 * n * exceso + 10000) / 20000;
    var di := (2 * n * Num(impurezas) + 10000) / 20000;
    var pagar := if n - dh - di >= 0 then n - dh - di else 0;
    var d := Descuentos(dh, di, pagar);
    if esMaquila then FormularioLab(d, None)
    else FormularioLab(d, Some(JsRoundDiv(pagar * Num(precio), 100)))
  }

  /** The browser shows exactly the discounts and payable weight the server stores. */
  lemma ClienteIgualServidor(neto: Option<int>, humedad: Option<int>, impurezas: Option<int>,
                             esMaquila: bool, precio: Option<int>)
    ensures CalcularDescuentosCliente(neto, humedad, impurezas, esMaquila, precio).descuentos
            == CalcularDescuentos(neto, humedad, impurezas)
  {
  }

  // ---------------------------------------------------------------------------
  // Ticket scan on the lab screen
  // ---------------------------------------------------------------------------

  /** `s.split(c)`: the pieces between occurrences of c. */
  function Split(s: string, c: char): (parts: seq<string>)
    ensures |parts| >= 1
    ensures forall i :: 0 <= i < |parts| ==> !Contains(parts[i], c)
  {
    if s == [] then [""]
    else
      var rest := Split(s[1..], c);
      if s[0] == c then [""] + rest
      else
        assert !Contains(rest[0], c);
        [[s[0]] + rest[0]] + rest[1..]
  }

  /** Splitting loses nothing: joining the pieces with c gives the text back. */
  lemma {:induction false} SplitJoin(s: string, c: char)
    ensures Join(Split(s, c), [c]) == s
  {
    if s != [] {
      var rest := Split(s[1..], c);
      SplitJoin(s[1..], c);
      if s[0] == c {
        assert Split(s, c) == [""] + rest;
        assert ([""] + rest)[1..] == rest;
      } else {
        var parts := Split(s, c);
        assert parts == [[s[0]] + rest[0]] + rest[1..];
        if |rest| == 1 {
          assert Join(rest, [c]) == rest[0];
        } else {
          assert parts[1..] == rest[1..];
          assert Join(rest, [c]) == rest[0] + [c] + Join(rest[1..], [c]);
        }
      }
    }
  }

  /** A string without c is one piece. */
  lemma {:induction false} SplitAbsent(s: string, c: char)
    requires !Contains(s, c)
    ensures Split(s, c) == [s]
  {
    if s != [] {
      assert !Contains(s[1..], c) by {
        forall i | 0 <= i < |s[1..]| ensures s[1..][i] != c {
          assert s[1..][i] == s[i + 1];
        }
      }
      SplitAbsent(s[1..], c);
      assert s[0] != c;
      assert s == [s[0]] + s[1..];
    }
  }

  /** The code and token read from a QR holding JSON, already `x || null`-ed. */
  datatype CodigoJson = CodigoJson(codigo: Option<string>, token: Option<string>)

  /** What the scan leads to: nothing, a lookup by code, or one by code and token. */
  datatype Consulta = NadaQueBuscar | PorCodigo(codigo: string) | PorCodigoYToken(codigo: string, token: string)

  predicate PareceJson(raw: string) {
    (|raw| >= 1 && raw[..1] == "{") || (|raw| >= 3 && raw[..3] == "%7B")
  }

  /** `x || null` on a string. */
  function OrNull(s: string): Option<string> {
    if s == "" then None else Some(s)
  }

  /**
   * The `keydown` handler of the lab screen on Enter. `json` is what
   * `JSON.parse(decodeURIComponent(raw))` yields (None when it throws); it is
   * consulted only for input that starts with `{` or `%7B`.
   */
  method LeerEscaneo(valor: string, json: Option<CodigoJson>) returns (q: Consulta)
    ensures Trim(valor) == "" ==> q == NadaQueBuscar
    ensures Trim(valor) != "" ==> !q.NadaQueBuscar? && q.codigo != ""
    ensures q.PorCodigoYToken? ==> q.token != ""
    ensures var raw := Trim(valor);
      raw != "" && !PareceJson(raw) && !Contains(raw, '|') ==> q == PorCodigo(raw)
    ensures var raw := Trim(valor);
      raw != "" && !(PareceJson(raw) && json.Some? && json.value.codigo.Some? && json.value.codigo.value != "")
      && Contains(raw, '|') ==>
        var parts := Split(raw, '|');
        q.codigo == (if parts[0] != "" then parts[0] else raw)
        && (q.PorCodigoYToken? <==> |parts| > 1 && parts[1] != "")
        && (q.PorCodigoYToken? ==> q.token == parts[1])
    ensures var raw := Trim(valor);
      raw != "" && PareceJson(raw) && json.Some? && json.value.codigo.Some? && json.value.codigo.value != "" ==>
        q.codigo == json.value.codigo.value
        && (q.PorCodigoYToken? <==> json.value.token.Some? && json.value.token.value != "")
        && (q.PorCodigoYToken? ==> q.token == json.value.token.value)
    ensures var raw := Trim(valor);
      raw != "" && PareceJson(raw) && !(json.Some? && json.value.codigo.Some? && json.value.codigo.value != "")
      && !Contains(raw, '|') ==>
        q.codigo == raw
        && (q.PorCodigoYToken? <==> json.Some? && json.value.token.Some? && json.value.token.value != "")
        && (q.PorCodigoYToken? ==> q.token == json.value.token.value)
  {
    var raw := Trim(valor);
    if raw == "" {
      return NadaQueBuscar;
    }
    var codigo: Option<string> := None;
    var token: Option<string> := None;
    if PareceJson(raw) && json.Some? {
      codigo := json.value.codigo;
      token := json.value.token;
    }
    if (codigo.None? || codigo.value == "") && Contains(raw, '|') {
      var parts := Split(raw, '|');
      codigo := OrNull(parts[0]);
      token := if |parts| > 1 then OrNull(parts[1]) else None;
    }
    if codigo.None? || codigo.value == "" {
      codigo := Some(raw);
    }
    if token.Some? && token.value != "" {
      q := PorCodigoYToken(codigo.value, token.value);
    } else {
      q := PorCodigo(codigo.value);
    }
  }

  /** A printed `codigo|token` label is read back as the pair it encodes. */
  lemma EtiquetaCodigoToken(codigo: string, token: string)
    requires codigo != "" && token != ""
    requires !Contains(codigo, '|') && !Contains(token, '|')
    requires !PareceJson(codigo + "|" + token)
    ensures Split(codigo + "|" + token, '|') == [codigo, token]
  {
    SplitAppendSep(codigo, token, '|');
    SplitAbsent(token, '|');
  }

  lemma {:induction false} SplitAppendSep(a: string, b: string, c: char)
    requires !Contains(a, c)
    ensures Split(a + [c] + b, c) == [a] + Split(b, c)
  {
    if a == [] {
      assert a + [c] + b == [c] + b;
      assert ([c] + b)[1..] == b;
    } else {
      assert (a + [c] + b)[1..] == a[1..] + [c] + b;
      assert !Contains(a[1..], c) by {
        forall i | 0 <= i < |a[1..]| ensures a[1..][i] != c {
          assert a[1..][i] == a[i + 1];
        }
      }
      SplitAppendSep(a[1..], b, c);
      assert [a[0]] + a[1..] == a;
    }
  }
}

=== FILE: laboratorio_servicio.dfy ===
/**
 * `upsertLaboratorio`: the lab grades an intake. Its measures are kept in the
 * one lab row of the intake, and the intake's two discounts and payable weight
 * are overwritten with the values computed from its physical net.
 */
module LaboratorioService {
  import opened Common
  import opened Database
  import opened Laboratorio
  import opened RecepcionesService

  /**
   * The intake after grading: only the discounts and the payable weight
   * change, the payable is never negative and never above a non-negative
   * physical net when impurities are not negative, and dry clean grain pays
   * its whole physical net.
   */
  function Graduada(r: Recepcion, humedad: Option<int>, impurezas: Option<int>): (g: Recepcion)
    ensures g == r.(descHumedad := g.descHumedad, descImpurezas := g.descImpurezas, netoPagar := g.netoPagar)
    ensures NetoFisico(g) == NetoFisico(r)
    ensures var d := CalcularDescuentos(NetoFisico(r), humedad, impurezas);
            g.descHumedad == Some(d.humedadKg) && g.descImpurezas == Some(d.impurezasKg)
            && g.netoPagar == Some(d.netoPagarKg)
    ensures g.netoPagar.value >= 0
    ensures NetoFisico(r).Some? && NetoFisico(r).value >= 0 && Num(impurezas) >= 0 ==>
              g.netoPagar.value <= NetoFisico(r).value
    ensures NetoFisico(r).Some? && Num(humedad) <= HumedadEstandar && Num(impurezas) == 0 ==>
              g.netoPagar == Some(Max(NetoFisico(r).value, 0))
  {
    var d := CalcularDescuentos(NetoFisico(r), humedad, impurezas);
    r.(descHumedad := Some(d.humedadKg), descImpurezas := Some(d.impurezasKg), netoPagar := Some(d.netoPagarKg))
  }

  /**
   * Grading an intake for an id that exists: returns the discounts and writes
   * the lab row and the intake; an unknown intake yields nothing and writes
   * nothing.
   */
  method UpsertLaboratorio(st: Store, recepcionId: int, humedad: Option<int>, impurezas: Option<int>)
    returns (r: Option<Descuentos>)
    requires st.ValidRecepciones()
    modifies st`laboratorio, st`recepciones
    ensures st.ValidRecepciones()
    ensures old(st.ValidMaquila()) ==> st.ValidMaquila()
    ensures r.None? <==> recepcionId !in old(st.recepciones)
    ensures r.None? ==> st.recepciones == old(st.recepciones) && st.laboratorio == old(st.laboratorio)
    ensures r.Some? ==>
              && r.value == CalcularDescuentos(NetoFisico(old(st.recepciones)[recepcionId]), humedad, impurezas)
              && st.laboratorio == old(st.laboratorio)[recepcionId := LabRow(humedad, impurezas)]
              && st.recepciones == old(st.recepciones)[recepcionId := Graduada(old(st.recepciones)[recepcionId],
                                                                               humedad, impurezas)]
  {
    if recepcionId !in st.recepciones {
      return None;
    }
    var rec := st.recepciones[recepcionId];
    var d := CalcularDescuentos(NetoFisico(rec), humedad, impurezas);
    st.laboratorio := st.laboratorio[recepcionId := LabRow(humedad, impurezas)];
    st.ActualizarRecepcion(recepcionId, rec.(descHumedad := Some(d.humedadKg), descImpurezas := Some(d.impurezasKg),
                                             netoPagar := Some(d.netoPagarKg)));
    r := Some(d);
  }

  /** Re-sending the same measures leaves the intake as the first grading left it. */
  lemma GraduarDosVeces(r: Recepcion, humedad: Option<int>, impurezas: Option<int>)
    ensures Graduada(Graduada(r, humedad, impurezas), humedad, impurezas) == Graduada(r, humedad, impurezas)
  {
    var g := Graduada(r, humedad, impurezas);
    assert NetoFisico(g) == NetoFisico(r);
  }

  /**
   * The lab always has the last word on the payable weight: graded before the
   * ticket (the lab row then exists and emission keeps the payable) or after
   * it (grading overwrites the physical net emission wrote), the intake pays
   * the graded weight.
   */
  lemma LaboratorioDecideElPago(r: Recepcion, humedad: Option<int>, impurezas: Option<int>,
                                codigo: string, token: string)
    ensures Emitir(Graduada(r, humedad, impurezas), true, codigo, token).netoPagar
            == Graduada(r, humedad, impurezas).netoPagar
    ensures Graduada(Emitir(r, false, codigo, token), humedad, impurezas).netoPagar
            == Graduada(r, humedad, impurezas).netoPagar
  {
    var e := Emitir(r, false, codigo, token);
    assert NetoFisico(e) == NetoFisico(r);
  }
}

=== FILE: maquila.dfy ===
/**
 * The maquila (toll-milling) account of each client: the client deposits
 * wheat at the weighbridge, the mill credits flour to the client's account and
 * the client later withdraws it. The account is the append-only log
 * `maquila_movimientos` of signed amounts; every balance is a sum over it.
 * Ledger amounts are hundredths of a kilogram (the DECIMAL(12,2) column);
 * intake weights are whole kilograms; percentages are hundredths of a percent.
 */
module MaquilaService {
  import opened Common
  import opened Codes
  import opened Database
  import opened Sums

  const TipoMaquila: string := "maquila"

  // ---------------------------------------------------------------------------
  // Flour balances
  // ---------------------------------------------------------------------------

  /** The row belongs to the client's account for that flour product (NULL is a group of its own). */
  predicate DeCuenta(m: MovMaquila, clienteId: int, producto: Option<int>) {
    m.clienteId == Some(clienteId) && m.productoHarinaId == producto
  }

  /** `SUM(kg)` over the client's rows for one flour product. */
  function SaldoProducto(movs: seq<MovMaquila>, clienteId: int, producto: Option<int>): int {
    if movs == [] then 0
    else
      var m := movs[|movs| - 1];
      SaldoProducto(movs[..|movs| - 1], clienteId, producto) + (if DeCuenta(m, clienteId, producto) then m.kg else 0)
  }

  /** A new row moves exactly the balance it belongs to, by its own kg; every other balance stays. */
  lemma SaldoTrasRegistrar(movs: seq<MovMaquila>, m: MovMaquila, clienteId: int, producto: Option<int>)
    ensures SaldoProducto(movs + [m], clienteId, producto)
         == SaldoProducto(movs, clienteId, producto) + (if DeCuenta(m, clienteId, producto) then m.kg else 0)
  {
    assert (movs + [m])[..|movs|] == movs;
  }

  /** A product the client has no rows for has a zero balance. */
  lemma {:induction false} SaldoSinFilas(movs: seq<MovMaquila>, clienteId: int, producto: Option<int>)
    requires forall i :: 0 <= i < |movs| ==> !DeCuenta(movs[i], clienteId, producto)
    ensures SaldoProducto(movs, clienteId, producto) == 0
  {
    if movs != [] {
      var previos := movs[..|movs| - 1];
      assert forall i :: 0 <= i < |previos| ==> previos[i] == movs[i];
      SaldoSinFilas(previos, clienteId, producto);
    }
  }

  /** The groups of `GROUP BY producto_harina_id` over the client's rows. */
  function ProductosDe(movs: seq<MovMaquila>, clienteId: int): set<Option<int>> {
    set i | 0 <= i < |movs| && movs[i].clienteId == Some(clienteId) :: movs[i].productoHarinaId
  }

  /**
   * The flour part of `obtenerSaldoHarina`: one balance per product group. A
   * product without a group would have had a zero balance.
   */
  function SaldosHarina(movs: seq<MovMaquila>, clienteId: int): (r: map<Option<int>, int>)
    ensures r.Keys == ProductosDe(movs, clienteId)
    ensures forall p :: p in r ==> r[p] == SaldoProducto(movs, clienteId, p)
    ensures forall p :: p !in r ==> SaldoProducto(movs, clienteId, p) == 0
  {
    var grupos := ProductosDe(movs, clienteId);
    forall p | p !in grupos
      ensures SaldoProducto(movs, clienteId, p) == 0
    {
      forall i | 0 <= i < |movs|
        ensures !DeCuenta(movs[i], clienteId, p)
      {
        assert movs[i].clienteId == Some(clienteId) ==> movs[i].productoHarinaId in grupos;
      }
      SaldoSinFilas(movs, clienteId, p);
    }
    map p | p in grupos :: SaldoProducto(movs, clienteId, p)
  }

  /** The statement's `harina_saldos`: the groups whose sum is not 0 (`HAVING ... <> 0`). */
  function SaldosCuenta(movs: seq<MovMaquila>, clienteId: int): (r: map<Option<int>, int>)
    ensures forall p :: p in r <==> SaldoProducto(movs, clienteId, p) != 0
    ensures forall p :: p in r ==> r[p] == SaldoProducto(movs, clienteId, p)
  {
    var s := SaldosHarina(movs, clienteId);
    map p | p in s && s[p] != 0 :: s[p]
  }

  // ---------------------------------------------------------------------------
  // Wheat waiting for its flour credit
  // ---------------------------------------------------------------------------

  /** `(peso_neto_pagar_kg > 0 OR peso_neto_fisico_kg > 0)`, where a NULL never compares true. */
  predicate ConPeso(r: Recepcion) {
    (r.netoPagar.Some? && r.netoPagar.value > 0) || (NetoFisico(r).Some? && NetoFisico(r).value > 0)
  }

  /** Some `CREDITO_HARINA_CONFIRMADO_KG` row references the intake (the `NOT EXISTS` subquery). */
  predicate Acreditada(movs: seq<MovMaquila>, recepcionId: int) {
    exists i :: 0 <= i < |movs| && movs[i].recepcionId == Some(recepcionId) && movs[i].tipo == CreditoConfirmado
  }

  predicate PorAcreditar(recs: map<int, Recepcion>, movs: seq<MovMaquila>, id: int) {
    id in recs && recs[id].tipo == TipoMaquila && ConPeso(recs[id]) && !Acreditada(movs, id)
  }

  /** `listarRecepcionesMaquilaPendientesAcreditar`: the ids it lists, of every client. */
  function PendientesAcreditar(recs: map<int, Recepcion>, movs: seq<MovMaquila>): (ids: set<int>)
    ensures forall id :: id in ids <==> PorAcreditar(recs, movs, id)
  {
    set id | id in recs && PorAcreditar(recs, movs, id)
  }

  /** `COALESCE(peso_neto_pagar_kg, peso_neto_fisico_kg, 0)`: only a NULL falls through. */
  function PesoPendiente(r: Recepcion): int {
    if r.netoPagar.Some? then r.netoPagar.value
    else if NetoFisico(r).Some? then NetoFisico(r).value
    else 0
  }

  /** The client's pending intakes, each with the weight the pending total adds. */
  function PendientesDe(recs: map<int, Recepcion>, movs: seq<MovMaquila>, clienteId: int): (p: map<int, int>)
    ensures forall id :: id in p <==> PorAcreditar(recs, movs, id) && recs[id].clienteId == Some(clienteId)
  {
    map id | id in PendientesAcreditar(recs, movs) && recs[id].clienteId == Some(clienteId) :: PesoPendiente(recs[id])
  }

  /** `trigo_pendiente_kg` of `obtenerSaldoHarina`. */
  ghost function TrigoPendiente(recs: map<int, Recepcion>, movs: seq<MovMaquila>, clienteId: int): int {
    SumMap(PendientesDe(recs, movs, clienteId))
  }

  /** A row is a credit for the intake exactly when it is confirmed-credit and names it. */
  lemma AcreditadaTrasRegistrar(movs: seq<MovMaquila>, m: MovMaquila, id: int)
    ensures Acreditada(movs + [m], id)
        <==> Acreditada(movs, id) || (m.recepcionId == Some(id) && m.tipo == CreditoConfirmado)
  {
    var nuevos := movs + [m];
    if Acreditada(movs, id) {
      var i :| 0 <= i < |movs| && movs[i].recepcionId == Some(id) && movs[i].tipo == CreditoConfirmado;
      assert nuevos[i] == movs[i];
    }
    if m.recepcionId == Some(id) && m.tipo == CreditoConfirmado {
      assert nuevos[|movs|] == m;
    }
    if Acreditada(nuevos, id) {
      var i :| 0 <= i < |nuevos| && nuevos[i].recepcionId == Some(id) && nuevos[i].tipo == CreditoConfirmado;
      if i < |movs| {
        assert movs[i] == nuevos[i];
      }
    }
  }

  /**
   * Recording a movement takes the intake it credits (if any) off the pending
   * list, and changes nothing else there.
   */
  lemma PendientesTrasRegistrar(recs: map<int, Recepcion>, movs: seq<MovMaquila>, m: MovMaquila)
    ensures PendientesAcreditar(recs, movs + [m])
         == if m.tipo == CreditoConfirmado && m.recepcionId.Some?
            then PendientesAcreditar(recs, movs) - {m.recepcionId.value}
            else PendientesAcreditar(recs, movs)
  {
    forall id {
      AcreditadaTrasRegistrar(movs, m, id);
    }
  }

  /**
   * ... and lowers the client's pending wheat by exactly that intake's weight
   * when the intake was the client's and pending.
   */
  lemma TrigoPendienteTrasRegistrar(recs: map<int, Recepcion>, movs: seq<MovMaquila>, m: MovMaquila, clienteId: int)
    ensures TrigoPendiente(recs, movs + [m], clienteId)
         == if m.tipo == CreditoConfirmado && m.recepcionId.Some? && m.recepcionId.value in PendientesDe(recs, movs, clienteId)
            then TrigoPendiente(recs, movs, clienteId) - PendientesDe(recs, movs, clienteId)[m.recepcionId.value]
            else TrigoPendiente(recs, movs, clienteId)
  {
    PendientesTrasRegistrar(recs, movs, m);
    var antes := PendientesDe(recs, movs, clienteId);
    var despues := PendientesDe(recs, movs + [m], clienteId);
    if m.tipo == CreditoConfirmado && m.recepcionId.Some? && m.recepcionId.value in antes {
      assert despues == antes - {m.recepcionId.value};
      SumMapRemove(antes, m.recepcionId.value);
    } else {
      assert despues == antes;
    }
  }

  /** Once a confirmed credit names intake r, r is neither listed nor counted as pending. */
  lemma CreditoSacaDePendientes(recs: map<int, Recepcion>, movs: seq<MovMaquila>, m: MovMaquila, clienteId: int)
    requires m.tipo == CreditoConfirmado && m.recepcionId.Some?
    ensures m.recepcionId.value !in PendientesAcreditar(recs, movs + [m])
    ensures m.recepcionId.value !in PendientesDe(recs, movs + [m], clienteId)
  {
    AcreditadaTrasRegistrar(movs, m, m.recepcionId.value);
  }

  /**
   * A new maquila intake with a positive payable weight and no ledger row
   * naming it joins the pending list and adds its payable weight to its
   * client's pending wheat.
   */
  lemma PendienteTrasIngreso(recs: map<int, Recepcion>, movs: seq<MovMaquila>, id: int, row: Recepcion, clienteId: int)
    requires id !in recs
    requires forall i :: 0 <= i < |movs| ==> movs[i].recepcionId != Some(id)
    requires row.tipo == TipoMaquila && row.netoPagar.Some? && row.netoPagar.value > 0
    ensures PendientesAcreditar(recs[id := row], movs) == PendientesAcreditar(recs, movs) + {id}
    ensures TrigoPendiente(recs[id := row], movs, clienteId)
         == TrigoPendiente(recs, movs, clienteId) + (if row.clienteId == Some(clienteId) then row.netoPagar.value else 0)
  {
    var nuevos := recs[id := row];
    assert !Acreditada(movs, id);
    assert PorAcreditar(nuevos, movs, id);
    var antes := PendientesDe(recs, movs, clienteId);
    var despues := PendientesDe(nuevos, movs, clienteId);
    if row.clienteId == Some(clienteId) {
      assert despues == antes[id := row.netoPagar.value];
      SumMapInsert(antes, id, row.netoPagar.value);
    } else {
      assert despues == antes;
    }
  }

  // ---------------------------------------------------------------------------
  // Account statement and summary
  // ---------------------------------------------------------------------------

  /**
   * The statement's weight of a deposit, `Number(pagar) || Number(fisico) || 0`:
   * a NULL or a zero payable falls through to the physical net. It differs from
   * the pending view's COALESCE exactly when the payable is 0 and the physical
   * net is not.
   */
  function PesoCuenta(r: Recepcion): (kg: int)
    ensures kg != PesoPendiente(r) <==> r.netoPagar == Some(0) && NetoFisico(r).Some? && NetoFisico(r).value != 0
  {
    if r.netoPagar.Some? && r.netoPagar.value != 0 then r.netoPagar.value
    else if NetoFisico(r).Some? && NetoFisico(r).value != 0 then NetoFisico(r).value
    else 0
  }

  /** The client's maquila intakes, each with its statement weight. */
  function DepositosCuenta(recs: map<int, Recepcion>, clienteId: int): (d: map<int, int>)
    ensures forall id :: id in d <==> id in recs && recs[id].clienteId == Some(clienteId) && recs[id].tipo == TipoMaquila
  {
    map id | id in recs && recs[id].clienteId == Some(clienteId) && recs[id].tipo == TipoMaquila :: PesoCuenta(recs[id])
  }

  datatype Cuenta = Cuenta(trigoKg: int, saldosHarina: map<Option<int>, int>)

  /**
   * `getCuentaCorriente`: nothing for an unknown client; otherwise the wheat
   * total (whole kilograms, so `Math.round` leaves it as it is) and the
   * non-zero flour balances.
   */
  ghost function CuentaCorriente(clientes: set<int>, recs: map<int, Recepcion>, movs: seq<MovMaquila>,
                                 clienteId: int): (r: Option<Cuenta>)
    ensures r.Some? <==> clienteId in clientes
    ensures r.Some? ==> forall p :: p in r.value.saldosHarina <==> SaldoProducto(movs, clienteId, p) != 0
    ensures r.Some? ==> forall p :: p in r.value.saldosHarina ==> r.value.saldosHarina[p] == SaldoProducto(movs, clienteId, p)
    ensures r.Some? ==> r.value.trigoKg == SumMap(DepositosCuenta(recs, clienteId))
  {
    if clienteId !in clientes then None
    else Some(Cuenta(JsRoundDiv(SumMap(DepositosCuenta(recs, clienteId)), 1), SaldosCuenta(movs, clienteId)))
  }

  /** A new maquila intake of the client adds its statement weight to the wheat total. */
  lemma DepositoTrasIngreso(recs: map<int, Recepcion>, id: int, row: Recepcion, clienteId: int)
    requires id !in recs
    ensures SumMap(DepositosCuenta(recs[id := row], clienteId))
         == SumMap(DepositosCuenta(recs, clienteId))
            + (if row.clienteId == Some(clienteId) && row.tipo == TipoMaquila then PesoCuenta(row) else 0)
  {
    var antes := DepositosCuenta(recs, clienteId);
    var despues := DepositosCuenta(recs[id := row], clienteId);
    if row.clienteId == Some(clienteId) && row.tipo == TipoMaquila {
      assert despues == antes[id := PesoCuenta(row)];
      SumMapInsert(antes, id, PesoCuenta(row));
    } else {
      assert despues == antes;
    }
  }

  /** `SUM(m.kg)` over all of the client's rows, whatever the product. */
  function TotalHarina(movs: seq<MovMaquila>, clienteId: int): int {
    if movs == [] then 0
    else
      var m := movs[|movs| - 1];
      TotalHarina(movs[..|movs| - 1], clienteId) + (if m.clienteId == Some(clienteId) then m.kg else 0)
  }

  /** The client's total moves with each of the client's rows, and with no one else's. */
  lemma TotalHarinaTrasRegistrar(movs: seq<MovMaquila>, m: MovMaquila, clienteId: int)
    ensures TotalHarina(movs + [m], clienteId)
         == TotalHarina(movs, clienteId) + (if m.clienteId == Some(clienteId) then m.kg else 0)
  {
    assert (movs + [m])[..|movs|] == movs;
  }

  /**
   * The summary's `Math.round(total_harina)` in whole kilograms: it is 0 for
   * any balance under half a kilogram either way.
   */
  function HarinaResumenKg(totalCentesimas: int): (kg: int)
    ensures kg == 0 <==> -50 <= totalCentesimas < 50
    ensures totalCentesimas >= 0 ==> kg >= 0
  {
    JsRoundDiv(totalCentesimas, 100)
  }

  /**
   * The summary's weight of a deposit, `SUM(peso_neto_pagar_kg)`: the payable
   * weight only. It differs from the statement's weight exactly when the
   * payable is NULL or 0 and the physical net is not 0.
   */
  function PesoResumen(r: Recepcion): (kg: int)
    ensures kg != PesoCuenta(r)
        <==> (r.netoPagar.None? || r.netoPagar == Some(0)) && NetoFisico(r).Some? && NetoFisico(r).value != 0
  {
    r.netoPagar.GetOr(0)
  }

  function DepositosResumen(recs: map<int, Recepcion>, clienteId: int): map<int, int> {
    map id | id in recs && recs[id].clienteId == Some(clienteId) && recs[id].tipo == TipoMaquila :: PesoResumen(recs[id])
  }

  datatype LineaResumen = LineaResumen(trigoKg: int, harinaKg: int)

  ghost function LineaDe(recs: map<int, Recepcion>, movs: seq<MovMaquila>, clienteId: int): LineaResumen {
    LineaResumen(SumMap(DepositosResumen(recs, clienteId)), HarinaResumenKg(TotalHarina(movs, clienteId)))
  }

  /**
   * `listarCuentasCorrientesResumen`: one line per client of the company,
   * kept when its wheat total is positive or its rounded flour total is not 0.
   */
  ghost function Resumen(clientes: set<int>, recs: map<int, Recepcion>, movs: seq<MovMaquila>): (r: map<int, LineaResumen>)
    ensures forall c :: c in r <==> c in clientes && (LineaDe(recs, movs, c).trigoKg > 0 || LineaDe(recs, movs, c).harinaKg != 0)
    ensures forall c :: c in r ==> r[c] == LineaDe(recs, movs, c)
  {
    map c | c in clientes && (LineaDe(recs, movs, c).trigoKg > 0 || LineaDe(recs, movs, c).harinaKg != 0) :: LineaDe(recs, movs, c)
  }

  // ---------------------------------------------------------------------------
  // Work types (milling percentages)
  // ---------------------------------------------------------------------------

  const ErrPorcentajeCrear: string := "Porcentaje debe ser un número entre 0 y 100"
  const ErrPorcentajeActualizar: string := "Porcentaje debe ser entre 0 y 100"

  /** `Number.isFinite(pct) && pct > 0 && pct <= 100`, on hundredths of a percent. */
  predicate PorcentajeValido(pct: JsNum) {
    pct.Finite? && 0 < pct.v <= 10000
  }

  /** Every stored work type has an accepted percentage. */
  predicate PorcentajesValidos(tipos: map<int, TipoTrabajo>) {
    forall id :: id in tipos ==> 0 < tipos[id].porcentaje <= 10000
  }

  /**
   * `String(pct)` for a percentage held in hundredths: the whole part, then a
   * point and the decimals only when there are any, with no trailing zero.
   */
  function PctTexto(p: nat): (s: string)
    ensures |s| >= 1
    ensures p % 100 == 0 ==> AllDigits(s)
    ensures p % 100 != 0 ==> s[|s| - 1] != '0' && '.' in s
  {
    var entero := NatToString(p / 100);
    var c := p % 100;
    if c == 0 then entero
    else if c % 10 == 0 then entero + "." + [DigitChar(c / 10)]
    else
      var decimales := Pad2(c);
      assert decimales[|decimales| - 1] == DigitChar(c % 10);
      entero + "." + decimales
  }

  /** `nombre || \`Trabajo ${pct}%\``. */
  function NombreTipo(nombre: string, pct: nat): string {
    if nombre != "" then nombre else "Trabajo " + PctTexto(pct) + "%"
  }

  /** The row `crearTipoTrabajoMaquila` inserts for an accepted percentage. */
  function TipoNuevo(nombre: string, pct: nat, productoHarinaId: int, activo: Option<bool>, orden: Option<int>): TipoTrabajo {
    TipoTrabajo(NombreTipo(nombre, pct), pct, IdOrNull(productoHarinaId), activo != Some(false), orden.GetOr(0))
  }

  /** PostgreSQL's message for a flour product id that `productos_terminados` does not hold. */
  const ErrFkTipo: string :=
    "insert or update on table \"maquila_tipos_trabajo\" violates foreign key constraint \"maquila_tipos_trabajo_producto_harina_id_fkey\""

  /**
   * `crearTipoTrabajoMaquila`: the percentage is checked first; an unknown
   * flour product (0 is NULL) then fails the INSERT on its foreign key.
   */
  method CrearTipoTrabajo(st: Store, nombre: string, porcentaje: JsNum, productoHarinaId: int,
                          activo: Option<bool>, orden: Option<int>)
    returns (r: Result<int>)
    requires st.ValidMaquila()
    modifies st`tiposTrabajo, st`nextTipo
    ensures st.ValidMaquila()
    ensures r.Err? <==> !PorcentajeValido(porcentaje) || (productoHarinaId != 0 && productoHarinaId !in st.stockTerminado)
    ensures r.Err? ==> r.msg == (if PorcentajeValido(porcentaje) then ErrFkTipo else ErrPorcentajeCrear)
                       && st.tiposTrabajo == old(st.tiposTrabajo) && st.nextTipo == old(st.nextTipo)
    ensures r.Ok? ==> PorcentajeValido(porcentaje) && r.value == old(st.nextTipo) && r.value !in old(st.tiposTrabajo)
                      && st.tiposTrabajo == old(st.tiposTrabajo)[r.value := TipoNuevo(nombre, porcentaje.v, productoHarinaId, activo, orden)]
                      && st.nextTipo == old(st.nextTipo) + 1
    ensures PorcentajesValidos(old(st.tiposTrabajo)) ==> PorcentajesValidos(st.tiposTrabajo)
  {
    if !PorcentajeValido(porcentaje) {
      return Err(ErrPorcentajeCrear);
    }
    if productoHarinaId != 0 && productoHarinaId !in st.stockTerminado {
      return Err(ErrFkTipo);
    }
    var id := st.nextTipo;
    st.tiposTrabajo := st.tiposTrabajo[id := TipoNuevo(nombre, porcentaje.v, productoHarinaId, activo, orden)];
    st.nextTipo := st.nextTipo + 1;
    r := Ok(id);
  }

  /** The fields of an update request; `None` is a field the request leaves undefined. */
  datatype CambioTipo = CambioTipo(nombre: Option<string>, porcentaje: Option<JsNum>, productoHarinaId: Option<int>,
                                   activo: Option<bool>, orden: Option<int>)

  /**
   * The row `actualizarTipoTrabajoMaquila` writes: each undefined field keeps
   * its stored value, and the flour product goes through `|| null` either way.
   */
  function TipoActualizado(t: TipoTrabajo, c: CambioTipo): (u: TipoTrabajo)
    requires c.porcentaje.Some? ==> PorcentajeValido(c.porcentaje.value)
    ensures c.nombre.None? ==> u.nombre == t.nombre
    ensures c.porcentaje.None? ==> u.porcentaje == t.porcentaje
    ensures c.porcentaje.Some? ==> 0 < u.porcentaje <= 10000
    ensures c.activo.None? ==> u.activo == t.activo
    ensures c.orden.None? ==> u.orden == t.orden
    ensures c == CambioTipo(None, None, None, None, None) && t.productoHarinaId != Some(0) ==> u == t
  {
    TipoTrabajo(c.nombre.GetOr(t.nombre),
                if c.porcentaje.Some? then c.porcentaje.value.v else t.porcentaje,
                ProductoTrasCambio(t, c),
                c.activo.GetOr(t.activo),
                c.orden.GetOr(t.orden))
  }

  /** The flour product column after an update: the sent id or the stored one, through `|| null`. */
  function ProductoTrasCambio(t: TipoTrabajo, c: CambioTipo): (p: Option<int>)
    ensures p.Some? ==> p.value != 0
    ensures c.productoHarinaId.None? && t.productoHarinaId != Some(0) ==> p == t.productoHarinaId
    ensures c.productoHarinaId.Some? && c.productoHarinaId.value != 0 ==> p == c.productoHarinaId
  {
    IdOrNull(if c.productoHarinaId.Some? then c.productoHarinaId.value else t.productoHarinaId.GetOr(0))
  }

  /**
   * An UPDATE fails on the flour product's foreign key when it writes a new,
   * non-NULL id that `productos_terminados` does not hold (PostgreSQL does
   * not re-check a key the update leaves as it was).
   */
  predicate ProductoRechazado(t: TipoTrabajo, c: CambioTipo, productos: map<int, int>) {
    var p := ProductoTrasCambio(t, c);
    p != t.productoHarinaId && p.Some? && p.value !in productos
  }

  /**
   * `actualizarTipoTrabajoMaquila`: `Ok(None)` (the service's null) for an
   * unknown id, checked before the percentage; the percentage is re-validated
   * only when the request supplies one; a new unknown flour product then
   * fails the UPDATE.
   */
  method ActualizarTipoTrabajo(st: Store, id: int, c: CambioTipo) returns (r: Result<Option<TipoTrabajo>>)
    requires st.ValidMaquila()
    modifies st`tiposTrabajo
    ensures st.ValidMaquila()
    ensures id !in old(st.tiposTrabajo) ==> r == Ok(None)
    ensures r.Err? <==> id in old(st.tiposTrabajo)
                        && ((c.porcentaje.Some? && !PorcentajeValido(c.porcentaje.value))
                            || ProductoRechazado(old(st.tiposTrabajo)[id], c, st.stockTerminado))
    ensures r.Err? ==> r.msg == (if c.porcentaje.Some? && !PorcentajeValido(c.porcentaje.value)
                                 then ErrPorcentajeActualizar else ErrFkTipo)
    ensures r.Ok? && r.value.Some? ==>
              id in old(st.tiposTrabajo) && (c.porcentaje.Some? ==> PorcentajeValido(c.porcentaje.value))
              && r.value.value == TipoActualizado(old(st.tiposTrabajo)[id], c)
              && st.tiposTrabajo == old(st.tiposTrabajo)[id := r.value.value]
    ensures !(r.Ok? && r.value.Some?) ==> st.tiposTrabajo == old(st.tiposTrabajo)
    ensures r.Ok? ==> (r.value.Some? <==> id in old(st.tiposTrabajo))
    ensures PorcentajesValidos(old(st.tiposTrabajo)) ==> PorcentajesValidos(st.tiposTrabajo)
  {
    if id !in st.tiposTrabajo {
      return Ok(None);
    }
    if c.porcentaje.Some? && !PorcentajeValido(c.porcentaje.value) {
      return Err(ErrPorcentajeActualizar);
    }
    if ProductoRechazado(st.tiposTrabajo[id], c, st.stockTerminado) {
      return Err(ErrFkTipo);
    }
    var t := TipoActualizado(st.tiposTrabajo[id], c);
    st.tiposTrabajo := st.tiposTrabajo[id := t];
    r := Ok(Some(t));
  }

  /** `eliminarTipoTrabajoMaquila`: a hard delete, returning the id or nothing if absent. */
  method EliminarTipoTrabajo(st: Store, id: int) returns (r: Option<int>)
    requires st.ValidMaquila()
    modifies st`tiposTrabajo
    ensures st.ValidMaquila()
    ensures r == (if id in old(st.tiposTrabajo) then Some(id) else None)
    ensures st.tiposTrabajo == old(st.tiposTrabajo) - {id}
    ensures PorcentajesValidos(old(st.tiposTrabajo)) ==> PorcentajesValidos(st.tiposTrabajo)
  {
    r := if id in st.tiposTrabajo then Some(id) else None;
    st.tiposTrabajo := st.tiposTrabajo - {id};
  }

  // ---------------------------------------------------------------------------
  // Recording a movement
  // ---------------------------------------------------------------------------

  const ErrKgInvalido: string := "kg inválido"

  /** Why `registrarMovimientoMaquila` fails. */
  datatype FallaMovimiento = KgInvalido | SinSucursal | SinBodega | SinCliente | SinProducto | SinRecepcion

  /** The service's message, or PostgreSQL's for a broken foreign key of `maquila_movimientos`. */
  function MensajeMovimiento(f: FallaMovimiento): string {
    match f
    case KgInvalido => ErrKgInvalido
    case SinSucursal => ErrFk("sucursal_id")
    case SinBodega => ErrFk("bodega_id")
    case SinCliente => ErrFk("cliente_id")
    case SinProducto => ErrFk("producto_harina_id")
    case SinRecepcion => ErrFk("recepcion_id")
  }

  function ErrFk(columna: string): string {
    "insert or update on table \"maquila_movimientos\" violates foreign key constraint \"maquila_movimientos_"
      + columna + "_fkey\""
  }

  /**
   * The checks in the order they bite: kg that is not a finite non-zero
   * number, then a branch, warehouse, client, flour product or intake id
   * (0 is NULL) that does not exist, in the order of the table's columns.
   */
  function RechazoMovimiento(st: Store, sucursalId: int, bodegaId: int, clienteId: int, productoHarinaId: int,
                             recepcionId: int, kg: JsNum)
    : (e: Option<FallaMovimiento>)
    reads st`sucursales, st`bodegas, st`clientes, st`stockTerminado, st`recepciones
    ensures e.None? <==> kg.Finite? && kg.v != 0
                         && (sucursalId == 0 || sucursalId in st.sucursales)
                         && (bodegaId == 0 || bodegaId in st.bodegas)
                         && (clienteId == 0 || clienteId in st.clientes)
                         && (productoHarinaId == 0 || productoHarinaId in st.stockTerminado)
                         && (recepcionId == 0 || recepcionId in st.recepciones)
    ensures !(kg.Finite? && kg.v != 0) ==> e == Some(KgInvalido)
    ensures kg.Finite? && kg.v != 0 && sucursalId != 0 && sucursalId !in st.sucursales ==> e == Some(SinSucursal)
  {
    if !(kg.Finite? && kg.v != 0) then Some(KgInvalido)
    else if sucursalId != 0 && sucursalId !in st.sucursales then Some(SinSucursal)
    else if bodegaId != 0 && bodegaId !in st.bodegas then Some(SinBodega)
    else if clienteId != 0 && clienteId !in st.clientes then Some(SinCliente)
    else if productoHarinaId != 0 && productoHarinaId !in st.stockTerminado then Some(SinProducto)
    else if recepcionId != 0 && recepcionId !in st.recepciones then Some(SinRecepcion)
    else None
  }

  /**
   * `registrarMovimientoMaquila`: appends exactly one row holding kg as given
   * (ids go through `|| null`); no existing row changes. The row moves its own
   * balance by its kg, and a confirmed credit takes its intake off the pending list.
   */
  method RegistrarMovimientoMaquila(st: Store, sucursalId: int, bodegaId: int, clienteId: int,
                                    productoHarinaId: int, recepcionId: int, tipo: string, kg: JsNum)
    returns (r: Result<MovMaquila>)
    requires st.ValidMaquila()
    modifies st`maquila, st`nextMaquila
    ensures st.ValidMaquila()
    ensures r.Err? <==> RechazoMovimiento(st, sucursalId, bodegaId, clienteId, productoHarinaId, recepcionId, kg).Some?
    ensures r.Err? ==> r.msg == MensajeMovimiento(RechazoMovimiento(st, sucursalId, bodegaId, clienteId,
                                                                    productoHarinaId, recepcionId, kg).value)
                       && st.maquila == old(st.maquila) && st.nextMaquila == old(st.nextMaquila)
    ensures r.Ok? ==> kg.Finite?
                      && r.value == MovMaquila(old(st.nextMaquila), IdOrNull(sucursalId), IdOrNull(bodegaId),
                                               IdOrNull(clienteId), IdOrNull(productoHarinaId),
                                               IdOrNull(recepcionId), tipo, kg.v)
                      && st.maquila == old(st.maquila) + [r.value] && st.nextMaquila == old(st.nextMaquila) + 1
    ensures r.Ok? ==> forall c, p :: SaldoProducto(st.maquila, c, p)
                                    == SaldoProducto(old(st.maquila), c, p) + (if DeCuenta(r.value, c, p) then r.value.kg else 0)
    ensures r.Ok? ==> PendientesAcreditar(st.recepciones, st.maquila)
                      == if tipo == CreditoConfirmado && recepcionId != 0
                         then PendientesAcreditar(st.recepciones, old(st.maquila)) - {recepcionId}
                         else PendientesAcreditar(st.recepciones, old(st.maquila))
  {
    var e := RechazoMovimiento(st, sucursalId, bodegaId, clienteId, productoHarinaId, recepcionId, kg);
    if e.Some? {
      return Err(MensajeMovimiento(e.value));
    }
    var m := MovMaquila(st.nextMaquila, IdOrNull(sucursalId), IdOrNull(bodegaId), IdOrNull(clienteId),
                        IdOrNull(productoHarinaId), IdOrNull(recepcionId), tipo, kg.v);
    AnotarMovimiento(st, m);
    r := Ok(m);
  }

  /** The append of a checked row, with its effect on the balances and the pending list. */
  method AnotarMovimiento(st: Store, m: MovMaquila)
    requires st.ValidMaquila() && m.id == st.nextMaquila
    requires m.recepcionId.Some? ==> m.recepcionId.value in st.recepciones
    modifies st`maquila, st`nextMaquila
    ensures st.ValidMaquila()
    ensures st.maquila == old(st.maquila) + [m] && st.nextMaquila == old(st.nextMaquila) + 1
    ensures forall c, p :: SaldoProducto(st.maquila, c, p)
                          == SaldoProducto(old(st.maquila), c, p) + (if DeCuenta(m, c, p) then m.kg else 0)
    ensures PendientesAcreditar(st.recepciones, st.maquila)
            == if m.tipo == CreditoConfirmado && m.recepcionId.Some?
               then PendientesAcreditar(st.recepciones, old(st.maquila)) - {m.recepcionId.value}
               else PendientesAcreditar(st.recepciones, old(st.maquila))
  {
    forall c, p
      ensures SaldoProducto(st.maquila + [m], c, p) == SaldoProducto(st.maquila, c, p) + (if DeCuenta(m, c, p) then m.kg else 0)
    {
      SaldoTrasRegistrar(st.maquila, m, c, p);
    }
    PendientesTrasRegistrar(st.recepciones, st.maquila, m);
    st.maquila := st.maquila + [m];
    st.nextMaquila := st.nextMaquila + 1;
  }

  // ---------------------------------------------------------------------------
  // Direct maquila intake
  // ---------------------------------------------------------------------------

  const ErrClienteRequerido: string := "Cliente requerido"
  const ErrPesoNetoInvalido: string := "Peso neto inválido. Ingrese peso neto directo o bruto/tara."

  /**
   * The net weight of a direct intake: `peso_neto` when it is a positive
   * number, otherwise bruto − tara when bruto > 0; never 0 or below.
   */
  function NetoDirecto(neto: JsNum, bruto: int, tara: int): (n: Option<int>)
    ensures n.Some? ==> n.value > 0
    ensures neto.Finite? && neto.v > 0 ==> n == Some(neto.v)
    ensures !(neto.Finite? && neto.v > 0) ==> (n.Some? <==> bruto > 0 && bruto > tara)
    ensures !(neto.Finite? && neto.v > 0) && n.Some? ==> n.value + tara == bruto
  {
    var calculado := if neto.Finite? && neto.v > 0 then neto.v else if bruto > 0 then bruto - tara else 0;
    if calculado > 0 then Some(calculado) else None
  }

  /** Why `registrarRecepcionDirecta` refuses, in the order it checks. */
  function RechazoDirecto(clienteId: int, pesoBruto: JsNum, pesoTara: JsNum, pesoNeto: JsNum): (e: Option<string>)
    ensures e.None? <==> clienteId != 0 && NetoDirecto(pesoNeto, NumOrZero(pesoBruto), NumOrZero(pesoTara)).Some?
    ensures clienteId == 0 ==> e == Some(ErrClienteRequerido)
    ensures clienteId != 0 && e.Some? ==> e == Some(ErrPesoNetoInvalido)
  {
    if clienteId == 0 then Some(ErrClienteRequerido)
    else if NetoDirecto(pesoNeto, NumOrZero(pesoBruto), NumOrZero(pesoTara)).None? then Some(ErrPesoNetoInvalido)
    else None
  }

  /** The row inserted: a finished maquila intake whose payable weight is the net; bruto and tara only when positive. */
  function RecepcionDirecta(clienteId: int, productoAgricolaId: Option<int>, bruto: int, tara: int, neto: int,
                            now: int): Recepcion {
    Recepcion(TipoMaquila, None, None, Some(clienteId), productoAgricolaId,
              if bruto > 0 then Some(bruto) else None, if tara > 0 then Some(tara) else None,
              Some(0), Some(0), Some(neto), None, None, "finalizado", Some(now))
  }

  /** The `pesajes` rows: a BRUTO leg when bruto > 0, then a TARA leg when tara > 0. */
  function PesajesDirectos(id: int, bruto: int, tara: int, now: int): seq<Pesaje> {
    (if bruto > 0 then [Pesaje(id, "BRUTO", bruto, now)] else [])
      + (if tara > 0 then [Pesaje(id, "TARA", tara, now)] else [])
  }

  datatype IngresoDirecto = IngresoDirecto(id: int, ticketCodigo: string, neto: int)

  /**
   * `registrarRecepcionDirecta`: the wheat lands as a finished intake with an
   * `R-YYYYMMDD-{id}` ticket, so it is at once waiting for its flour credit.
   * The product lookup, the clock and the random token part are parameters.
   */
  method RegistrarRecepcionDirecta(st: Store, clienteId: int, productoAgricolaId: Option<int>,
                                   pesoBruto: JsNum, pesoTara: JsNum, pesoNeto: JsNum,
                                   hoy: Date, aleatorio: string, now: int)
    returns (r: Result<IngresoDirecto>)
    requires st.ValidRecepciones() && st.ValidMaquila() && ValidDate(hoy)
    modifies st`recepciones, st`nextRecepcion, st`pesajes
    ensures st.ValidRecepciones() && st.ValidMaquila()
    ensures r.Err? <==> RechazoDirecto(clienteId, pesoBruto, pesoTara, pesoNeto).Some?
    ensures r.Err? ==> Some(r.msg) == RechazoDirecto(clienteId, pesoBruto, pesoTara, pesoNeto)
                       && st.recepciones == old(st.recepciones) && st.nextRecepcion == old(st.nextRecepcion)
                       && st.pesajes == old(st.pesajes)
    ensures r.Ok? ==>
              var id := old(st.nextRecepcion);
              var bruto := NumOrZero(pesoBruto);
              var tara := NumOrZero(pesoTara);
              id >= 1 && NetoDirecto(pesoNeto, bruto, tara).Some?
              && r.value == IngresoDirecto(id, BuildTicketCodigo(hoy, id), NetoDirecto(pesoNeto, bruto, tara).value)
              && id !in old(st.recepciones)
              && st.recepciones == old(st.recepciones)[id := RecepcionDirecta(clienteId, productoAgricolaId, bruto, tara, r.value.neto, now)
                                                          .(ticketCodigo := Some(r.value.ticketCodigo),
                                                            ticketToken := Some(TokenTicket(st.empresaId, id, aleatorio)))]
              && st.nextRecepcion == id + 1
              && st.pesajes == old(st.pesajes) + PesajesDirectos(id, bruto, tara, now)
    ensures r.Ok? ==> r.value.id in PendientesAcreditar(st.recepciones, st.maquila)
    ensures r.Ok? ==> TrigoPendiente(st.recepciones, st.maquila, clienteId)
                      == TrigoPendiente(old(st.recepciones), st.maquila, clienteId) + r.value.neto
  {
    var e := RechazoDirecto(clienteId, pesoBruto, pesoTara, pesoNeto);
    if e.Some? {
      return Err(e.value);
    }
    var bruto := NumOrZero(pesoBruto);
    var tara := NumOrZero(pesoTara);
    var neto := NetoDirecto(pesoNeto, bruto, tara).value;
    var id := AplicarIngresoDirecto(st, clienteId, productoAgricolaId, bruto, tara, neto, hoy, aleatorio, now);
    r := Ok(IngresoDirecto(id, BuildTicketCodigo(hoy, id), neto));
  }

  /** The writes of a direct intake once its checks have passed. */
  method AplicarIngresoDirecto(st: Store, clienteId: int, productoAgricolaId: Option<int>, bruto: int, tara: int,
                               neto: int, hoy: Date, aleatorio: string, now: int)
    returns (id: nat)
    requires st.ValidRecepciones() && st.ValidMaquila() && ValidDate(hoy) && neto > 0
    modifies st`recepciones, st`nextRecepcion, st`pesajes
    ensures st.ValidRecepciones() && st.ValidMaquila()
    ensures id == old(st.nextRecepcion) && id !in old(st.recepciones) && st.nextRecepcion == id + 1
    ensures st.recepciones == old(st.recepciones)[id := RecepcionDirecta(clienteId, productoAgricolaId, bruto, tara, neto, now)
                                                   .(ticketCodigo := Some(BuildTicketCodigo(hoy, id)),
                                                     ticketToken := Some(TokenTicket(st.empresaId, id, aleatorio)))]
    ensures st.pesajes == old(st.pesajes) + PesajesDirectos(id, bruto, tara, now)
    ensures id in PendientesAcreditar(st.recepciones, st.maquila)
    ensures TrigoPendiente(st.recepciones, st.maquila, clienteId)
            == TrigoPendiente(old(st.recepciones), st.maquila, clienteId) + neto
  {
    var fila := RecepcionDirecta(clienteId, productoAgricolaId, bruto, tara, neto, now);
    var conTicket;
    id, conTicket := InsertarConTicket(st, fila, hoy, aleatorio);
    PendienteTrasIngreso(old(st.recepciones), st.maquila, id, conTicket, clienteId);
    st.pesajes := st.pesajes + PesajesDirectos(id, bruto, tara, now);
  }

  /** `INSERT` of a new intake, then the `UPDATE` that gives it its ticket code and token. */
  method InsertarConTicket(st: Store, fila: Recepcion, hoy: Date, aleatorio: string) returns (id: nat, conTicket: Recepcion)
    requires st.ValidRecepciones() && st.ValidMaquila() && ValidDate(hoy) && fila.ticketCodigo.None?
    modifies st`recepciones, st`nextRecepcion
    ensures st.ValidRecepciones() && st.ValidMaquila()
    ensures id == old(st.nextRecepcion) && id !in old(st.recepciones) && st.nextRecepcion == id + 1
    ensures conTicket == fila.(ticketCodigo := Some(BuildTicketCodigo(hoy, id)),
                               ticketToken := Some(TokenTicket(st.empresaId, id, aleatorio)))
    ensures st.recepciones == old(st.recepciones)[id := conTicket]
  {
    var nuevo := st.InsertarRecepcion(fila);
    id := nuevo;
    TicketEsDe(hoy, id);
    conTicket := fila.(ticketCodigo := Some(BuildTicketCodigo(hoy, id)),
                       ticketToken := Some(TokenTicket(st.empresaId, id, aleatorio)));
    st.ActualizarRecepcion(id, conTicket);
  }
}

=== FILE: maquila_cliente.dfy ===
/**
 * The arithmetic of the maquila screen in the browser: the suggested credit
 * for a deposit, the percentage check of the work-type forms, the withdrawal
 * preview and the express-intake net weight. Each is stated against the
 * server-side rule it anticipates.
 */
module MaquilaCliente {
  import opened Common
  import opened Database
  import opened MaquilaService
  import opened MaquilaRuta

  /**
   * The kg suggested when a work type is picked for a deposit:
   * `Math.round(neto * pct / 100)` with `neto = Number(pagar) || Number(fisico) || 0`
   * (the statement's weight) and the percentage in hundredths. The whole
   * percentage suggests the whole deposit, and a valid percentage never
   * suggests more than was deposited.
   */
  function SugerirKg(r: Recepcion, pct: int): (kg: int)
    ensures pct == 10000 ==> kg == PesoCuenta(r)
    ensures 0 <= pct <= 10000 && PesoCuenta(r) >= 0 ==> 0 <= kg <= PesoCuenta(r)
  {
    var neto := PesoCuenta(r);
    assert 0 <= pct <= 10000 && neto >= 0 ==> 0 <= neto * pct <= neto * 10000 by {
      if 0 <= pct <= 10000 && neto >= 0 {
        MulMonotone(neto, 0, pct);
        MulMonotone(neto, pct, 10000);
      }
    }
    JsRoundDiv(neto * pct, 10000)
  }

  /**
   * The check of `agregarPorcentaje` and `editarPorcentaje` before anything is
   * sent; it accepts exactly what the server accepts.
   */
  function PorcentajeAceptado(pct: JsNum): (ok: bool)
    ensures ok <==> PorcentajeValido(pct)
  {
    pct.Finite? && !(pct.v <= 0 || pct.v > 10000)
  }

  datatype Aviso = Informativo | Exito | Peligro
  datatype VistaRetiro = VistaRetiro(saldoFinal: int, aviso: Aviso)

  /**
   * `renderSaldoRetiro` once a flour product is chosen (0 means none is, and
   * nothing is computed): the balance shown is the client's row for that
   * product, or 0 without one; the preview is balance − withdrawal, a danger
   * exactly when it is negative and a success when it is not and something is
   * withdrawn.
   */
  function PrevisualizarRetiro(saldos: map<Option<int>, int>, productoId: int, retiro: JsNum): (v: Option<VistaRetiro>)
    ensures v.Some? <==> productoId != 0
    ensures v.Some? ==> v.value.saldoFinal == (if Some(productoId) in saldos then saldos[Some(productoId)] else 0)
                                              - NumOrZero(retiro)
    ensures v.Some? ==> (v.value.aviso == Peligro <==> v.value.saldoFinal < 0)
    ensures v.Some? ==> (v.value.aviso == Exito <==> v.value.saldoFinal >= 0 && NumOrZero(retiro) > 0)
  {
    if productoId == 0 then None
    else
      var saldo := if Some(productoId) in saldos then saldos[Some(productoId)] else 0;
      var r := NumOrZero(retiro);
      var final := saldo - r;
      Some(VistaRetiro(final, if final < 0 then Peligro else if r > 0 then Exito else Informativo))
  }

  /**
   * The preview foretells the ledger: for a non-negative withdrawal of a
   * client's flour, the preview computed from `obtenerSaldoHarina` shows the
   * balance the account will have once the route stores the withdrawal, and
   * warns exactly when that balance is negative.
   */
  lemma PrevisualizacionAnticipaRetiro(movs: seq<MovMaquila>, clienteId: int, productoId: int, retiro: int,
                                      m: MovMaquila)
    requires productoId != 0 && retiro >= 0
    requires DeCuenta(m, clienteId, Some(productoId))
    requires m.tipo == RetiroHarina && m.kg == KgNormalizado(RetiroHarina, Some(Finite(retiro))).v
    ensures var v := PrevisualizarRetiro(SaldosHarina(movs, clienteId), productoId, Finite(retiro));
            && v.Some?
            && v.value.saldoFinal == SaldoProducto(movs + [m], clienteId, Some(productoId))
            && (v.value.aviso == Peligro <==> SaldoProducto(movs + [m], clienteId, Some(productoId)) < 0)
  {
    SaldoTrasRegistrar(movs, m, clienteId, Some(productoId));
  }

  /**
   * `calcNetoExpress`: the net field is overwritten with bruto − tara only when
   * bruto > 0 and bruto > tara. It is exactly the net the server falls back to
   * when no usable net is sent.
   */
  function CalcNetoExpress(bruto: JsNum, tara: JsNum): (n: Option<int>)
    ensures n == NetoDirecto(NonFinite, NumOrZero(bruto), NumOrZero(tara))
    ensures n.Some? ==> n.value > 0
  {
    var b := NumOrZero(bruto);
    var t := NumOrZero(tara);
    if b > 0 && b > t then Some(b - t) else None
  }
}

=== FILE: maquila_ruta.dfy ===
/**
 * The POST `/movimientos` handler of the maquila routes, the only logic in
 * that router: it fills in the user's branch, uppercases the movement kind,
 * refuses a request without a client or a kind, and forces the sign of
 * withdrawals and credits before the ledger sees the row.
 */
module MaquilaRuta {
  import opened Common
  import opened Database
  import opened MaquilaService

  const ErrClienteIdRequerido: string := "cliente_id requerido"
  const ErrTipoRequerido: string := "tipo_movimiento requerido"

  /**
   * The request body. An id is 0 when absent; `kg` is `Number(kg)` of the
   * field, `None` when the field is absent (an empty or zero field ends the
   * same way: the ledger refuses it).
   */
  datatype Payload = Payload(sucursalId: int, bodegaId: int, clienteId: int, productoHarinaId: int,
                             recepcionId: int, tipoMovimiento: string, kg: Option<JsNum>)

  function Abs(x: int): nat {
    if x < 0 then -x else x
  }

  /**
   * The kg the ledger receives: `-Math.abs(Number(kg || 0))` for a withdrawal,
   * `Math.abs(...)` for a confirmed credit, and `Number(kg)` untouched for any
   * other kind.
   */
  function KgNormalizado(tipo: string, kg: Option<JsNum>): (r: JsNum)
    ensures tipo == RetiroHarina && r.Finite? ==> r.v <= 0
    ensures tipo == CreditoConfirmado && r.Finite? ==> r.v >= 0
    ensures (tipo == RetiroHarina || tipo == CreditoConfirmado) && kg.None? ==> r == Finite(0)
    ensures (tipo == RetiroHarina || tipo == CreditoConfirmado) && kg.Some? ==>
              r.Finite? == kg.value.Finite? && (r.Finite? ==> Abs(r.v) == Abs(kg.value.v))
    ensures tipo != RetiroHarina && tipo != CreditoConfirmado ==> r == (if kg.Some? then kg.value else NonFinite)
  {
    var numero := if kg.Some? then kg.value else Finite(0);
    if tipo == RetiroHarina then
      (if numero.Finite? then Finite(-(Abs(numero.v) as int)) else NonFinite)
    else if tipo == CreditoConfirmado then
      (if numero.Finite? then Finite(Abs(numero.v)) else NonFinite)
    else if kg.Some? then kg.value
    else NonFinite
  }

  /** `sucursal_id` after `if (!payload.sucursal_id && sucursalId) payload.sucursal_id = sucursalId`. */
  function SucursalEfectiva(sucursalUsuario: int, sucursalId: int): (s: int)
    ensures sucursalId != 0 ==> s == sucursalId
    ensures sucursalId == 0 ==> s == sucursalUsuario
  {
    if sucursalId == 0 && sucursalUsuario != 0 then sucursalUsuario else sucursalId
  }

  /**
   * The handler: the request is normalised step by step, then handed to the
   * ledger. A stored withdrawal always lowers its balance and a stored credit
   * always raises it, whatever sign the request carried.
   */
  method RegistrarMovimientoRuta(st: Store, sucursalUsuario: int, payload: Payload) returns (r: Result<MovMaquila>)
    requires st.ValidMaquila()
    modifies st`maquila, st`nextMaquila
    ensures st.ValidMaquila()
    ensures payload.clienteId == 0 ==> r == Err(ErrClienteIdRequerido)
    ensures payload.clienteId != 0 && payload.tipoMovimiento == "" ==> r == Err(ErrTipoRequerido)
    ensures r.Err? ==> st.maquila == old(st.maquila) && st.nextMaquila == old(st.nextMaquila)
    ensures payload.clienteId != 0 && payload.tipoMovimiento != "" ==>
              var tipo := Upper(payload.tipoMovimiento);
              var kg := KgNormalizado(tipo, payload.kg);
              var e := RechazoMovimiento(st, SucursalEfectiva(sucursalUsuario, payload.sucursalId), payload.bodegaId,
                                         payload.clienteId, payload.productoHarinaId, payload.recepcionId, kg);
              && (r.Err? <==> e.Some?)
              && (e.Some? ==> r == Err(MensajeMovimiento(e.value)))
              && (r.Ok? ==> kg.Finite?
                            && r.value == MovMaquila(old(st.nextMaquila),
                                                     IdOrNull(SucursalEfectiva(sucursalUsuario, payload.sucursalId)),
                                                     IdOrNull(payload.bodegaId), Some(payload.clienteId),
                                                     IdOrNull(payload.productoHarinaId), IdOrNull(payload.recepcionId),
                                                     tipo, kg.v)
                            && st.maquila == old(st.maquila) + [r.value])
    ensures payload.clienteId != 0 && payload.kg.None?
            && (Upper(payload.tipoMovimiento) == RetiroHarina || Upper(payload.tipoMovimiento) == CreditoConfirmado)
            ==> r == Err(ErrKgInvalido)
    ensures r.Ok? && r.value.tipo == RetiroHarina ==>
              r.value.kg < 0
              && SaldoProducto(st.maquila, payload.clienteId, r.value.productoHarinaId)
                 < SaldoProducto(old(st.maquila), payload.clienteId, r.value.productoHarinaId)
    ensures r.Ok? && r.value.tipo == CreditoConfirmado ==>
              r.value.kg > 0
              && SaldoProducto(st.maquila, payload.clienteId, r.value.productoHarinaId)
                 > SaldoProducto(old(st.maquila), payload.clienteId, r.value.productoHarinaId)
  {
    var p := payload;
    if p.sucursalId == 0 && sucursalUsuario != 0 {
      p := p.(sucursalId := sucursalUsuario);
    }
    var tipo := Upper(p.tipoMovimiento);
    if p.clienteId == 0 {
      return Err(ErrClienteIdRequerido);
    }
    if tipo == "" {
      return Err(ErrTipoRequerido);
    }
    if tipo == RetiroHarina || tipo == CreditoConfirmado {
      p := p.(kg := Some(KgNormalizado(tipo, p.kg)));
    }
    p := p.(tipoMovimiento := tipo);
    var kg := if p.kg.Some? then p.kg.value else NonFinite;
    assert kg == KgNormalizado(tipo, payload.kg);
    r := RegistrarMovimientoMaquila(st, p.sucursalId, p.bodegaId, p.clienteId, p.productoHarinaId, p.recepcionId,
                                    p.tipoMovimiento, kg);
  }
}

=== FILE: produccion.dfy ===
/**
 * Production: formulas and their ingredient rows, production orders, and the
 * closing of an order (`registrarRendimiento`), which records the yield,
 * consumes the input lots from the inventory and credits the finished product.
 */
module ProduccionService {
  import opened Common
  import opened Database
  import opened Inventario
  import Sums

  // ---------------------------------------------------------------------------
  // Formulas
  // ---------------------------------------------------------------------------

  /**
   * One element of the `ingredientes` array of a new formula. The proportion is
   * in ten-thousandths of a kilogram per unit; `None` is a missing or null one.
   */
  datatype IngredienteEntrada = IngredienteEntrada(productoAgricolaId: int, proporcion: Option<int>)

  /** The row an entry with a proportion becomes. */
  function FilaIngrediente(formulaId: int, ing: IngredienteEntrada): (f: Ingrediente)
    requires ing.proporcion.Some?
    ensures f.formulaId == formulaId && f.productoAgricolaId == ing.productoAgricolaId
    ensures f.proporcion == ing.proporcion.value
  {
    Ingrediente(formulaId, ing.productoAgricolaId, ing.proporcion.value)
  }

  /**
   * The ingredient table after inserting the rows of formula `formulaId` in
   * order, with ids from `next`.
   */
  function AgregarIngredientes(m: map<int, Ingrediente>, next: int, formulaId: int,
                               ings: seq<IngredienteEntrada>): (r: map<int, Ingrediente>)
    requires forall k :: k in m ==> k < next
    requires forall i :: 0 <= i < |ings| ==> ings[i].proporcion.Some?
    ensures forall k :: k in r <==> k in m || next <= k < next + |ings|
    ensures forall k :: k in m ==> r[k] == m[k]
    ensures forall i :: 0 <= i < |ings| ==>
      r[next + i] == Ingrediente(formulaId, ings[i].productoAgricolaId, ings[i].proporcion.value)
    decreases |ings|
  {
    if ings == [] then m
    else
      var n := |ings| - 1;
      var prev := AgregarIngredientes(m, next, formulaId, ings[..n]);
      prev[next + n := FilaIngrediente(formulaId, ings[n])]
  }

  /** One more entry adds exactly its own row, at the next id. */
  lemma AgregarUnaMas(m: map<int, Ingrediente>, next: int, formulaId: int, ings: seq<IngredienteEntrada>,
                      productos: set<int>, n: nat)
    requires forall k :: k in m ==> k < next
    requires n < IngredientesAceptados(ings, productos)
    ensures AgregarIngredientes(m, next, formulaId, ings[..n + 1])
            == AgregarIngredientes(m, next, formulaId, ings[..n])[next + n := FilaIngrediente(formulaId, ings[n])]
  {
    assert ings[..n + 1][..n] == ings[..n];
  }

  /**
   * Inserting rows for a formula not yet in `formulas` leaves every earlier
   * row pointing into `formulas`, and the rows of the new formula are exactly
   * the inserted ones.
   */
  lemma FilasDeLaFormula(m: map<int, Ingrediente>, next: int, formulaId: int, ings: seq<IngredienteEntrada>,
                         formulas: map<int, Formula>)
    requires forall k :: k in m ==> k < next
    requires forall k :: k in m ==> m[k].formulaId in formulas
    requires formulaId !in formulas
    requires forall i :: 0 <= i < |ings| ==> ings[i].proporcion.Some?
    ensures var r := AgregarIngredientes(m, next, formulaId, ings);
            forall k :: k in r && r[k].formulaId == formulaId <==> next <= k < next + |ings|
    ensures var r := AgregarIngredientes(m, next, formulaId, ings);
            forall k :: k in r ==> r[k].formulaId in formulas || r[k].formulaId == formulaId
  {
    var r := AgregarIngredientes(m, next, formulaId, ings);
    forall k | k in r
      ensures r[k].formulaId == formulaId <==> next <= k < next + |ings|
    {
      if k !in m {
        var i := k - next;
        assert r[next + i] == Ingrediente(formulaId, ings[i].productoAgricolaId, ings[i].proporcion.value);
      }
    }
  }

  /** The ingredient table without the rows of formula `formulaId`. */
  function SinIngredientesDe(m: map<int, Ingrediente>, formulaId: int): (r: map<int, Ingrediente>)
    ensures forall k :: k in r <==> k in m && m[k].formulaId != formulaId
    ensures forall k :: k in r ==> r[k] == m[k]
  {
    map k | k in m && m[k].formulaId != formulaId :: m[k]
  }

  /** PostgreSQL's messages for the ways a new formula's rows can be refused. */
  const ErrFkFormulaProducto :=
    "insert or update on table \"formulas\" violates foreign key constraint \"formulas_producto_terminado_id_fkey\""
  const ErrFkIngredienteProducto :=
    "insert or update on table \"formula_ingredientes\" violates foreign key constraint \"formula_ingredientes_producto_agricola_id_fkey\""
  const ErrProporcionNula :=
    "null value in column \"proporcion_kg_por_unidad\" of relation \"formula_ingredientes\" violates not-null constraint"
  const ErrDesbordeNumerico := "numeric field overflow"

  /** `DECIMAL(12,4)` holds eight digits before the point: below 10^8 kg in absolute value. */
  const TopeProporcion := 1_000_000_000_000

  /**
   * Why PostgreSQL refuses an ingredient row, in the order it checks: the
   * NOT NULL column and the value's precision while the row is formed, the
   * foreign key after.
   */
  function RechazoIngrediente(ing: IngredienteEntrada, productos: set<int>): (e: Option<string>)
    ensures e.None? <==> ing.proporcion.Some? && -TopeProporcion < ing.proporcion.value < TopeProporcion
                         && ing.productoAgricolaId in productos
    ensures ing.proporcion.None? ==> e == Some(ErrProporcionNula)
    ensures ing.proporcion.Some? && !(-TopeProporcion < ing.proporcion.value < TopeProporcion) ==>
              e == Some(ErrDesbordeNumerico)
  {
    if ing.proporcion.None? then Some(ErrProporcionNula)
    else if !(-TopeProporcion < ing.proporcion.value < TopeProporcion) then Some(ErrDesbordeNumerico)
    else if ing.productoAgricolaId !in productos then Some(ErrFkIngredienteProducto)
    else None
  }

  /**
   * How many entries, from the front, PostgreSQL accepts: the loop of
   * `crearFormula` writes these and throws on the next one.
   */
  function IngredientesAceptados(ings: seq<IngredienteEntrada>, productos: set<int>): (k: nat)
    ensures k <= |ings|
    ensures forall i :: 0 <= i < k ==> RechazoIngrediente(ings[i], productos).None?
    ensures k < |ings| ==> RechazoIngrediente(ings[k], productos).Some?
  {
    if ings == [] || RechazoIngrediente(ings[0], productos).Some? then 0
    else 1 + IngredientesAceptados(ings[1..], productos)
  }

  /** Every entry PostgreSQL accepts carries a proportion. */
  lemma PrefijoConProporcion(ings: seq<IngredienteEntrada>, productos: set<int>, n: nat)
    requires n <= IngredientesAceptados(ings, productos)
    ensures forall i :: 0 <= i < |ings[..n]| ==> ings[..n][i].proporcion.Some?
  {
  }

  /**
   * `crearFormula`: the formula row, then one ingredient row per element of
   * `ingredientes`, in order, each in its own statement. A missing array
   * inserts no ingredient. An unknown finished product fails the first
   * INSERT and nothing is written; an entry PostgreSQL refuses (no
   * proportion, one too large, an unknown agricultural product) fails its
   * own row, after the formula and the rows before it are stored. The new
   * formula's rows are exactly the new ones.
   */
  method CrearFormula(st: Store, nombre: string, descripcion: Option<string>, productoTerminadoId: Option<int>,
                      mermaTolerablePct: Option<int>, ingredientes: seq<IngredienteEntrada>)
    returns (r: Result<int>)
    requires st.ValidProduccion()
    modifies st`formulas, st`nextFormula, st`ingredientes, st`nextIngrediente
    ensures st.ValidProduccion()
    ensures productoTerminadoId.Some? && productoTerminadoId.value !in st.stockTerminado ==>
              r == Err(ErrFkFormulaProducto)
              && st.formulas == old(st.formulas) && st.ingredientes == old(st.ingredientes)
    ensures productoTerminadoId.None? || productoTerminadoId.value in st.stockTerminado ==>
              old(st.nextFormula) !in old(st.formulas)
              && st.formulas == old(st.formulas)[old(st.nextFormula) := Formula(nombre, descripcion, productoTerminadoId,
                                                                                mermaTolerablePct)]
    ensures productoTerminadoId.None? || productoTerminadoId.value in st.stockTerminado ==>
              var n := IngredientesAceptados(ingredientes, st.productosAgricolas);
              st.ingredientes == AgregarIngredientes(old(st.ingredientes), old(st.nextIngrediente), old(st.nextFormula),
                                                     ingredientes[..n])
              && st.nextIngrediente == old(st.nextIngrediente) + n
              && r == (if n == |ingredientes| then Ok(old(st.nextFormula))
                       else Err(RechazoIngrediente(ingredientes[n], st.productosAgricolas).value))
    ensures productoTerminadoId.None? || productoTerminadoId.value in st.stockTerminado ==>
              forall k :: k in st.ingredientes && st.ingredientes[k].formulaId == old(st.nextFormula) <==>
                          old(st.nextIngrediente) <= k < st.nextIngrediente
  {
    if productoTerminadoId.Some? && productoTerminadoId.value !in st.stockTerminado {
      return Err(ErrFkFormulaProducto);
    }
    var id := st.InsertarFormula(Formula(nombre, descripcion, productoTerminadoId, mermaTolerablePct));
    ghost var m0 := st.ingredientes;
    var escritos := InsertarIngredientes(st, id, ingredientes);
    PrefijoConProporcion(ingredientes, st.productosAgricolas, escritos);
    FilasDeLaFormula(m0, old(st.nextIngrediente), id, ingredientes[..escritos], old(st.formulas));
    r := if escritos == |ingredientes| then Ok(id)
         else Err(RechazoIngrediente(ingredientes[escritos], st.productosAgricolas).value);
  }

  /**
   * The ingredient loop of `crearFormula`: it stops at the first entry whose
   * row PostgreSQL refuses, and returns how many rows it wrote.
   */
  method InsertarIngredientes(st: Store, formulaId: int, ingredientes: seq<IngredienteEntrada>) returns (escritos: nat)
    requires st.ValidProduccion() && formulaId in st.formulas
    modifies st`ingredientes, st`nextIngrediente
    ensures st.ValidProduccion()
    ensures escritos == IngredientesAceptados(ingredientes, st.productosAgricolas)
    ensures st.ingredientes == AgregarIngredientes(old(st.ingredientes), old(st.nextIngrediente), formulaId,
                                                   ingredientes[..escritos])
    ensures st.nextIngrediente == old(st.nextIngrediente) + escritos
  {
    ghost var m0 := st.ingredientes;
    ghost var n0 := st.nextIngrediente;
    var productos := st.productosAgricolas;
    escritos := 0;
    while escritos < |ingredientes| && RechazoIngrediente(ingredientes[escritos], productos).None?
      invariant escritos <= IngredientesAceptados(ingredientes, productos)
      invariant st.ingredientes == AgregarIngredientes(m0, n0, formulaId, ingredientes[..escritos])
      invariant st.nextIngrediente == n0 + escritos
      invariant st.ValidProduccion()
    {
      assert escritos < IngredientesAceptados(ingredientes, productos);
      AgregarUnaMas(m0, n0, formulaId, ingredientes, productos, escritos);
      var _ := st.InsertarIngrediente(FilaIngrediente(formulaId, ingredientes[escritos]));
      escritos := escritos + 1;
    }
  }

  /** `formulas` is referenced by `ordenes_produccion.formula_id` without `ON DELETE CASCADE`. */
  const ErrFormulaEnUso := "update or delete on table \"formulas\" violates foreign key constraint \"ordenes_produccion_formula_id_fkey\" on table \"ordenes_produccion\""

  predicate FormulaEnUso(ordenes: map<int, Orden>, formulaId: int) {
    exists o :: o in ordenes && ordenes[o].formulaId == formulaId
  }

  /**
   * `eliminarFormula`: the ingredient rows go first, in their own statement, so
   * they are gone even when the formula row cannot be deleted because an order
   * uses it. Otherwise the result says whether a formula row was removed.
   */
  method EliminarFormula(st: Store, formulaId: int) returns (r: Result<bool>)
    requires st.ValidProduccion()
    modifies st`ingredientes, st`formulas
    ensures st.ValidProduccion()
    ensures st.ingredientes == SinIngredientesDe(old(st.ingredientes), formulaId)
    ensures r.Err? <==> FormulaEnUso(st.ordenes, formulaId)
    ensures r.Err? ==> r.msg == ErrFormulaEnUso && st.formulas == old(st.formulas)
    ensures r.Ok? ==> r.value == (formulaId in old(st.formulas)) && st.formulas == old(st.formulas) - {formulaId}
  {
    st.ingredientes := SinIngredientesDe(st.ingredientes, formulaId);
    if exists o :: o in st.ordenes && st.ordenes[o].formulaId == formulaId {
      return Err(ErrFormulaEnUso);
    }
    r := Ok(formulaId in st.formulas);
    st.formulas := st.formulas - {formulaId};
  }

  /**
   * Deleting a formula removes exactly the ingredient rows its creation added:
   * the table is back to what it was before.
   */
  lemma {:induction false} EliminarDeshaceCrear(m: map<int, Ingrediente>, next: int, formulaId: int,
                                                ings: seq<IngredienteEntrada>)
    requires forall k :: k in m ==> k < next
    requires forall k :: k in m ==> m[k].formulaId != formulaId
    requires forall i :: 0 <= i < |ings| ==> ings[i].proporcion.Some?
    ensures SinIngredientesDe(AgregarIngredientes(m, next, formulaId, ings), formulaId) == m
  {
    var r := AgregarIngredientes(m, next, formulaId, ings);
    var s := SinIngredientesDe(r, formulaId);
    forall k | k in r
      ensures k in s <==> k in m
    {
      if k !in m {
        var i := k - next;
        var ing := ings[i];
        assert r[next + i] == Ingrediente(formulaId, ing.productoAgricolaId, ing.proporcion.value);
      }
    }
    assert s.Keys == m.Keys;
  }

  // ---------------------------------------------------------------------------
  // Production orders
  // ---------------------------------------------------------------------------

  const ErrFormulaNoEncontrada := "Fórmula no encontrada"
  const ErrFkOrdenSucursal :=
    "insert or update on table \"ordenes_produccion\" violates foreign key constraint \"ordenes_produccion_sucursal_id_fkey\""

  /**
   * `crearOrdenProduccion`. The order number is `OP-` and the clock in
   * milliseconds; the target product is the formula's finished product. The
   * formula is looked up first; an unknown branch then fails the INSERT.
   */
  method CrearOrdenProduccion(st: Store, sucursalId: Option<int>, formulaId: int, cantidadObjetivo: Option<int>,
                              ahoraMs: nat)
    returns (r: Result<int>)
    requires st.ValidProduccion()
    modifies st`ordenes, st`nextOrden
    ensures st.ValidProduccion()
    ensures r.Err? <==> formulaId !in st.formulas || (sucursalId.Some? && sucursalId.value !in st.sucursales)
    ensures r.Err? ==> r.msg == (if formulaId !in st.formulas then ErrFormulaNoEncontrada else ErrFkOrdenSucursal)
                       && st.ordenes == old(st.ordenes)
    ensures r.Ok? ==> (r.value == old(st.nextOrden) && r.value !in old(st.ordenes)
      && st.ordenes == old(st.ordenes)[r.value := Orden("OP-" + NatToString(ahoraMs), sucursalId, formulaId,
                                         st.formulas[formulaId].productoTerminadoId, cantidadObjetivo, OrdenAbierta)])
    ensures r.Ok? ==> RechazoCierre(st.ordenes, r.value).None?
  {
    if formulaId !in st.formulas {
      return Err(ErrFormulaNoEncontrada);
    }
    if sucursalId.Some? && sucursalId.value !in st.sucursales {
      return Err(ErrFkOrdenSucursal);
    }
    var id := st.nextOrden;
    st.ordenes := st.ordenes[id := Orden("OP-" + NatToString(ahoraMs), sucursalId, formulaId,
                                         st.formulas[formulaId].productoTerminadoId, cantidadObjetivo, OrdenAbierta)];
    st.nextOrden := st.nextOrden + 1;
    r := Ok(id);
  }

  // ---------------------------------------------------------------------------
  // Closing an order
  // ---------------------------------------------------------------------------

  const ErrOrdenNoEncontrada := "Orden de producción no encontrada"
  const ErrOrdenFinalizada := "Esta orden ya ha sido finalizada"
  /** `orden_produccion_insumos.lote_id` references `lotes`. */
  const ErrLoteInsumo := "insert or update on table \"orden_produccion_insumos\" violates foreign key constraint \"orden_produccion_insumos_lote_id_fkey\""

  /** The checks made before any write: the order exists and is not closed yet. */
  function RechazoCierre(ordenes: map<int, Orden>, ordenId: int): (e: Option<string>)
    ensures e.None? <==> ordenId in ordenes && ordenes[ordenId].estado != OrdenFinalizada
    ensures e == Some(ErrOrdenNoEncontrada) <==> ordenId !in ordenes
  {
    if ordenId !in ordenes then Some(ErrOrdenNoEncontrada)
    else if ordenes[ordenId].estado == OrdenFinalizada then Some(ErrOrdenFinalizada)
    else None
  }

  /** One element of `lotes_insumos` and one of `subproductos`. */
  datatype LoteInsumo = LoteInsumo(loteId: int, kg: int)
  datatype SubproductoEntrada = SubproductoEntrada(nombre: string, kg: int)

  /** The by-product rows of yield `rendimientoId`, one per element, in order. */
  function FilasSubproducto(rendimientoId: int, sps: seq<SubproductoEntrada>): (rows: seq<Subproducto>)
    ensures |rows| == |sps|
    ensures forall i :: 0 <= i < |sps| ==> rows[i] == Subproducto(rendimientoId, sps[i].nombre, sps[i].kg)
  {
    seq(|sps|, i requires 0 <= i < |sps| => Subproducto(rendimientoId, sps[i].nombre, sps[i].kg))
  }

  function SumaSubproductos(sps: seq<SubproductoEntrada>): int
    decreases |sps|
  {
    if sps == [] then 0 else SumaSubproductos(sps[..|sps| - 1]) + sps[|sps| - 1].kg
  }

  /**
   * Step 3 of the closing: one row per by-product, and the running total
   * `totalSubproductosKg`, which the service then never uses.
   */
  method RegistrarSubproductos(st: Store, rendimientoId: int, sps: seq<SubproductoEntrada>) returns (total: int)
    modifies st`subproductos
    ensures st.subproductos == old(st.subproductos) + FilasSubproducto(rendimientoId, sps)
    ensures total == SumaSubproductos(sps)
  {
    total := 0;
    for j := 0 to |sps|
      invariant st.subproductos == old(st.subproductos) + FilasSubproducto(rendimientoId, sps[..j])
      invariant total == SumaSubproductos(sps[..j])
    {
      assert sps[..j + 1][..j] == sps[..j];
      st.subproductos := st.subproductos + [Subproducto(rendimientoId, sps[j].nombre, sps[j].kg)];
      total := total + sps[j].kg;
    }
    assert sps[..|sps|] == sps;
  }

  /** The tables step 4 of the closing writes; `falla` once an insert hit an unknown lot. */
  datatype Consumo = Consumo(trazas: seq<Insumo>, lotes: map<int, Lote>, silos: map<int, Silo>,
                             movs: seq<Movimiento>, next: int, falla: bool)

  /** The lot row after consuming kg: `consumido` exactly when nothing is left. */
  function Consumido(l: Lote, kg: int): (r: Lote)
    ensures r.actual == l.actual - kg
    ensures r.estado == LoteConsumido <==> l.actual - kg <= 0 || l.estado == LoteConsumido
    ensures r.codigo == l.codigo && r.recepcionId == l.recepcionId && r.inicial == l.inicial
  {
    l.(actual := l.actual - kg, estado := if l.actual - kg <= 0 then LoteConsumido else l.estado)
  }

  /** The silo a lot is in loses kg; nothing changes when the lot has no known silo. */
  function DescontarSilo(silos: map<int, Silo>, silo: Option<int>, kg: int): (r: map<int, Silo>)
    ensures r.Keys == silos.Keys
    ensures silo.Some? && silo.value in silos ==>
      r == silos[silo.value := silos[silo.value].(nivel := silos[silo.value].nivel - kg)]
      && TotalEnSilos(r) == TotalEnSilos(silos) - kg
    ensures !(silo.Some? && silo.value in silos) ==> r == silos
  {
    if silo.Some? && silo.value in silos then
      TotalEnSilosAjuste(silos, silo.value, -kg);
      silos[silo.value := silos[silo.value].(nivel := silos[silo.value].nivel - kg)]
    else silos
  }

  /**
   * One input lot of the closing: the trace row (rejected when the lot does not
   * exist), the lot's balance and state, its current silo's level, and a
   * `CONSUMO_PRODUCCION` movement that names no silo.
   */
  function ConsumirInsumo(e: Consumo, ordenId: int, ins: LoteInsumo, now: int): (r: Consumo)
    requires !e.falla
    ensures r.falla <==> ins.loteId !in e.lotes
    ensures r.falla ==> r == e.(falla := true)
    ensures r.lotes.Keys == e.lotes.Keys && r.silos.Keys == e.silos.Keys
    ensures !r.falla ==>
      && r.trazas == e.trazas + [Insumo(ordenId, ins.loteId, ins.kg)]
      && r.lotes == e.lotes[ins.loteId := Consumido(e.lotes[ins.loteId], ins.kg)]
      && r.silos == DescontarSilo(e.silos, SiloActual(e.movs, ins.loteId), ins.kg)
      && r.movs == e.movs + [Movimiento(e.next, ConsumoProduccion, None, None, ins.loteId, ins.kg, now)]
      && r.next == e.next + 1
  {
    if ins.loteId !in e.lotes then e.(falla := true)
    else
      Consumo(e.trazas + [Insumo(ordenId, ins.loteId, ins.kg)],
              e.lotes[ins.loteId := Consumido(e.lotes[ins.loteId], ins.kg)],
              DescontarSilo(e.silos, SiloActual(e.movs, ins.loteId), ins.kg),
              e.movs + [Movimiento(e.next, ConsumoProduccion, None, None, ins.loteId, ins.kg, now)],
              e.next + 1, false)
  }

  /** The input lots consumed in order, stopping at the first unknown lot. */
  function ConsumirInsumos(e: Consumo, ordenId: int, insumos: seq<LoteInsumo>, now: int): (r: Consumo)
    requires !e.falla
    ensures r.lotes.Keys == e.lotes.Keys && r.silos.Keys == e.silos.Keys
    decreases |insumos|
  {
    if insumos == [] then e
    else
      var prev := ConsumirInsumos(e, ordenId, insumos[..|insumos| - 1], now);
      if prev.falla then prev else ConsumirInsumo(prev, ordenId, insumos[|insumos| - 1], now)
  }

  function SumaInsumos(insumos: seq<LoteInsumo>): int
    decreases |insumos|
  {
    if insumos == [] then 0 else SumaInsumos(insumos[..|insumos| - 1]) + insumos[|insumos| - 1].kg
  }

  /** Every input names an existing lot. */
  predicate LotesConocidos(lotes: map<int, Lote>, insumos: seq<LoteInsumo>) {
    forall i :: 0 <= i < |insumos| ==> insumos[i].loteId in lotes
  }

  /** The closing stops exactly when some input names a lot that does not exist. */
  lemma {:induction false} ConsumoFalla(e: Consumo, ordenId: int, insumos: seq<LoteInsumo>, now: int)
    requires !e.falla
    ensures ConsumirInsumos(e, ordenId, insumos, now).falla <==> !LotesConocidos(e.lotes, insumos)
    decreases |insumos|
  {
    if insumos != [] {
      var n := |insumos| - 1;
      ConsumoFalla(e, ordenId, insumos[..n], now);
      assert LotesConocidos(e.lotes, insumos) <==>
             LotesConocidos(e.lotes, insumos[..n]) && insumos[n].loteId in e.lotes by {
        if LotesConocidos(e.lotes, insumos[..n]) && insumos[n].loteId in e.lotes {
          forall i | 0 <= i < |insumos| ensures insumos[i].loteId in e.lotes {
            if i < n { assert insumos[..n][i] == insumos[i]; }
          }
        }
      }
    }
  }

  /** When every input lot exists, the lots' total drops by exactly the kg consumed. */
  lemma {:induction false} ConsumoTotalLotes(e: Consumo, ordenId: int, insumos: seq<LoteInsumo>, now: int)
    requires !e.falla
    requires !ConsumirInsumos(e, ordenId, insumos, now).falla
    ensures TotalEnLotes(ConsumirInsumos(e, ordenId, insumos, now).lotes) == TotalEnLotes(e.lotes) - SumaInsumos(insumos)
    decreases |insumos|
  {
    if insumos != [] {
      var n := |insumos| - 1;
      var prev := ConsumirInsumos(e, ordenId, insumos[..n], now);
      ConsumoTotalLotes(e, ordenId, insumos[..n], now);
      var ins := insumos[n];
      TotalEnLotesCambio(prev.lotes, ins.loteId, Consumido(prev.lotes[ins.loteId], ins.kg));
    }
  }

  /** Replacing a lot row changes the total by the change in its balance. */
  lemma TotalEnLotesCambio(lotes: map<int, Lote>, k: int, l: Lote)
    requires k in lotes
    ensures TotalEnLotes(lotes[k := l]) == TotalEnLotes(lotes) - lotes[k].actual + l.actual
  {
    assert Saldos(lotes[k := l]) == Saldos(lotes)[k := l.actual];
    Sums.SumMapUpdate(Saldos(lotes), k, l.actual);
  }

  /**
   * The `CONSUMO_PRODUCCION` row becomes the lot's latest movement and names no
   * silo, so a second consumption of the same lot, in the same call or later,
   * lowers no silo.
   */
  lemma ConsumoRepetidoNoTocaSilos(e: Consumo, ordenId: int, loteId: int, kg1: int, kg2: int, now: int)
    requires !e.falla && loteId in e.lotes
    requires RelojAlDia(e.movs, now) && IdsBajo(e.movs, e.next)
    ensures var r1 := ConsumirInsumo(e, ordenId, LoteInsumo(loteId, kg1), now);
      SiloActual(r1.movs, loteId) == None
      && ConsumirInsumo(r1, ordenId, LoteInsumo(loteId, kg2), now).silos == r1.silos
  {
    var r1 := ConsumirInsumo(e, ordenId, LoteInsumo(loteId, kg1), now);
    UltimoTrasAgregar(e.movs, Movimiento(e.next, ConsumoProduccion, None, None, loteId, kg1, now));
  }

  /** Step 4 of the closing: the loop over `lotes_insumos`. */
  method ConsumirLotes(st: Store, ordenId: int, insumos: seq<LoteInsumo>, now: int) returns (ok: bool)
    requires st.ValidInventario()
    modifies st`insumos, st`lotes, st`silos, st`movimientos, st`nextMovimiento
    ensures st.ValidInventario()
    ensures var c := ConsumirInsumos(Consumo(old(st.insumos), old(st.lotes), old(st.silos), old(st.movimientos),
                                             old(st.nextMovimiento), false), ordenId, insumos, now);
      && ok == !c.falla
      && st.insumos == c.trazas && st.lotes == c.lotes && st.silos == c.silos
      && st.movimientos == c.movs && st.nextMovimiento == c.next
  {
    ghost var e0 := Consumo(st.insumos, st.lotes, st.silos, st.movimientos, st.nextMovimiento, false);
    for j := 0 to |insumos|
      invariant st.ValidInventario()
      invariant Consumo(st.insumos, st.lotes, st.silos, st.movimientos, st.nextMovimiento, false)
                == ConsumirInsumos(e0, ordenId, insumos[..j], now)
    {
      assert insumos[..j + 1][..j] == insumos[..j];
      var ins := insumos[j];
      if ins.loteId !in st.lotes {
        ok := false;
        assert insumos[..j + 1] == insumos[..j] + [ins];
        ConsumoTrasFalla(e0, ordenId, insumos, j + 1, now);
        return;
      }
      ConsumirUno(st, ordenId, ins, now);
    }
    assert insumos[..|insumos|] == insumos;
    ok := true;
  }

  /** The four writes for one input lot that exists. */
  method ConsumirUno(st: Store, ordenId: int, ins: LoteInsumo, now: int)
    requires st.ValidInventario() && ins.loteId in st.lotes
    modifies st`insumos, st`lotes, st`silos, st`movimientos, st`nextMovimiento
    ensures st.ValidInventario()
    ensures Consumo(st.insumos, st.lotes, st.silos, st.movimientos, st.nextMovimiento, false)
      == ConsumirInsumo(Consumo(old(st.insumos), old(st.lotes), old(st.silos), old(st.movimientos),
                                old(st.nextMovimiento), false), ordenId, ins, now)
  {
    st.insumos := st.insumos + [Insumo(ordenId, ins.loteId, ins.kg)];
    st.ActualizarLote(ins.loteId, Consumido(st.lotes[ins.loteId], ins.kg));
    st.silos := DescontarSilo(st.silos, SiloActual(st.movimientos, ins.loteId), ins.kg);
    var m := st.InsertarMovimiento(ConsumoProduccion, None, None, ins.loteId, ins.kg, now);
  }

  /** Once an input fails, the later ones change nothing. */
  lemma {:induction false} ConsumoTrasFalla(e: Consumo, ordenId: int, insumos: seq<LoteInsumo>, j: nat, now: int)
    requires !e.falla && j <= |insumos|
    requires ConsumirInsumos(e, ordenId, insumos[..j], now).falla
    ensures ConsumirInsumos(e, ordenId, insumos, now) == ConsumirInsumos(e, ordenId, insumos[..j], now)
    decreases |insumos| - j
  {
    if j < |insumos| {
      assert insumos[..j + 1][..j] == insumos[..j];
      ConsumoTrasFalla(e, ordenId, insumos, j + 1, now);
    } else {
      assert insumos[..j] == insumos;
    }
  }

  /** Step 5: the order's target product, when it exists, gains the flour produced. */
  function AcreditarStock(stock: map<int, int>, producto: Option<int>, kg: int): (r: map<int, int>)
    ensures r.Keys == stock.Keys
    ensures producto.Some? && producto.value in stock ==> r[producto.value] == stock[producto.value] + kg
    ensures forall p :: p in stock && Some(p) != producto ==> r[p] == stock[p]
    ensures producto.Some? && producto.value in stock ==> Sums.SumMap(r) == Sums.SumMap(stock) + kg
  {
    if producto.Some? && producto.value in stock then
      Sums.SumMapUpdate(stock, producto.value, stock[producto.value] + kg);
      stock[producto.value := stock[producto.value] + kg]
    else stock
  }

  /**
   * `registrarRendimiento`. After the order checks, the yield row is inserted
   * with only wheat and flour (its by-product columns stay 0), the by-products
   * are inserted, and the input lots are consumed; an unknown lot stops the call
   * with the earlier writes in place and the order still open. Otherwise the
   * target product's stock gains the flour and the order is `finalizada`.
   */
  method RegistrarRendimiento(st: Store, ordenId: int, trigo: int, harina: int,
                              insumos: seq<LoteInsumo>, subproductos: seq<SubproductoEntrada>, now: int)
    returns (r: Result<int>)
    requires st.ValidProduccion() && st.ValidInventario()
    modifies st`rendimientos, st`nextRendimiento, st`subproductos, st`insumos, st`lotes, st`silos,
             st`movimientos, st`nextMovimiento, st`stockTerminado, st`ordenes
    ensures st.ValidProduccion() && st.ValidInventario()
    ensures var e := RechazoCierre(old(st.ordenes), ordenId);
      e.Some? ==> (r == Err(e.value)
        && st.rendimientos == old(st.rendimientos) && st.subproductos == old(st.subproductos)
        && st.insumos == old(st.insumos) && st.lotes == old(st.lotes) && st.silos == old(st.silos)
        && st.movimientos == old(st.movimientos) && st.stockTerminado == old(st.stockTerminado)
        && st.ordenes == old(st.ordenes))
    ensures RechazoCierre(old(st.ordenes), ordenId).None? ==>
      var rid := old(st.nextRendimiento);
      var c := ConsumirInsumos(Consumo(old(st.insumos), old(st.lotes), old(st.silos), old(st.movimientos),
                                       old(st.nextMovimiento), false), ordenId, insumos, now);
      && rid !in old(st.rendimientos)
      && st.rendimientos == old(st.rendimientos)[rid := Rendimiento(ordenId, trigo, harina, 0, 0, 0)]
      && st.subproductos == old(st.subproductos) + FilasSubproducto(rid, subproductos)
      && st.insumos == c.trazas && st.lotes == c.lotes && st.silos == c.silos && st.movimientos == c.movs
      && (r.Ok? <==> !c.falla)
      && (r.Err? ==> r.msg == ErrLoteInsumo
                     && st.stockTerminado == old(st.stockTerminado) && st.ordenes == old(st.ordenes))
      && (r.Ok? ==> (r.value == rid
          && st.stockTerminado == AcreditarStock(old(st.stockTerminado), old(st.ordenes)[ordenId].productoObjetivoId, harina)
          && st.ordenes == old(st.ordenes)[ordenId := old(st.ordenes)[ordenId].(estado := OrdenFinalizada)]))
    ensures r.Ok? ==> Merma(st.rendimientos[r.value]) == trigo - harina
    ensures r.Ok? ==> RechazoCierre(st.ordenes, ordenId) == Some(ErrOrdenFinalizada)
  {
    var rechazo := RechazoCierre(st.ordenes, ordenId);
    if rechazo.Some? {
      return Err(rechazo.value);
    }
    var rid := RegistrarFilaRendimiento(st, ordenId, trigo, harina, subproductos);
    var ok := ConsumirYCerrar(st, ordenId, harina, insumos, now);
    r := if ok then Ok(rid) else Err(ErrLoteInsumo);
  }

  /**
   * Steps 4 to 6 for an open order: the input lots are consumed, and only if
   * they all exist is the flour credited and the order closed.
   */
  method ConsumirYCerrar(st: Store, ordenId: int, harina: int, insumos: seq<LoteInsumo>, now: int)
    returns (ok: bool)
    requires st.ValidProduccion() && st.ValidInventario() && ordenId in st.ordenes
    modifies st`insumos, st`lotes, st`silos, st`movimientos, st`nextMovimiento, st`stockTerminado, st`ordenes
    ensures st.ValidProduccion() && st.ValidInventario()
    ensures var c := ConsumirInsumos(Consumo(old(st.insumos), old(st.lotes), old(st.silos), old(st.movimientos),
                                             old(st.nextMovimiento), false), ordenId, insumos, now);
      && ok == !c.falla
      && st.insumos == c.trazas && st.lotes == c.lotes && st.silos == c.silos && st.movimientos == c.movs
    ensures !ok ==> st.stockTerminado == old(st.stockTerminado) && st.ordenes == old(st.ordenes)
    ensures ok ==>
      && st.stockTerminado == AcreditarStock(old(st.stockTerminado), old(st.ordenes)[ordenId].productoObjetivoId, harina)
      && st.ordenes == old(st.ordenes)[ordenId := old(st.ordenes)[ordenId].(estado := OrdenFinalizada)]
  {
    ok := ConsumirLotes(st, ordenId, insumos, now);
    if ok {
      CerrarOrden(st, ordenId, harina);
    }
  }

  /** Steps 2 and 3: the yield row and its by-product rows. */
  method RegistrarFilaRendimiento(st: Store, ordenId: int, trigo: int, harina: int,
                                  subproductos: seq<SubproductoEntrada>)
    returns (rid: int)
    requires st.ValidProduccion() && ordenId in st.ordenes
    modifies st`rendimientos, st`nextRendimiento, st`subproductos
    ensures st.ValidProduccion()
    ensures rid == old(st.nextRendimiento) && rid !in old(st.rendimientos)
    ensures st.rendimientos == old(st.rendimientos)[rid := Rendimiento(ordenId, trigo, harina, 0, 0, 0)]
    ensures st.subproductos == old(st.subproductos) + FilasSubproducto(rid, subproductos)
  {
    rid := st.InsertarRendimiento(Rendimiento(ordenId, trigo, harina, 0, 0, 0));
    var totalSubproductos := RegistrarSubproductos(st, rid, subproductos);
  }

  /** Steps 5 and 6: the flour credited to the target product, and the order closed. */
  method CerrarOrden(st: Store, ordenId: int, harina: int)
    requires st.ValidProduccion() && ordenId in st.ordenes
    modifies st`stockTerminado, st`ordenes
    ensures st.ValidProduccion()
    ensures st.stockTerminado == AcreditarStock(old(st.stockTerminado), old(st.ordenes)[ordenId].productoObjetivoId, harina)
    ensures st.ordenes == old(st.ordenes)[ordenId := old(st.ordenes)[ordenId].(estado := OrdenFinalizada)]
  {
    var op := st.ordenes[ordenId];
    st.stockTerminado := AcreditarStock(st.stockTerminado, op.productoObjetivoId, harina);
    st.ActualizarOrden(ordenId, op.(estado := OrdenFinalizada));
  }
}

=== FILE: recepciones.dfy ===
/**
 * The weighbridge side of an intake (`recepcionesService`): opening an intake,
 * recording its gross (BRUTO) and tare (TARA) legs, emitting its
 * `R-YYYYMMDD-{id}` ticket once both legs are positive, and the codes of the
 * drivers, trucks and trailers scanned at the gate.
 */
module RecepcionesService {
  import opened Common
  import opened Codes
  import opened Database

  const TipoBruto: string := "BRUTO"
  const TipoTara: string := "TARA"
  const ErrTipoPesaje: string := "Tipo de pesaje inválido"
  const ErrPeso: string := "Peso inválido"
  /** What PostgreSQL answers when a `pesajes` row names no intake. */
  const ErrFkPesajes: string :=
    "insert or update on table \"pesajes\" violates foreign key constraint \"pesajes_recepcion_id_fkey\""

  // ---------------------------------------------------------------------------
  // Weights as read from a request
  // ---------------------------------------------------------------------------

  /** `Number(pesoKg)`: a reading in kilograms, or NaN / an infinity. */
  datatype Lectura = Lectura(kg: real) | NoFinita

  /** `Math.round`: the nearest whole number, halves rounded up. */
  function MathRound(x: real): (n: int)
    ensures n as real - 0.5 <= x < n as real + 0.5
    ensures x >= 0.0 ==> n >= 0
  {
    (x + 0.5).Floor
  }

  // ---------------------------------------------------------------------------
  // Opening an intake
  // ---------------------------------------------------------------------------

  /** The request of `crearRecepcion`; an absent id is 0, an absent kind "". */
  datatype DatosRecepcion = DatosRecepcion(tipoRecepcion: string, sucursalId: int, proveedorId: int,
                                           clienteId: int, productoId: int)

  const EstadoEnProceso: string := "en_proceso"

  /** `Number(x) || 0` on a weight column: NULL counts as 0. */
  function PesoONulo(x: Option<int>): int {
    x.GetOr(0)
  }

  /** The intake already carries a code (`if (rec.ticket_codigo) return`): an empty code does not count. */
  predicate TieneCodigo(r: Recepcion) {
    r.ticketCodigo.Some? && r.ticketCodigo.value != ""
  }

  /** Both legs are positive and no code is set: the ticket is due. */
  predicate ListaParaTicket(r: Recepcion) {
    !TieneCodigo(r) && PesoONulo(r.bruto) > 0 && PesoONulo(r.tara) > 0
  }

  /**
   * The row `crearRecepcion` inserts: ids through `|| null`, the kind
   * `|| 'compra'`, state `en_proceso`, every weight at its column default 0 and
   * no ticket, so no ticket is due until both legs are weighed.
   */
  function NuevaRecepcion(d: DatosRecepcion): (r: Recepcion)
    ensures r.tipo == (if d.tipoRecepcion == "" then "compra" else d.tipoRecepcion)
    ensures r.estado == EstadoEnProceso && r.ticketCodigo.None? && r.ticketToken.None?
    ensures r.clienteId == IdOrNull(d.clienteId) && r.proveedorId == IdOrNull(d.proveedorId)
    ensures NetoFisico(r) == Some(0) && r.netoPagar == Some(0)
    ensures !ListaParaTicket(r)
  {
    Recepcion(if d.tipoRecepcion == "" then "compra" else d.tipoRecepcion,
              IdOrNull(d.sucursalId), IdOrNull(d.proveedorId), IdOrNull(d.clienteId), IdOrNull(d.productoId),
              Some(0), Some(0), Some(0), Some(0), Some(0), None, None, EstadoEnProceso, None)
  }

  /** PostgreSQL's message for a broken foreign key of `recepciones`. */
  function ErrFkRecepcion(columna: string): string {
    "insert or update on table \"recepciones\" violates foreign key constraint \"recepciones_" + columna + "_fkey\""
  }

  /**
   * The first foreign key of the new row, in column order, whose id (0 is
   * NULL) names no row: branch, supplier, then agricultural product.
   * `cliente_id` of an intake has no foreign key.
   */
  function ColumnaSinFila(st: Store, d: DatosRecepcion): (c: Option<string>)
    reads st`sucursales, st`proveedores, st`productosAgricolas
    ensures c.None? <==> (d.sucursalId == 0 || d.sucursalId in st.sucursales)
                         && (d.proveedorId == 0 || d.proveedorId in st.proveedores)
                         && (d.productoId == 0 || d.productoId in st.productosAgricolas)
    ensures c.Some? ==> c.value in {"sucursal_id", "proveedor_id", "producto_agricola_id"}
    ensures d.sucursalId != 0 && d.sucursalId !in st.sucursales ==> c == Some("sucursal_id")
  {
    if d.sucursalId != 0 && d.sucursalId !in st.sucursales then Some("sucursal_id")
    else if d.proveedorId != 0 && d.proveedorId !in st.proveedores then Some("proveedor_id")
    else if d.productoId != 0 && d.productoId !in st.productosAgricolas then Some("producto_agricola_id")
    else None
  }

  /**
   * `crearRecepcion`: one INSERT, which fails on the first broken foreign key
   * and otherwise stores the new intake.
   */
  method CrearRecepcion(st: Store, d: DatosRecepcion) returns (r: Result<int>)
    requires st.ValidRecepciones()
    modifies st`recepciones, st`nextRecepcion
    ensures st.ValidRecepciones()
    ensures old(st.ValidMaquila()) ==> st.ValidMaquila()
    ensures r.Err? <==> ColumnaSinFila(st, d).Some?
    ensures r.Err? ==> r.msg == ErrFkRecepcion(ColumnaSinFila(st, d).value)
                       && st.recepciones == old(st.recepciones) && st.nextRecepcion == old(st.nextRecepcion)
    ensures r.Ok? ==> r.value == old(st.nextRecepcion) && r.value !in old(st.recepciones)
                      && st.recepciones == old(st.recepciones)[r.value := NuevaRecepcion(d)]
  {
    var falla := ColumnaSinFila(st, d);
    if falla.Some? {
      return Err(ErrFkRecepcion(falla.value));
    }
    var id := st.InsertarRecepcion(NuevaRecepcion(d));
    r := Ok(id);
  }

  // ---------------------------------------------------------------------------
  // Ticket emission
  // ---------------------------------------------------------------------------

  /**
   * `emitirTicketSiCorresponde` on an existing intake: when the ticket is due,
   * the code and token are written only where no code is stored
   * (`ticket_codigo IS NULL`), and the payable weight becomes the physical net
   * unless a lab row exists. Nothing else of the row changes; a stored code and
   * token are never replaced; two positive legs always leave a code.
   */
  function Emitir(r: Recepcion, conLaboratorio: bool, codigo: string, token: string): (e: Recepcion)
    ensures !ListaParaTicket(r) ==> e == r
    ensures e == r.(ticketCodigo := e.ticketCodigo, ticketToken := e.ticketToken, netoPagar := e.netoPagar)
    ensures r.ticketCodigo.Some? ==> e.ticketCodigo == r.ticketCodigo && e.ticketToken == r.ticketToken
    ensures ListaParaTicket(r) && r.ticketCodigo.None? ==>
              e.ticketCodigo == Some(codigo) && e.ticketToken == Some(token)
    ensures ListaParaTicket(r) ==>
              e.netoPagar == (if conLaboratorio then r.netoPagar else Some(r.bruto.value - r.tara.value))
    ensures PesoONulo(r.bruto) > 0 && PesoONulo(r.tara) > 0 ==> e.ticketCodigo.Some?
  {
    if !ListaParaTicket(r) then r
    else
      var t := if r.ticketCodigo.None? then r.(ticketCodigo := Some(codigo), ticketToken := Some(token)) else r;
      if conLaboratorio then t else t.(netoPagar := NetoFisico(t))
  }

  /** A second emission changes nothing, whatever code and token it would write. */
  lemma SegundaEmisionNula(r: Recepcion, conLaboratorio: bool, c1: string, t1: string, c2: string, t2: string)
    requires c1 != ""
    ensures Emitir(Emitir(r, conLaboratorio, c1, t1), conLaboratorio, c2, t2) == Emitir(r, conLaboratorio, c1, t1)
  {
    var e := Emitir(r, conLaboratorio, c1, t1);
    if ListaParaTicket(r) && r.ticketCodigo.None? {
      assert TieneCodigo(e);
    } else if ListaParaTicket(r) && !conLaboratorio {
      // an empty stored code is kept, and the payable is already the physical net
      assert e.netoPagar == NetoFisico(e);
    }
  }

  /** The ticket of an existing intake, with the code of the day and the caller's random token part. */
  method EmitirTicketSiCorresponde(st: Store, recepcionId: int, hoy: Date, aleatorio: string)
    requires st.ValidRecepciones() && ValidDate(hoy)
    modifies st`recepciones
    ensures st.ValidRecepciones()
    ensures old(st.ValidMaquila()) ==> st.ValidMaquila()
    ensures recepcionId !in old(st.recepciones) ==> st.recepciones == old(st.recepciones)
    ensures recepcionId in old(st.recepciones) ==>
              st.recepciones == old(st.recepciones)[recepcionId := Emitir(old(st.recepciones)[recepcionId],
                                                                          recepcionId in st.laboratorio,
                                                                          BuildTicketCodigo(hoy, recepcionId),
                                                                          TokenTicket(st.empresaId, recepcionId, aleatorio))]
  {
    if recepcionId !in st.recepciones {
      return;
    }
    var r := st.recepciones[recepcionId];
    if !ListaParaTicket(r) {
      return;
    }
    var codigo := BuildTicketCodigo(hoy, recepcionId);
    TicketEsDe(hoy, recepcionId);
    var e := Emitir(r, recepcionId in st.laboratorio, codigo, TokenTicket(st.empresaId, recepcionId, aleatorio));
    st.ActualizarRecepcion(recepcionId, e);
  }

  // ---------------------------------------------------------------------------
  // Legs
  // ---------------------------------------------------------------------------

  /**
   * The `UPDATE` of one leg: BRUTO sets the gross weight only, TARA sets the
   * tare and stamps the exit time.
   */
  function ConPesada(r: Recepcion, tipo: string, kg: int, now: int): (u: Recepcion)
    ensures tipo == TipoBruto ==> u == r.(bruto := Some(kg))
    ensures tipo != TipoBruto ==> u == r.(tara := Some(kg), fechaSalida := Some(now))
  {
    if tipo == TipoBruto then r.(bruto := Some(kg)) else r.(tara := Some(kg), fechaSalida := Some(now))
  }

  /** The checks of `registrarPesaje`, kind first. */
  function RechazoPesaje(tipo: string, peso: Lectura): (e: Option<string>)
    ensures e.None? <==> (Upper(tipo) == TipoBruto || Upper(tipo) == TipoTara) && peso.Lectura? && peso.kg >= 0.0
    ensures Upper(tipo) != TipoBruto && Upper(tipo) != TipoTara ==> e == Some(ErrTipoPesaje)
    ensures e.Some? && e != Some(ErrTipoPesaje) ==> e == Some(ErrPeso)
  {
    var tipoNorm := Upper(tipo);
    if tipoNorm != TipoBruto && tipoNorm != TipoTara then Some(ErrTipoPesaje)
    else if peso.NoFinita? || peso.kg < 0.0 then Some(ErrPeso)
    else None
  }

  /** The row `registrarPesaje` returns: the weights after the leg, before any ticket. */
  datatype Pesada = Pesada(id: int, bruto: Option<int>, tara: Option<int>, netoFisico: Option<int>)

  /**
   * `registrarPesaje`: a valid leg is logged in `pesajes` and written to the
   * intake as a whole, non-negative number of kilograms within half a kilogram
   * of the reading; then the ticket is emitted if it is due. An unknown intake
   * gets neither (the refused `pesajes` insert is swallowed) and yields no row.
   */
  method RegistrarPesaje(st: Store, recepcionId: int, tipo: string, peso: Lectura, hoy: Date, aleatorio: string,
                         now: int) returns (r: Result<Option<Pesada>>)
    requires st.ValidRecepciones() && ValidDate(hoy)
    modifies st`recepciones, st`pesajes
    ensures st.ValidRecepciones()
    ensures old(st.ValidMaquila()) ==> st.ValidMaquila()
    ensures r.Err? <==> RechazoPesaje(tipo, peso).Some?
    ensures r.Err? ==> r.msg == RechazoPesaje(tipo, peso).value
    ensures (r.Err? || recepcionId !in old(st.recepciones)) ==>
              st.recepciones == old(st.recepciones) && st.pesajes == old(st.pesajes)
    ensures r.Ok? && recepcionId !in old(st.recepciones) ==> r.value.None?
    ensures r.Ok? && recepcionId in old(st.recepciones) ==>
              var kg := MathRound(peso.kg);
              var leg := ConPesada(old(st.recepciones)[recepcionId], Upper(tipo), kg, now);
              && 0 <= kg && kg as real - 0.5 <= peso.kg < kg as real + 0.5
              && st.pesajes == old(st.pesajes) + [Pesaje(recepcionId, Upper(tipo), kg, now)]
              && r.value == Some(Pesada(recepcionId, leg.bruto, leg.tara, NetoFisico(leg)))
              && st.recepciones == old(st.recepciones)[recepcionId := Emitir(leg, recepcionId in st.laboratorio,
                                                                             BuildTicketCodigo(hoy, recepcionId),
                                                                             TokenTicket(st.empresaId, recepcionId, aleatorio))]
  {
    var rechazo := RechazoPesaje(tipo, peso);
    if rechazo.Some? {
      return Err(rechazo.value);
    }
    var tipoNorm := Upper(tipo);
    var kg := MathRound(peso.kg);
    if recepcionId !in st.recepciones {
      return Ok(None);
    }
    st.pesajes := st.pesajes + [Pesaje(recepcionId, tipoNorm, kg, now)];
    var leg := ConPesada(st.recepciones[recepcionId], tipoNorm, kg, now);
    st.ActualizarRecepcion(recepcionId, leg);
    EmitirTicketSiCorresponde(st, recepcionId, hoy, aleatorio);
    r := Ok(Some(Pesada(recepcionId, leg.bruto, leg.tara, NetoFisico(leg))));
  }

  /**
   * The new intake of a purchase, weighed in and out with positive legs in the
   * usual order, ends with its ticket code and token, and without a lab row it
   * pays exactly gross minus tare.
   */
  lemma CompraPesadaEmiteTicket(d: DatosRecepcion, bruto: int, tara: int, now1: int, now2: int,
                                codigo: string, token: string)
    requires bruto > 0 && tara > 0
    ensures var r1 := Emitir(ConPesada(NuevaRecepcion(d), TipoBruto, bruto, now1), false, codigo, token);
            var r2 := Emitir(ConPesada(r1, TipoTara, tara, now2), false, codigo, token);
            && r1.ticketCodigo.None?
            && r2.ticketCodigo == Some(codigo) && r2.ticketToken == Some(token)
            && r2.netoPagar == Some(bruto - tara) && r2.fechaSalida == Some(now2)
  {
    var r0 := NuevaRecepcion(d);
    var b := ConPesada(r0, TipoBruto, bruto, now1);
    assert !ListaParaTicket(b) by {
      assert b.tara == Some(0);
    }
    var t := ConPesada(b, TipoTara, tara, now2);
    assert ListaParaTicket(t);
  }

  /** The legs `realizarPesajeCompleto` logs: gross first, each only when given, each rounded. */
  function PesajesCompletos(recepcionId: int, bruto: Option<real>, tara: Option<real>, now: int): (p: seq<Pesaje>)
    ensures |p| == (if bruto.Some? then 1 else 0) + (if tara.Some? then 1 else 0)
    ensures forall i :: 0 <= i < |p| ==> p[i].recepcionId == recepcionId && p[i].fecha == now
  {
    (if bruto.Some? then [Pesaje(recepcionId, TipoBruto, MathRound(bruto.value), now)] else [])
      + (if tara.Some? then [Pesaje(recepcionId, TipoTara, MathRound(tara.value), now)] else [])
  }

  /** Both legs of `realizarPesajeCompleto` applied to the row, a missing one skipped. */
  function ConPesadas(r: Recepcion, bruto: Option<real>, tara: Option<real>, now: int): (u: Recepcion)
    ensures u.bruto == (if bruto.Some? then Some(MathRound(bruto.value)) else r.bruto)
    ensures u.tara == (if tara.Some? then Some(MathRound(tara.value)) else r.tara)
    ensures u.fechaSalida == (if tara.Some? then Some(now) else r.fechaSalida)
    ensures u == r.(bruto := u.bruto, tara := u.tara, fechaSalida := u.fechaSalida)
  {
    var b := if bruto.Some? then ConPesada(r, TipoBruto, MathRound(bruto.value), now) else r;
    if tara.Some? then ConPesada(b, TipoTara, MathRound(tara.value), now) else b
  }

  /**
   * `realizarPesajeCompleto`: no check at all on the readings (a negative one
   * is stored rounded); a given leg for an unknown intake makes the `pesajes`
   * insert fail, before anything is written. Then the ticket is emitted if
   * due and the intake is returned.
   */
  method RealizarPesajeCompleto(st: Store, recepcionId: int, bruto: Option<real>, tara: Option<real>, hoy: Date,
                                aleatorio: string, now: int) returns (r: Result<Option<Recepcion>>)
    requires st.ValidRecepciones() && ValidDate(hoy)
    modifies st`recepciones, st`pesajes
    ensures st.ValidRecepciones()
    ensures old(st.ValidMaquila()) ==> st.ValidMaquila()
    ensures r.Err? <==> recepcionId !in old(st.recepciones) && (bruto.Some? || tara.Some?)
    ensures r.Err? ==> r.msg == ErrFkPesajes
    ensures recepcionId !in old(st.recepciones) ==>
              st.recepciones == old(st.recepciones) && st.pesajes == old(st.pesajes)
    ensures r.Ok? ==> r.value == (if recepcionId in st.recepciones then Some(st.recepciones[recepcionId]) else None)
    ensures recepcionId in old(st.recepciones) ==>
              && st.pesajes == old(st.pesajes) + PesajesCompletos(recepcionId, bruto, tara, now)
              && st.recepciones == old(st.recepciones)[recepcionId :=
                   Emitir(ConPesadas(old(st.recepciones)[recepcionId], bruto, tara, now),
                          recepcionId in st.laboratorio, BuildTicketCodigo(hoy, recepcionId),
                          TokenTicket(st.empresaId, recepcionId, aleatorio))]
    ensures recepcionId in old(st.recepciones) && bruto.Some? ==>
              st.recepciones[recepcionId].bruto == Some(MathRound(bruto.value))
  {
    if recepcionId !in st.recepciones {
      if bruto.Some? || tara.Some? {
        return Err(ErrFkPesajes);
      }
      return Ok(None);
    }
    AnotarPesadas(st, recepcionId, bruto, tara, now);
    EmitirTicketSiCorresponde(st, recepcionId, hoy, aleatorio);
    r := Ok(Some(st.recepciones[recepcionId]));
  }

  /** The inserts and updates of the given legs, in order. */
  method AnotarPesadas(st: Store, recepcionId: int, bruto: Option<real>, tara: Option<real>, now: int)
    requires st.ValidRecepciones() && recepcionId in st.recepciones
    modifies st`recepciones, st`pesajes
    ensures st.ValidRecepciones()
    ensures old(st.ValidMaquila()) ==> st.ValidMaquila()
    ensures st.pesajes == old(st.pesajes) + PesajesCompletos(recepcionId, bruto, tara, now)
    ensures st.recepciones == old(st.recepciones)[recepcionId := ConPesadas(old(st.recepciones)[recepcionId], bruto, tara, now)]
  {
    var fila := st.recepciones[recepcionId];
    if bruto.Some? {
      st.pesajes := st.pesajes + [Pesaje(recepcionId, TipoBruto, MathRound(bruto.value), now)];
      fila := ConPesada(fila, TipoBruto, MathRound(bruto.value), now);
      st.ActualizarRecepcion(recepcionId, fila);
    }
    if tara.Some? {
      st.pesajes := st.pesajes + [Pesaje(recepcionId, TipoTara, MathRound(tara.value), now)];
      fila := ConPesada(fila, TipoTara, MathRound(tara.value), now);
      st.ActualizarRecepcion(recepcionId, fila);
    }
  }

  // ---------------------------------------------------------------------------
  // Drivers, trucks and trailers
  // ---------------------------------------------------------------------------

  /** Every code in a table is the generated code of its own row. */
  predicate CodigosPropios(tabla: map<int, Option<string>>, k: EntityKind, empresaId: nat) {
    forall id :: id in tabla ==> CodigoPropio(tabla[id], k, empresaId, id)
  }

  predicate CodigoPropio(codigo: Option<string>, k: EntityKind, empresaId: nat, id: int) {
    codigo.Some? ==> id >= 0 && codigo.value == EntityCode(k, empresaId, id)
  }

  /** The rows `buscar…PorCodigo` may return (it takes the first with `LIMIT 1`). */
  function BuscarPorCodigo(tabla: map<int, Option<string>>, codigo: string): (ids: set<int>)
    ensures forall id :: id in ids <==> id in tabla && CodigoCoincide(tabla[id], codigo)
  {
    set id | id in tabla && CodigoCoincide(tabla[id], codigo)
  }

  /** A generated code is its own lookup key: no blank to drop, nothing to upper-case. */
  lemma CodigoGeneradoEsClave(k: EntityKind, empresaId: nat, id: nat)
    ensures StoredCodeKey(EntityCode(k, empresaId, id)) == EntityCode(k, empresaId, id)
    ensures NormalizarCodigo(EntityCode(k, empresaId, id)) == EntityCode(k, empresaId, id)
  {
    var c := EntityCode(k, empresaId, id);
    assert RemoveChar(c, ' ') == c by {
      assert forall i :: 0 <= i < |c| ==> c[i] != ' ' by {
        assert IsSpace(' ');
      }
    }
    assert Upper(c) == c;
    EntityCodeSeEncuentra(k, empresaId, id);
  }

  /** Two generated codes of one kind and company match only when they belong to the same row. */
  lemma CoincidenSoloIguales(k: EntityKind, empresaId: nat, a: nat, b: nat)
    requires CodigoCoincide(Some(EntityCode(k, empresaId, a)), EntityCode(k, empresaId, b))
    ensures a == b
  {
    CodigoGeneradoEsClave(k, empresaId, a);
    CodigoGeneradoEsClave(k, empresaId, b);
    EntityCodeInjective(k, empresaId, a, b);
  }

  /** Under generated codes, a row found by the code of row `id` is row `id`. */
  lemma SoloSuFila(tabla: map<int, Option<string>>, k: EntityKind, empresaId: nat, id: nat, j: int)
    requires CodigosPropios(tabla, k, empresaId)
    requires j in tabla && CodigoCoincide(tabla[j], EntityCode(k, empresaId, id))
    ensures j == id
  {
    assert CodigoPropio(tabla[j], k, empresaId, j);
    CoincidenSoloIguales(k, empresaId, j, id);
  }

  /**
   * When every code of a table was generated by the service, scanning the
   * code of a row finds that row and no other.
   */
  lemma CodigoEncuentraSuFila(tabla: map<int, Option<string>>, k: EntityKind, empresaId: nat, id: nat)
    requires CodigosPropios(tabla, k, empresaId) && id in tabla && tabla[id].Some?
    ensures BuscarPorCodigo(tabla, EntityCode(k, empresaId, id)) == {id as int}
  {
    var c := EntityCode(k, empresaId, id);
    var s := BuscarPorCodigo(tabla, c);
    EntityCodeSeEncuentra(k, empresaId, id);
    assert id in s;
    forall j | j in s
      ensures j == id
    {
      SoloSuFila(tabla, k, empresaId, id, j);
    }
  }

  /** Adding a row under its generated code keeps every code generated, and the new code finds the new row. */
  lemma AltaConCodigo(tabla: map<int, Option<string>>, k: EntityKind, empresaId: nat, id: nat)
    ensures CodigosPropios(tabla, k, empresaId) ==>
              && CodigosPropios(tabla[id := Some(EntityCode(k, empresaId, id))], k, empresaId)
              && BuscarPorCodigo(tabla[id := Some(EntityCode(k, empresaId, id))], EntityCode(k, empresaId, id)) == {id as int}
  {
    var nueva := tabla[id := Some(EntityCode(k, empresaId, id))];
    if CodigosPropios(tabla, k, empresaId) {
      assert CodigosPropios(nueva, k, empresaId) by {
        forall j | j in nueva
          ensures CodigoPropio(nueva[j], k, empresaId, j)
        {
          if j != id {
            assert CodigoPropio(tabla[j], k, empresaId, j);
          }
        }
      }
      CodigoEncuentraSuFila(nueva, k, empresaId, id);
    }
  }

  /** `crearChofer`: the new driver gets `CH-{empresaId}-{id}`, and scanning it finds that driver only. */
  method CrearChofer(st: Store) returns (id: int, codigo: string)
    requires st.ValidTransporte()
    modifies st`choferes, st`nextChofer
    ensures st.ValidTransporte()
    ensures id == old(st.nextChofer) && id !in old(st.choferes) && id >= 1
    ensures codigo == EntityCode(Chofer, st.empresaId, id)
    ensures st.choferes == old(st.choferes)[id := Some(codigo)]
    ensures old(CodigosPropios(st.choferes, Chofer, st.empresaId)) ==>
              CodigosPropios(st.choferes, Chofer, st.empresaId) && BuscarPorCodigo(st.choferes, codigo) == {id}
  {
    id := st.nextChofer;
    codigo := EntityCode(Chofer, st.empresaId, id);
    AltaConCodigo(st.choferes, Chofer, st.empresaId, id);
    st.choferes := st.choferes[id := Some(codigo)];
    st.nextChofer := st.nextChofer + 1;
  }

  /** `crearCamion`: `CA-{empresaId}-{id}`. */
  method CrearCamion(st: Store) returns (id: int, codigo: string)
    requires st.ValidTransporte()
    modifies st`camiones, st`nextCamion
    ensures st.ValidTransporte()
    ensures id == old(st.nextCamion) && id !in old(st.camiones) && id >= 1
    ensures codigo == EntityCode(Camion, st.empresaId, id)
    ensures st.camiones == old(st.camiones)[id := Some(codigo)]
    ensures old(CodigosPropios(st.camiones, Camion, st.empresaId)) ==>
              CodigosPropios(st.camiones, Camion, st.empresaId) && BuscarPorCodigo(st.camiones, codigo) == {id}
  {
    id := st.nextCamion;
    codigo := EntityCode(Camion, st.empresaId, id);
    AltaConCodigo(st.camiones, Camion, st.empresaId, id);
    st.camiones := st.camiones[id := Some(codigo)];
    st.nextCamion := st.nextCamion + 1;
  }

  /** `crearCarro`: `CR-{empresaId}-{id}`. */
  method CrearCarro(st: Store) returns (id: int, codigo: string)
    requires st.ValidTransporte()
    modifies st`carros, st`nextCarro
    ensures st.ValidTransporte()
    ensures id == old(st.nextCarro) && id !in old(st.carros) && id >= 1
    ensures codigo == EntityCode(Carro, st.empresaId, id)
    ensures st.carros == old(st.carros)[id := Some(codigo)]
    ensures old(CodigosPropios(st.carros, Carro, st.empresaId)) ==>
              CodigosPropios(st.carros, Carro, st.empresaId) && BuscarPorCodigo(st.carros, codigo) == {id}
  {
    id := st.nextCarro;
    codigo := EntityCode(Carro, st.empresaId, id);
    AltaConCodigo(st.carros, Carro, st.empresaId, id);
    st.carros := st.carros[id := Some(codigo)];
    st.nextCarro := st.nextCarro + 1;
  }
}

=== FILE: rut.dfy ===
/**
 * The Chilean RUT check digit (modulo 11) as the web client checks it: the
 * maquila client form (`validarRutMaquila`) and the user form (the effective
 * `validarRut` and the input handler that feeds it).
 */
module Rut {
  import opened Common

  // ---------------------------------------------------------------------------
  // The modulo-11 rule
  // ---------------------------------------------------------------------------

  /** The weight of the k-th body digit counted from the right: 2, 3, ..., 7, 2, ... */
  function Weight(k: nat): int {
    2 + k % 6
  }

  function FromRight(body: string, k: nat): char
    requires k < |body|
  {
    body[|body| - 1 - k]
  }

  /**
   * The weighted sum of the j rightmost characters of the body; None (NaN)
   * as soon as one of them is not a digit, as `parseInt` yields NaN there.
   */
  function PartialSum(body: string, j: nat): Option<int>
    requires j <= |body|
  {
    if j == 0 then Some(0)
    else
      var p := PartialSum(body, j - 1);
      var c := FromRight(body, j - 1);
      if p.Some? && IsDigit(c) then Some(p.value + DigitValue(c) * Weight(j - 1)) else None
  }

  lemma {:induction false} PartialSumDefined(body: string, j: nat)
    requires j <= |body|
    ensures PartialSum(body, j).Some? <==> forall k :: 0 <= k < j ==> IsDigit(FromRight(body, k))
  {
    if j > 0 {
      PartialSumDefined(body, j - 1);
    }
  }

  lemma PartialSumStep(body: string, j: nat, suma: int)
    requires j < |body| && PartialSum(body, j) == Some(suma)
    ensures PartialSum(body, j + 1) ==
      if IsDigit(body[|body| - 1 - j]) then Some(suma + DigitValue(body[|body| - 1 - j]) * Weight(j)) else None
  {
  }

  lemma WeightStep(j: nat)
    ensures Weight(j + 1) == if Weight(j) == 7 then 2 else Weight(j) + 1
  {
  }

  function WeightedSum(body: string): Option<int> {
    PartialSum(body, |body|)
  }

  /** The sum is a number exactly when the body is all digits. */
  lemma WeightedSumDefined(body: string)
    ensures WeightedSum(body).Some? <==> AllDigits(body)
  {
    PartialSumDefined(body, |body|);
    if !AllDigits(body) {
      var i :| 0 <= i < |body| && !IsDigit(body[i]);
      assert FromRight(body, |body| - 1 - i) == body[i];
    }
  }

  predicate IsDvChar(c: char) {
    IsDigit(c) || c == 'K'
  }

  /** `11 - (suma % 11)`, written as `0` for 11 and `K` for 10. */
  function ExpectedDv(suma: int): (c: char)
    ensures IsDvChar(c)
  {
    var e := 11 - suma % 11;
    if e == 11 then '0' else if e == 10 then 'K' else DigitChar(e)
  }

  function DvValue(c: char): (v: int)
    requires IsDvChar(c)
    ensures 0 <= v <= 10
  {
    if c == 'K' then 10 else DigitValue(c)
  }

  /**
   * The check digit is the one value 0..10 (K standing for 10) that makes the
   * weighted sum plus the check digit a multiple of 11.
   */
  lemma ExpectedDvIsMod11(suma: int, c: char)
    requires IsDvChar(c)
    ensures c == ExpectedDv(suma) <==> (suma + DvValue(c)) % 11 == 0
  {
    var m := suma % 11;
    var q := suma / 11;
    assert suma == 11 * q + m;
    var v := DvValue(c);
    assert (suma + v) % 11 == (m + v) % 11 by {
      assert suma + v == 11 * q + (m + v);
    }
    assert c != 'K' ==> c as int == '0' as int + v;
  }

  /** A body and check digit that pass the rule. */
  predicate RutValido(body: string, dv: char) {
    WeightedSum(body).Some? && dv == ExpectedDv(WeightedSum(body).value)
  }

  // ---------------------------------------------------------------------------
  // validarRutMaquila (maquila client form)
  // ---------------------------------------------------------------------------

  /** `rut.replace(/[.\s\-]/g, "")`. */
  function QuitarSeparadores(s: string): (r: string)
    ensures |r| <= |s|
    ensures forall i :: 0 <= i < |r| ==> r[i] != '.' && r[i] != '-' && !IsSpace(r[i])
  {
    if s == [] then []
    else if s[0] == '.' || s[0] == '-' || IsSpace(s[0]) then QuitarSeparadores(s[1..])
    else [s[0]] + QuitarSeparadores(s[1..])
  }

  lemma {:induction false} QuitarSeparadoresAppend(a: string, b: string)
    ensures QuitarSeparadores(a + b) == QuitarSeparadores(a) + QuitarSeparadores(b)
  {
    if a == [] {
      assert a + b == b;
    } else {
      assert (a + b)[1..] == a[1..] + b;
      QuitarSeparadoresAppend(a[1..], b);
    }
  }

  /** What the form accepts: body all digits and the rule satisfied. */
  predicate AceptaMaquila(rut: string) {
    var limpio := Upper(QuitarSeparadores(rut));
    |limpio| >= 2 && RutValido(limpio[..|limpio| - 1], limpio[|limpio| - 1])
  }

  /** `validarRutMaquila`: the loop walks the body from the right. */
  method ValidarRutMaquila(rut: string) returns (ok: bool)
    ensures ok == AceptaMaquila(rut)
  {
    var limpio := Upper(QuitarSeparadores(rut));
    if |limpio| < 2 {
      return false;
    }
    var cuerpo := limpio[..|limpio| - 1];
    var dv := limpio[|limpio| - 1];
    WeightedSumDefined(cuerpo);
    if !AllDigits(cuerpo) {
      return false;
    }
    var suma := SumarCuerpo(cuerpo);
    ok := dv == ExpectedDv(suma);
  }

  /** The loop of `validarRutMaquila`: weights 2..7 from the right, over an all-digit body. */
  method SumarCuerpo(cuerpo: string) returns (suma: int)
    requires AllDigits(cuerpo)
    ensures WeightedSum(cuerpo) == Some(suma)
  {
    suma := 0;
    var mul := 2;
    var i := |cuerpo| - 1;
    while i >= 0
      invariant -1 <= i < |cuerpo|
      invariant PartialSum(cuerpo, |cuerpo| - 1 - i) == Some(suma)
      invariant mul == Weight(|cuerpo| - 1 - i)
    {
      PartialSumStep(cuerpo, |cuerpo| - 1 - i, suma);
      WeightStep(|cuerpo| - 1 - i);
      suma := suma + DigitValue(cuerpo[i]) * mul;
      mul := if mul == 7 then 2 else mul + 1;
      i := i - 1;
    }
  }

  /** A lower-case `k` check digit passes, because the input is upper-cased first. */
  lemma RutConKMinuscula(body: string, rut: string)
    requires AllDigits(body) && |body| >= 1
    requires WeightedSum(body).Some? && ExpectedDv(WeightedSum(body).value) == 'K'
    requires rut == body + "-k"
    ensures AceptaMaquila(rut)
  {
    QuitarSeparadoresAppend(body, "-k");
    QuitarSeparadoresSinSeparadores(body);
    assert QuitarSeparadores("-k") == "k";
    assert QuitarSeparadores(rut) == body + "k";
    UpperAppend(body, "k");
    assert Upper(body) == body;
    var limpio := Upper(body + "k");
    assert limpio == body + "K";
    assert limpio[..|limpio| - 1] == body;
  }

  // ---------------------------------------------------------------------------
  // validarRut (user form): the later top-level declaration is the one in force
  // ---------------------------------------------------------------------------

  /** The index of the first dash, or `|s|` when there is none. */
  function PrimerGuion(s: string): (k: nat)
    ensures k <= |s|
    ensures forall j :: 0 <= j < k ==> s[j] != '-'
    ensures k < |s| ==> s[k] == '-'
  {
    if s == [] || s[0] == '-' then 0 else 1 + PrimerGuion(s[1..])
  }

  /** `s.replace("-", "")`: a string pattern replaces the first match only. */
  function QuitarPrimerGuion(s: string): (r: string)
    ensures (forall i :: 0 <= i < |s| ==> s[i] != '-') ==> r == s
    ensures |r| == |s| || |r| == |s| - 1
  {
    if s == [] then []
    else if s[0] == '-' then s[1..]
    else [s[0]] + QuitarPrimerGuion(s[1..])
  }

  /** The first dash, and only it, is removed; the rest is kept in order. */
  lemma {:induction false} QuitarEnPrimerGuion(s: string)
    requires PrimerGuion(s) < |s|
    ensures QuitarPrimerGuion(s) == s[..PrimerGuion(s)] + s[PrimerGuion(s) + 1..]
  {
    if s[0] != '-' {
      var t := s[1..];
      var k := PrimerGuion(t);
      assert PrimerGuion(s) == k + 1;
      QuitarEnPrimerGuion(t);
      calc {
        QuitarPrimerGuion(s);
        [s[0]] + QuitarPrimerGuion(t);
        [s[0]] + (t[..k] + t[k + 1..]);
        ([s[0]] + t[..k]) + t[k + 1..];
        { assert [s[0]] + t[..k] == s[..k + 1]; assert t[k + 1..] == s[k + 2..]; }
        s[..k + 1] + s[k + 2..];
      }
    }
  }

  /** Whatever dash is the first one, exactly that character is removed and the rest kept in order. */
  lemma QuitaElPrimerGuion(s: string, k: int)
    requires 0 <= k < |s| && s[k] == '-'
    requires forall j :: 0 <= j < k ==> s[j] != '-'
    ensures QuitarPrimerGuion(s) == s[..k] + s[k + 1..]
  {
    assert PrimerGuion(s) == k;
    QuitarEnPrimerGuion(s);
  }

  predicate AceptaUsuarios(valor: string) {
    var rut := QuitarPrimerGuion(RemoveChar(valor, '.'));
    |rut| >= 8 && RutValido(rut[..|rut| - 1], UpperChar(rut[|rut| - 1]))
  }

  /**
   * `validarRut`. The sum is kept as a JavaScript number would be: a non-digit
   * makes it NaN (None), and `NaN.toString()` is never a one-character digit.
   */
  method ValidarRut(valor: string) returns (ok: bool)
    ensures ok == AceptaUsuarios(valor)
  {
    var rut := QuitarPrimerGuion(RemoveChar(valor, '.'));
    if |rut| < 8 {
      return false;
    }
    var suma := SumarCuerpoJs(rut[..|rut| - 1]);
    ok := suma.Some? && UpperChar(rut[|rut| - 1]) == ExpectedDv(suma.value);
  }

  /** The loop of `validarRut`: a non-digit turns the running sum into NaN, which stays NaN. */
  method SumarCuerpoJs(cuerpo: string) returns (suma: Option<int>)
    ensures suma == WeightedSum(cuerpo)
  {
    suma := Some(0);
    var multiplo := 2;
    var i := |cuerpo| - 1;
    while i >= 0
      invariant -1 <= i < |cuerpo|
      invariant suma == PartialSum(cuerpo, |cuerpo| - 1 - i)
      invariant multiplo == Weight(|cuerpo| - 1 - i)
    {
      var c := cuerpo[i];
      WeightStep(|cuerpo| - 1 - i);
      if suma.Some? {
        PartialSumStep(cuerpo, |cuerpo| - 1 - i, suma.value);
      }
      suma := if suma.Some? && IsDigit(c) then Some(suma.value + DigitValue(c) * multiplo) else None;
      multiplo := if multiplo < 7 then multiplo + 1 else 2;
      i := i - 1;
    }
  }

  // ---------------------------------------------------------------------------
  // The input handler of the user form
  // ---------------------------------------------------------------------------

  predicate IsRutInputChar(c: char) {
    IsDigit(c) || c == 'K' || c == 'k' || c == '.' || c == '-'
  }

  /** `replace(/[^0-9Kk.\-]/g, "")`. */
  function SoloCaracteresRut(s: string): (r: string)
    ensures forall i :: 0 <= i < |r| ==> IsRutInputChar(r[i])
    ensures (forall i :: 0 <= i < |s| ==> IsRutInputChar(s[i])) ==> r == s
  {
    if s == [] then []
    else if IsRutInputChar(s[0]) then [s[0]] + SoloCaracteresRut(s[1..])
    else SoloCaracteresRut(s[1..])
  }

  /** `replace(/[.\-]/g, "")`. */
  function SinFormato(s: string): (r: string)
    ensures forall i :: 0 <= i < |r| ==> r[i] != '.' && r[i] != '-'
    ensures (forall i :: 0 <= i < |s| ==> s[i] != '.' && s[i] != '-') ==> r == s
  {
    if s == [] then []
    else if s[0] == '.' || s[0] == '-' then SinFormato(s[1..])
    else [s[0]] + SinFormato(s[1..])
  }

  /** Upper-case RUT characters without separators are digits and `K`. */
  lemma {:induction false} SinFormatoSoloDv(s: string)
    requires MayusRut(s)
    ensures SoloDv(SinFormato(s))
  {
    if s != [] {
      SinFormatoSoloDv(s[1..]);
    }
  }

  /** The value the handler validates: only RUT characters, upper case, no separators. */
  function RutCrudo(entrada: string): (r: string)
    ensures SoloDv(r)
  {
    SinFormatoSoloDv(Upper(SoloCaracteresRut(entrada)));
    SinFormato(Upper(SoloCaracteresRut(entrada)))
  }

  /** What the handler writes back into the field: `cuerpo-dv` from two characters on. */
  function Formatear(sinFormato: string): string {
    if |sinFormato| > 1 then sinFormato[..|sinFormato| - 1] + "-" + [sinFormato[|sinFormato| - 1]]
    else sinFormato
  }

  /** The `input` handler: the text shown and whether the field is marked valid. */
  method AlEscribirRut(entrada: string) returns (mostrado: string, valido: bool)
    ensures mostrado == Formatear(RutCrudo(entrada))
    ensures valido == AceptaUsuarios(RutCrudo(entrada))
  {
    var limpio := Upper(SoloCaracteresRut(entrada));
    var sinFormato := SinFormato(limpio);
    if |sinFormato| > 1 {
      mostrado := sinFormato[..|sinFormato| - 1] + "-" + [sinFormato[|sinFormato| - 1]];
    } else {
      mostrado := sinFormato;
    }
    valido := ValidarRut(sinFormato);
  }

  /** The `submit` handler: the form is blocked when the shown RUT is invalid. */
  method AlEnviarRut(mostrado: string) returns (bloquear: bool)
    ensures bloquear == !AceptaUsuarios(RutCrudo(mostrado))
  {
    var limpio := Upper(SoloCaracteresRut(mostrado));
    var sinFormato := SinFormato(limpio);
    var ok := ValidarRut(sinFormato);
    bloquear := !ok;
  }

  predicate SoloDv(s: string) {
    forall i :: 0 <= i < |s| ==> IsDvChar(s[i])
  }

  /** None of the rewriting steps changes a string of digits and `K`. */
  lemma {:induction false} SoloDvFijo(s: string)
    requires SoloDv(s)
    ensures RemoveChar(s, '.') == s && QuitarPrimerGuion(s) == s
    ensures QuitarSeparadores(s) == s && Upper(s) == s
    ensures SoloCaracteresRut(s) == s && SinFormato(s) == s
  {
    if s != [] {
      assert SoloDv(s[1..]);
      SoloDvFijo(s[1..]);
      assert !IsSpace(s[0]) && !IsLowerAscii(s[0]) && IsRutInputChar(s[0]);
    }
  }

  lemma {:induction false} SinFormatoAppend(a: string, b: string)
    ensures SinFormato(a + b) == SinFormato(a) + SinFormato(b)
  {
    if a == [] {
      assert a + b == b;
    } else {
      assert (a + b)[1..] == a[1..] + b;
      SinFormatoAppend(a[1..], b);
    }
  }

  lemma {:induction false} SoloCaracteresRutAppend(a: string, b: string)
    ensures SoloCaracteresRut(a + b) == SoloCaracteresRut(a) + SoloCaracteresRut(b)
  {
    if a == [] {
      assert a + b == b;
    } else {
      assert (a + b)[1..] == a[1..] + b;
      SoloCaracteresRutAppend(a[1..], b);
    }
  }

  /**
   * Re-reading the formatted text yields the same raw value, so the submit
   * check agrees with the mark the input handler last showed.
   */
  lemma FormatearEstable(s: string)
    requires SoloDv(s)
    ensures RutCrudo(Formatear(s)) == s
  {
    if |s| <= 1 {
      SoloDvFijo(s);
    } else {
      var body := s[..|s| - 1];
      var dv := s[|s| - 1];
      assert SoloDv(body) by {
        forall i | 0 <= i < |body| ensures IsDvChar(body[i]) { assert body[i] == s[i]; }
      }
      assert Formatear(s) == body + "-" + [dv];
      RutCrudoConGuion(body, dv);
      assert body + [dv] == s;
    }
  }

  /** The raw value of `cuerpo-dv` is `cuerpo` followed by `dv`. */
  lemma RutCrudoConGuion(body: string, dv: char)
    requires SoloDv(body) && IsDvChar(dv)
    ensures RutCrudo(body + "-" + [dv]) == body + [dv]
  {
    FormateadoSeConserva(body, dv);
    SinFormatoQuitaGuion(body, dv);
  }

  /** Accepted RUT characters already in upper case: what the first two steps keep. */
  predicate MayusRut(s: string) {
    forall i :: 0 <= i < |s| ==> IsRutInputChar(s[i]) && !IsLowerAscii(s[i])
  }

  lemma MayusRutConcat(a: string, b: string)
    requires MayusRut(a) && MayusRut(b)
    ensures MayusRut(a + b)
  {
    forall i | 0 <= i < |a + b|
      ensures IsRutInputChar((a + b)[i]) && !IsLowerAscii((a + b)[i])
    {
      if i >= |a| {
        assert (a + b)[i] == b[i - |a|];
      }
    }
  }

  /** `cuerpo-dv` is made of accepted, upper-case characters, so the first two steps keep it. */
  lemma FormateadoSeConserva(body: string, dv: char)
    requires SoloDv(body) && IsDvChar(dv)
    ensures Upper(SoloCaracteresRut(body + "-" + [dv])) == body + "-" + [dv]
  {
    var f := body + "-" + [dv];
    assert MayusRut("-") && MayusRut([dv]);
    MayusRutConcat(body, "-");
    MayusRutConcat(body + "-", [dv]);
    assert SoloCaracteresRut(f) == f;
    assert Upper(f) == f;
  }

  lemma {:induction false} SinFormatoQuitaGuion(body: string, dv: char)
    requires SoloDv(body) && IsDvChar(dv)
    ensures SinFormato(body + "-" + [dv]) == body + [dv]
  {
    var f := body + "-" + [dv];
    if body == [] {
      assert f[0] == '-' && f[1..] == [dv];
      assert SinFormato([dv]) == [dv];
    } else {
      assert f[0] == body[0] && f[1..] == body[1..] + "-" + [dv];
      assert SoloDv(body[1..]);
      SinFormatoQuitaGuion(body[1..], dv);
      assert body + [dv] == [body[0]] + (body[1..] + [dv]);
    }
  }

  /**
   * On the raw value the handler passes, the user-form check is the maquila
   * check plus a minimum length of 8 (a body of at least 7 digits).
   */
  lemma UsuariosEsMaquilaConLargo(s: string)
    requires SoloDv(s)
    ensures AceptaUsuarios(s) <==> |s| >= 8 && AceptaMaquila(s)
  {
    SoloDvFijo(s);
    assert QuitarPrimerGuion(RemoveChar(s, '.')) == s;
    assert Upper(QuitarSeparadores(s)) == s;
    if |s| >= 1 {
      assert UpperChar(s[|s| - 1]) == s[|s| - 1];
    }
  }

  lemma {:induction false} QuitarSeparadoresSinSeparadores(s: string)
    requires forall i :: 0 <= i < |s| ==> s[i] != '.' && s[i] != '-' && !IsSpace(s[i])
    ensures QuitarSeparadores(s) == s
  {
    if s != [] {
      QuitarSeparadoresSinSeparadores(s[1..]);
    }
  }
}

=== FILE: sums.dfy ===
/**
 * Sums over the rows of a table keyed by id, as SQL `SUM` and JavaScript
 * `reduce` compute them. The order of summation does not matter: the sum is
 * defined by peeling off some row, and any row can be peeled off first.
 */
module Sums {

  /** Some row of a non-empty table; the same one every time. */
  ghost function Pick(m: map<int, int>): (k: int)
    requires m != map[]
    ensures k in m
  {
    assert exists k :: k in m by {
      if forall k :: k !in m {
        assert false;
      }
    }
    var k :| k in m;
    k
  }

  /** The sum of the values of a finite map. */
  ghost function SumMap(m: map<int, int>): int
    decreases |m.Keys|
  {
    if m == map[] then 0
    else
      var k := Pick(m);
      assert |(m - {k}).Keys| < |m.Keys| by {
        assert (m - {k}).Keys == m.Keys - {k};
      }
      m[k] + SumMap(m - {k})
  }

  /** Any row can be taken out first. */
  lemma {:induction false} SumMapRemove(m: map<int, int>, k: int)
    requires k in m
    ensures SumMap(m) == m[k] + SumMap(m - {k})
    decreases |m.Keys|
  {
    var k0 := Pick(m);
    if k0 != k {
      var m0 := m - {k0};
      assert m0.Keys == m.Keys - {k0};
      SumMapRemove(m0, k);
      var mk := m - {k};
      assert mk.Keys == m.Keys - {k};
      SumMapRemove(mk, k0);
      assert mk - {k0} == m0 - {k};
    }
  }

  /** Changing one row changes the sum by the difference. */
  lemma SumMapUpdate(m: map<int, int>, k: int, v: int)
    requires k in m
    ensures SumMap(m[k := v]) == SumMap(m) - m[k] + v
  {
    SumMapRemove(m, k);
    SumMapRemove(m[k := v], k);
    assert m[k := v] - {k} == m - {k};
  }

  /** A new row adds its value. */
  lemma SumMapInsert(m: map<int, int>, k: int, v: int)
    requires k !in m
    ensures SumMap(m[k := v]) == SumMap(m) + v
  {
    SumMapRemove(m[k := v], k);
    assert m[k := v] - {k} == m;
  }

  /** Rows that do not differ give the same sum. */
  lemma {:induction false} SumMapZeros(m: map<int, int>)
    requires forall k :: k in m ==> m[k] == 0
    ensures SumMap(m) == 0
    decreases |m.Keys|
  {
    if m != map[] {
      var k := Pick(m);
      assert (m - {k}).Keys == m.Keys - {k};
      SumMapZeros(m - {k});
    }
  }
}

=== FILE: wms.dfy ===
/**
 * The writes of the silo/lot inventory: creating a lot from a graded intake,
 * transferring grain between silos (trasiego) and merging two lots into a new
 * one (mezcla). Each checks its inputs in the order of the service before any
 * write; a failed check returns the service's error text and writes nothing.
 * The request's numeric fields are `Number(...)` of the body: an id of 0 stands
 * for a missing or non-numeric one.
 */
module WmsService {
  import opened Common
  import opened Codes
  import opened Database
  import opened Inventario

  // ---------------------------------------------------------------------------
  // Lot from an intake
  // ---------------------------------------------------------------------------

  const ErrLoteRequeridos := "ID/Código de recepción y silo_destino_id son requeridos"
  const ErrRecepcionNoEncontrada := "Recepción no encontrada para la empresa o código inválido"
  const ErrSiloDestino := "Silo destino no encontrado para la empresa"
  const ErrCantidadLote := "Cantidad en kg inválida para crear el lote. La recepción no tiene peso neto registrado; indique la cantidad en kg manualmente."
  const ErrSinTicket := "La recepción aún no tiene un código de ticket (código de barras) generado."

  /** How the intake field is read: digits only (`^\d+$`) is an id, anything else a ticket code. */
  predicate Resuelve(recepciones: map<int, Recepcion>, entrada: string, id: int) {
    id in recepciones &&
    if AllDigits(entrada) then id == DigitsValue(entrada)
    else recepciones[id].ticketCodigo == Some(entrada)
  }

  /** `Number(x)` of a nullable INTEGER column: NULL reads as 0. */
  function Kg(x: Option<int>): int {
    x.GetOr(0)
  }

  /**
   * The quantity of the new lot: the requested kg when given, finite and
   * positive; else the payable net when positive; else the physical net when
   * positive; else 0 (rejected).
   */
  function CantidadBase(cantidad: Option<JsNum>, r: Recepcion): (q: int)
    ensures q >= 0
    ensures (cantidad.Some? && cantidad.value.Finite? && cantidad.value.v > 0) ==> q == cantidad.value.v
    ensures !(cantidad.Some? && cantidad.value.Finite? && cantidad.value.v > 0) && Kg(r.netoPagar) > 0
            ==> q == Kg(r.netoPagar)
    ensures q == 0 <==> !(cantidad.Some? && cantidad.value.Finite? && cantidad.value.v > 0)
                        && Kg(r.netoPagar) <= 0 && Kg(NetoFisico(r)) <= 0
  {
    if cantidad.Some? && cantidad.value.Finite? && cantidad.value.v > 0 then cantidad.value.v
    else if Kg(r.netoPagar) > 0 then Kg(r.netoPagar)
    else if Kg(NetoFisico(r)) > 0 then Kg(NetoFisico(r))
    else 0
  }

  /** `!recepcion.ticket_codigo`: no code, or an empty one. */
  predicate SinTicket(r: Recepcion) {
    r.ticketCodigo.None? || r.ticketCodigo.value == ""
  }

  /** `COALESCE(producto_actual_id, x)`. */
  function Coalesce(a: Option<int>, b: Option<int>): Option<int> {
    if a.Some? then a else b
  }

  /** The intake the field names: by id when it is all digits, else by ticket code. */
  function ResolverRecepcion(recepciones: map<int, Recepcion>, entrada: string): (r: Option<int>)
    requires TicketsPropios(recepciones)
    ensures r.Some? ==> Resuelve(recepciones, entrada, r.value)
    ensures forall id :: Resuelve(recepciones, entrada, id) ==> r == Some(id)
  {
    if AllDigits(entrada) then
      if DigitsValue(entrada) in recepciones then Some(DigitsValue(entrada)) else None
    else if exists id :: id in recepciones && recepciones[id].ticketCodigo == Some(entrada) then
      var id :| id in recepciones && recepciones[id].ticketCodigo == Some(entrada);
      Some(id)
    else None
  }

  /** The checks of `crearLoteDesdeRecepcion`, in the order it makes them. */
  datatype FallaLote = FaltanDatos | RecepcionNoEncontrada | SiloNoEncontrado | CantidadInvalida | SinCodigo

  function MensajeLote(f: FallaLote): string {
    match f
    case FaltanDatos => ErrLoteRequeridos
    case RecepcionNoEncontrada => ErrRecepcionNoEncontrada
    case SiloNoEncontrado => ErrSiloDestino
    case CantidadInvalida => ErrCantidadLote
    case SinCodigo => ErrSinTicket
  }

  /** The first check of `crearLoteDesdeRecepcion` that fails, if any. */
  function RechazoLote(recepciones: map<int, Recepcion>, silos: map<int, Silo>,
                       entrada: string, siloDestinoId: int, cantidad: Option<JsNum>): (e: Option<FallaLote>)
    requires TicketsPropios(recepciones)
    ensures e.None? <==>
      && entrada != "" && siloDestinoId != 0
      && ResolverRecepcion(recepciones, entrada).Some?
      && siloDestinoId in silos
      && CantidadBase(cantidad, recepciones[ResolverRecepcion(recepciones, entrada).value]) > 0
      && !SinTicket(recepciones[ResolverRecepcion(recepciones, entrada).value])
    ensures e == Some(RecepcionNoEncontrada) <==>
      entrada != "" && siloDestinoId != 0 && forall id :: !Resuelve(recepciones, entrada, id)
  {
    if entrada == "" || siloDestinoId == 0 then Some(FaltanDatos)
    else
      var rid := ResolverRecepcion(recepciones, entrada);
      if rid.None? then Some(RecepcionNoEncontrada)
      else if siloDestinoId !in silos then Some(SiloNoEncontrado)
      else if CantidadBase(cantidad, recepciones[rid.value]) <= 0 then Some(CantidadInvalida)
      else if SinTicket(recepciones[rid.value]) then Some(SinCodigo)
      else None
  }

  /** What a lot creation that passed its checks may rely on. */
  lemma LoteAceptado(recepciones: map<int, Recepcion>, silos: map<int, Silo>,
                     entrada: string, siloDestinoId: int, cantidad: Option<JsNum>)
    requires TicketsPropios(recepciones)
    requires RechazoLote(recepciones, silos, entrada, siloDestinoId, cantidad).None?
    ensures ResolverRecepcion(recepciones, entrada).Some?
    ensures var id := ResolverRecepcion(recepciones, entrada).value;
            && id in recepciones && siloDestinoId in silos
            && recepciones[id].ticketCodigo.Some?
            && CantidadBase(cantidad, recepciones[id]) > 0
  {
  }

  /**
   * The silo update of a lot creation: the level rises by q and the silo takes
   * the intake's product only when it had none.
   */
  function Ingresar(silos: map<int, Silo>, siloId: int, q: int, producto: Option<int>): (r: map<int, Silo>)
    requires siloId in silos
    ensures r.Keys == silos.Keys
    ensures r[siloId].nivel == silos[siloId].nivel + q && r[siloId].capacidad == silos[siloId].capacidad
    ensures r[siloId].productoActual == (if silos[siloId].productoActual.Some? then silos[siloId].productoActual else producto)
    ensures forall k :: k in silos && k != siloId ==> r[k] == silos[k]
    ensures TotalEnSilos(r) == TotalEnSilos(silos) + q
  {
    var s := silos[siloId];
    TotalEnSilosAjuste(silos, siloId, q);
    assert silos[siloId := s.(nivel := s.nivel + q, productoActual := Coalesce(s.productoActual, producto))]
        == silos[siloId := s.(nivel := s.nivel + q)][siloId := s.(nivel := s.nivel + q, productoActual := Coalesce(s.productoActual, producto))];
    assert Niveles(silos[siloId := s.(nivel := s.nivel + q, productoActual := Coalesce(s.productoActual, producto))])
        == Niveles(silos[siloId := s.(nivel := s.nivel + q)]);
    silos[siloId := s.(nivel := s.nivel + q, productoActual := Coalesce(s.productoActual, producto))]
  }

  datatype LoteCreado = LoteCreado(loteId: int, recepcionId: int, cantidadKg: int)

  /**
   * `crearLoteDesdeRecepcion`. Nothing stops a second lot for the same intake:
   * success depends only on the intake, the silo and the quantity.
   */
  method CrearLoteDesdeRecepcion(st: Store, recepcionEntrada: string, siloDestinoId: int,
                                 cantidad: Option<JsNum>, now: int)
    returns (r: Resultado<LoteCreado, FallaLote>)
    requires st.ValidRecepciones() && st.ValidInventario()
    modifies st`lotes, st`nextLote, st`silos, st`movimientos, st`nextMovimiento
    ensures st.ValidInventario()
    ensures var e := RechazoLote(st.recepciones, old(st.silos), Trim(recepcionEntrada), siloDestinoId, cantidad);
      (r.Falla? <==> e.Some?) && (r.Falla? ==> r.causa == e.value)
    ensures r.Falla? ==> st.lotes == old(st.lotes) && st.silos == old(st.silos)
                         && st.movimientos == old(st.movimientos)
    ensures r.Hecho? ==> ResolverRecepcion(st.recepciones, Trim(recepcionEntrada)) == Some(r.value.recepcionId)
    ensures r.Hecho? ==>
      var id := r.value.recepcionId;
      var q := r.value.cantidadKg;
      var rec := st.recepciones[id];
      && q == CantidadBase(cantidad, rec) && rec.ticketCodigo.Some?
      && r.value.loteId == old(st.nextLote) && r.value.loteId !in old(st.lotes)
      && st.lotes == old(st.lotes)[r.value.loteId := Lote(rec.ticketCodigo.value, Some(id), q, q, LoteActivo)]
      && st.silos == Ingresar(old(st.silos), siloDestinoId, q, rec.productoId)
      && st.movimientos == old(st.movimientos) +
           [Movimiento(old(st.nextMovimiento), IngresoSilo, None, Some(siloDestinoId), r.value.loteId, q, now)]
    ensures r.Hecho? ==> TotalEnLotes(st.lotes) == TotalEnLotes(old(st.lotes)) + r.value.cantidadKg
    ensures r.Hecho? ==> SiloActual(st.movimientos, r.value.loteId) == Some(siloDestinoId)
  {
    var entrada := Trim(recepcionEntrada);
    var rechazo := RechazoLote(st.recepciones, st.silos, entrada, siloDestinoId, cantidad);
    if rechazo.Some? {
      return Falla(rechazo.value);
    }
    LoteAceptado(st.recepciones, st.silos, entrada, siloDestinoId, cantidad);
    var recId := ResolverRecepcion(st.recepciones, entrada).value;
    var rec := st.recepciones[recId];
    var q := CantidadBase(cantidad, rec);

    var loteId := AplicarIngreso(st, rec.ticketCodigo.value, recId, siloDestinoId, q, rec.productoId, now);
    r := Hecho(LoteCreado(loteId, recId, q));
  }

  /**
   * The writes of an accepted lot creation: the lot row, the silo level and the
   * `INGRESO_SILO` movement that places the lot in the silo.
   */
  method AplicarIngreso(st: Store, codigo: string, recId: int, siloId: int, q: int, producto: Option<int>, now: int)
    returns (loteId: int)
    requires st.ValidInventario() && siloId in st.silos
    modifies st`lotes, st`nextLote, st`silos, st`movimientos, st`nextMovimiento
    ensures st.ValidInventario()
    ensures loteId == old(st.nextLote) && loteId !in old(st.lotes)
    ensures st.lotes == old(st.lotes)[loteId := Lote(codigo, Some(recId), q, q, LoteActivo)]
    ensures st.silos == Ingresar(old(st.silos), siloId, q, producto)
    ensures st.movimientos == old(st.movimientos) +
      [Movimiento(old(st.nextMovimiento), IngresoSilo, None, Some(siloId), loteId, q, now)]
    ensures TotalEnLotes(st.lotes) == TotalEnLotes(old(st.lotes)) + q
    ensures SiloActual(st.movimientos, loteId) == Some(siloId)
  {
    var lote := Lote(codigo, Some(recId), q, q, LoteActivo);
    TotalEnLotesNuevo(st.lotes, st.nextLote, lote);
    loteId := st.InsertarLote(lote);
    st.silos := Ingresar(st.silos, siloId, q, producto);
    var movs0 := st.movimientos;
    var mov := st.InsertarMovimiento(IngresoSilo, None, Some(siloId), loteId, q, now);
    assert (movs0 + [mov])[..|movs0|] == movs0;
  }

  // ---------------------------------------------------------------------------
  // Transfer between silos
  // ---------------------------------------------------------------------------

  const ErrTrasiegoRequeridos := "lote_id, silo_origen_id y silo_destino_id son requeridos"
  const ErrTrasiegoMismoSilo := "El silo de origen y destino no pueden ser el mismo para un trasiego"
  const ErrTrasiegoCantidad := "cantidad_kg debe ser un número positivo"
  const ErrLoteNoEncontrado := "Lote no encontrado para la empresa"
  const ErrLoteSinSaldo := "El lote no tiene saldo suficiente para el trasiego"
  const ErrSiloOrigen := "Silo origen no encontrado para la empresa"
  const ErrSiloOrigenSinStock := "El silo origen no tiene stock suficiente para el trasiego"

  /** The first check of `registrarTrasiego` that fails, if any. */
  function RechazoTrasiego(lotes: map<int, Lote>, silos: map<int, Silo>,
                           loteId: int, origenId: int, destinoId: int, cantidad: JsNum): (e: Option<string>)
    ensures e.None? <==>
      && loteId != 0 && origenId != 0 && destinoId != 0 && origenId != destinoId
      && cantidad.Finite? && cantidad.v > 0
      && loteId in lotes && lotes[loteId].actual >= cantidad.v
      && origenId in silos && destinoId in silos && silos[origenId].nivel >= cantidad.v
  {
    if loteId == 0 || origenId == 0 || destinoId == 0 then Some(ErrTrasiegoRequeridos)
    else if origenId == destinoId then Some(ErrTrasiegoMismoSilo)
    else if cantidad.NonFinite? || cantidad.v <= 0 then Some(ErrTrasiegoCantidad)
    else if loteId !in lotes then Some(ErrLoteNoEncontrado)
    else if lotes[loteId].actual < cantidad.v then Some(ErrLoteSinSaldo)
    else if origenId !in silos then Some(ErrSiloOrigen)
    else if destinoId !in silos then Some(ErrSiloDestino)
    else if silos[origenId].nivel < cantidad.v then Some(ErrSiloOrigenSinStock)
    else None
  }

  /** The two silo updates of a transfer: the origin loses `kg`, the destination gains it. */
  function Trasladar(silos: map<int, Silo>, origenId: int, destinoId: int, kg: int): (r: map<int, Silo>)
    requires origenId in silos && destinoId in silos && origenId != destinoId
    ensures r.Keys == silos.Keys
    ensures r[origenId] == silos[origenId].(nivel := silos[origenId].nivel - kg)
    ensures r[destinoId] == silos[destinoId].(nivel := silos[destinoId].nivel + kg)
    ensures forall k :: k in silos && k != origenId && k != destinoId ==> r[k] == silos[k]
    ensures TotalEnSilos(r) == TotalEnSilos(silos)
  {
    var o := silos[origenId];
    var s1 := silos[origenId := o.(nivel := o.nivel - kg)];
    var d := s1[destinoId];
    TotalEnSilosAjuste(silos, origenId, -kg);
    TotalEnSilosAjuste(s1, destinoId, kg);
    s1[destinoId := d.(nivel := d.nivel + kg)]
  }

  /**
   * `registrarTrasiego`. The lot row is never written (the lot is not in the
   * frame); only the returned copy shows the balance minus the kg moved.
   */
  method RegistrarTrasiego(st: Store, loteId: int, origenId: int, destinoId: int, cantidad: JsNum, now: int)
    returns (r: Result<Lote>)
    requires st.ValidInventario()
    modifies st`silos, st`movimientos, st`nextMovimiento
    ensures st.ValidInventario()
    ensures var e := RechazoTrasiego(st.lotes, old(st.silos), loteId, origenId, destinoId, cantidad);
      (r.Err? <==> e.Some?) && (r.Err? ==> r.msg == e.value)
    ensures r.Err? ==> st.silos == old(st.silos) && st.movimientos == old(st.movimientos)
    ensures r.Ok? ==>
      && r.value == st.lotes[loteId].(actual := st.lotes[loteId].actual - cantidad.v)
      && st.silos == Trasladar(old(st.silos), origenId, destinoId, cantidad.v)
      && st.movimientos == old(st.movimientos) +
           [Movimiento(old(st.nextMovimiento), Trasiego, Some(origenId), Some(destinoId), loteId, cantidad.v, now)]
    ensures r.Ok? && RelojAlDia(old(st.movimientos), now) ==> SiloActual(st.movimientos, loteId) == Some(destinoId)
  {
    var rechazo := RechazoTrasiego(st.lotes, st.silos, loteId, origenId, destinoId, cantidad);
    if rechazo.Some? {
      return Err(rechazo.value);
    }
    var lote := st.lotes[loteId];
    AplicarTrasiego(st, loteId, origenId, destinoId, cantidad.v, now);
    r := Ok(lote.(actual := lote.actual - cantidad.v));
  }

  /** The writes of an accepted transfer: both silo levels and the `TRASIEGO` movement. */
  method AplicarTrasiego(st: Store, loteId: int, origenId: int, destinoId: int, kg: int, now: int)
    requires st.ValidInventario() && loteId in st.lotes
    requires origenId in st.silos && destinoId in st.silos && origenId != destinoId
    modifies st`silos, st`movimientos, st`nextMovimiento
    ensures st.ValidInventario()
    ensures st.silos == Trasladar(old(st.silos), origenId, destinoId, kg)
    ensures st.movimientos == old(st.movimientos) +
      [Movimiento(old(st.nextMovimiento), Trasiego, Some(origenId), Some(destinoId), loteId, kg, now)]
    ensures RelojAlDia(old(st.movimientos), now) ==> SiloActual(st.movimientos, loteId) == Some(destinoId)
  {
    st.silos := Trasladar(st.silos, origenId, destinoId, kg);
    var movs0 := st.movimientos;
    var mov := st.InsertarMovimiento(Trasiego, Some(origenId), Some(destinoId), loteId, kg, now);
    if RelojAlDia(movs0, now) {
      UltimoTrasAgregar(movs0, mov);
    }
  }

  // ---------------------------------------------------------------------------
  // Merge of two lots
  // ---------------------------------------------------------------------------

  const ErrMezclaRequeridos := "silo_destino_id, lote_origen_a_id y lote_origen_b_id son requeridos"
  const ErrMezclaMismoLote := "El lote de origen A y el lote de origen B deben ser diferentes para una mezcla"
  const ErrMezclaCantidades := "Las cantidades de mezcla deben ser números positivos"
  const ErrMezclaLotes := "Lotes de origen no encontrados para la empresa"
  const ErrMezclaSaldo := "Saldo insuficiente en alguno de los lotes de origen"
  const ErrMezclaSiloOrigen := "No se pudo determinar el silo origen de alguno de los lotes"
  const ErrMezclaStock := "Stock insuficiente en alguno de los silos de origen"

  /** The source silo of a merge: the lot's current silo, when that silo exists. */
  predicate SiloOrigenConocido(silos: map<int, Silo>, movs: seq<Movimiento>, lote: int) {
    SiloActual(movs, lote).Some? && SiloActual(movs, lote).value in silos
  }

  /**
   * The first check of `registrarMezcla` that fails, if any. The check that
   * the destination differs from the lots' silos compares a column the lot
   * rows do not have, so it never fails and is not here. Each source silo's
   * level is checked on its own, even when both lots are in the same silo.
   */
  function RechazoMezcla(lotes: map<int, Lote>, silos: map<int, Silo>, movs: seq<Movimiento>,
                         destinoId: int, loteA: int, loteB: int, cantA: JsNum, cantB: JsNum): (e: Option<string>)
    ensures e.None? <==>
      && destinoId != 0 && loteA != 0 && loteB != 0 && loteA != loteB
      && cantA.Finite? && cantA.v > 0 && cantB.Finite? && cantB.v > 0
      && loteA in lotes && loteB in lotes
      && lotes[loteA].actual >= cantA.v && lotes[loteB].actual >= cantB.v
      && destinoId in silos
      && SiloOrigenConocido(silos, movs, loteA) && SiloOrigenConocido(silos, movs, loteB)
      && silos[SiloActual(movs, loteA).value].nivel >= cantA.v
      && silos[SiloActual(movs, loteB).value].nivel >= cantB.v
  {
    if destinoId == 0 || loteA == 0 || loteB == 0 then Some(ErrMezclaRequeridos)
    else if loteA == loteB then Some(ErrMezclaMismoLote)
    else if cantA.NonFinite? || cantA.v <= 0 || cantB.NonFinite? || cantB.v <= 0 then Some(ErrMezclaCantidades)
    else if loteA !in lotes || loteB !in lotes then Some(ErrMezclaLotes)
    else if lotes[loteA].actual < cantA.v || lotes[loteB].actual < cantB.v then Some(ErrMezclaSaldo)
    else if destinoId !in silos then Some(ErrSiloDestino)
    else if !SiloOrigenConocido(silos, movs, loteA) || !SiloOrigenConocido(silos, movs, loteB)
      then Some(ErrMezclaSiloOrigen)
    else if silos[SiloActual(movs, loteA).value].nivel < cantA.v
         || silos[SiloActual(movs, loteB).value].nivel < cantB.v then Some(ErrMezclaStock)
    else None
  }

  /** The code of the merged lot: the one given, or `MIX-YYYYMMDD-A-B`. */
  function CodigoMezcla(codigoLote: string, hoy: Date, loteA: int, loteB: int): (c: string)
    requires ValidDate(hoy)
    ensures codigoLote != "" ==> c == codigoLote
    ensures codigoLote == "" ==> ParseTicketCodigo(c).None? && |c| > 4 && c[..4] == "MIX-"
  {
    if codigoLote != "" then codigoLote
    else
      MezclaNoEsTicket(hoy, loteA, loteB);
      MezclaCodigo(hoy, loteA, loteB)
  }

  /** The silo levels after the three updates of a merge, applied in order. */
  function SilosTrasMezcla(silos: map<int, Silo>, sA: int, sB: int, destinoId: int, a: int, b: int)
    : (r: map<int, Silo>)
    requires sA in silos && sB in silos && destinoId in silos
    ensures r.Keys == silos.Keys
    ensures forall k :: k in silos && k != sA && k != sB && k != destinoId ==> r[k] == silos[k]
    ensures forall k :: k in silos ==>
              r[k] == silos[k].(nivel := silos[k].nivel + (if k == destinoId then a + b else 0)
                                         - (if k == sA then a else 0) - (if k == sB then b else 0))
    ensures TotalEnSilos(r) == TotalEnSilos(silos)
  {
    var s1 := silos[sA := silos[sA].(nivel := silos[sA].nivel - a)];
    var s2 := s1[sB := s1[sB].(nivel := s1[sB].nivel - b)];
    var s3 := s2[destinoId := s2[destinoId].(nivel := s2[destinoId].nivel + (a + b))];
    TotalEnSilosAjuste(silos, sA, -a);
    TotalEnSilosAjuste(s1, sB, -b);
    TotalEnSilosAjuste(s2, destinoId, a + b);
    s3
  }

  /**
   * The lot writes of a merge: the new lot, then each source lot's balance
   * lowered by its share (its state untouched). With the new lot holding
   * a + b, the grain the lots account for is unchanged.
   */
  function LotesTrasMezcla(lotes: map<int, Lote>, nuevo: int, codigo: string,
                           loteA: int, loteB: int, a: int, b: int): (r: map<int, Lote>)
    requires nuevo !in lotes && loteA in lotes && loteB in lotes && loteA != loteB
    ensures r.Keys == lotes.Keys + {nuevo}
    ensures r[nuevo] == Lote(codigo, None, a + b, a + b, LoteActivo)
    ensures r[loteA] == lotes[loteA].(actual := lotes[loteA].actual - a)
    ensures r[loteB] == lotes[loteB].(actual := lotes[loteB].actual - b)
    ensures forall k :: k in lotes && k != loteA && k != loteB ==> r[k] == lotes[k]
    ensures TotalEnLotes(r) == TotalEnLotes(lotes)
  {
    var l1 := lotes[nuevo := Lote(codigo, None, a + b, a + b, LoteActivo)];
    var l2 := l1[loteA := l1[loteA].(actual := l1[loteA].actual - a)];
    TotalEnLotesNuevo(lotes, nuevo, Lote(codigo, None, a + b, a + b, LoteActivo));
    TotalEnLotesAjuste(l1, loteA, -a);
    TotalEnLotesAjuste(l2, loteB, -b);
    l2[loteB := l2[loteB].(actual := l2[loteB].actual - b)]
  }

  /**
   * The three movement rows of a merge, ids from `id0`: each source lot leaves
   * its silo towards the destination, and the new lot enters the destination.
   */
  function MovimientosMezcla(id0: int, sA: int, sB: int, destinoId: int, loteA: int, loteB: int, nuevo: int,
                             a: int, b: int, now: int): (ms: seq<Movimiento>)
    ensures |ms| == 3 && ms[0].id == id0 && ms[1].id == id0 + 1 && ms[2].id == id0 + 2
    ensures forall i :: 0 <= i < 3 ==> ms[i].destino == Some(destinoId) && ms[i].fecha == now
    ensures ms[0].tipo == MezclaSalida && ms[0].origen == Some(sA) && ms[0].lote == loteA && ms[0].kg == a
    ensures ms[1].tipo == MezclaSalida && ms[1].origen == Some(sB) && ms[1].lote == loteB && ms[1].kg == b
    ensures ms[2].tipo == MezclaEntrada && ms[2].origen == None && ms[2].lote == nuevo && ms[2].kg == a + b
  {
    [Movimiento(id0, MezclaSalida, Some(sA), Some(destinoId), loteA, a, now),
     Movimiento(id0 + 1, MezclaSalida, Some(sB), Some(destinoId), loteB, b, now),
     Movimiento(id0 + 2, MezclaEntrada, None, Some(destinoId), nuevo, a + b, now)]
  }

  /**
   * `registrarMezcla`. The new lot has no intake and holds a + b; each source
   * lot and each source silo loses its share and the destination silo gains
   * the total, so silos and lots keep their totals. The source lots keep their
   * state. The `MEZCLA_SALIDA` rows name the destination as their
   * `silo_destino_id`, so afterwards both source lots are taken to be in the
   * destination silo.
   */
  method RegistrarMezcla(st: Store, destinoId: int, loteA: int, loteB: int, cantA: JsNum, cantB: JsNum,
                         codigoLote: string, hoy: Date, now: int)
    returns (r: Result<int>)
    requires st.ValidInventario() && ValidDate(hoy)
    modifies st`lotes, st`nextLote, st`silos, st`movimientos, st`nextMovimiento
    ensures st.ValidInventario()
    ensures var e := RechazoMezcla(old(st.lotes), old(st.silos), old(st.movimientos), destinoId, loteA, loteB, cantA, cantB);
      (r.Err? <==> e.Some?) && (r.Err? ==> r.msg == e.value)
    ensures r.Err? ==> st.lotes == old(st.lotes) && st.silos == old(st.silos)
                       && st.movimientos == old(st.movimientos)
    ensures r.Ok? ==>
      var sA := SiloActual(old(st.movimientos), loteA).value;
      var sB := SiloActual(old(st.movimientos), loteB).value;
      && r.value == old(st.nextLote) && r.value !in old(st.lotes)
      && st.lotes == LotesTrasMezcla(old(st.lotes), r.value, CodigoMezcla(codigoLote, hoy, loteA, loteB),
                                     loteA, loteB, cantA.v, cantB.v)
      && st.silos == SilosTrasMezcla(old(st.silos), sA, sB, destinoId, cantA.v, cantB.v)
      && st.movimientos == old(st.movimientos) +
           MovimientosMezcla(old(st.nextMovimiento), sA, sB, destinoId, loteA, loteB, r.value, cantA.v, cantB.v, now)
    ensures r.Ok? ==> SiloActual(st.movimientos, r.value) == Some(destinoId)
    ensures r.Ok? && RelojAlDia(old(st.movimientos), now) ==>
      SiloActual(st.movimientos, loteA) == Some(destinoId) && SiloActual(st.movimientos, loteB) == Some(destinoId)
  {
    var rechazo := RechazoMezcla(st.lotes, st.silos, st.movimientos, destinoId, loteA, loteB, cantA, cantB);
    if rechazo.Some? {
      return Err(rechazo.value);
    }
    r := AplicarMezcla(st, destinoId, loteA, loteB, cantA.v, cantB.v,
                       SiloActual(st.movimientos, loteA).value, SiloActual(st.movimientos, loteB).value,
                       CodigoMezcla(codigoLote, hoy, loteA, loteB), now);
  }

  /** The writes of an accepted merge, from source silos `sA` and `sB`. */
  method AplicarMezcla(st: Store, destinoId: int, loteA: int, loteB: int, a: int, b: int, sA: int, sB: int,
                       codigo: string, now: int)
    returns (r: Result<int>)
    requires st.ValidInventario()
    requires loteA in st.lotes && loteB in st.lotes && loteA != loteB
    requires sA in st.silos && sB in st.silos && destinoId in st.silos
    modifies st`lotes, st`nextLote, st`silos, st`movimientos, st`nextMovimiento
    ensures st.ValidInventario()
    ensures r.Ok? && r.value == old(st.nextLote) && r.value !in old(st.lotes)
    ensures st.lotes == LotesTrasMezcla(old(st.lotes), r.value, codigo, loteA, loteB, a, b)
    ensures st.silos == SilosTrasMezcla(old(st.silos), sA, sB, destinoId, a, b)
    ensures st.movimientos == old(st.movimientos) +
      MovimientosMezcla(old(st.nextMovimiento), sA, sB, destinoId, loteA, loteB, r.value, a, b, now)
    ensures SiloActual(st.movimientos, r.value) == Some(destinoId)
    ensures RelojAlDia(old(st.movimientos), now) ==>
      SiloActual(st.movimientos, loteA) == Some(destinoId) && SiloActual(st.movimientos, loteB) == Some(destinoId)
  {
    var lotes0 := st.lotes;
    var nuevo := st.InsertarLote(Lote(codigo, None, a + b, a + b, LoteActivo));
    st.silos := SilosTrasMezcla(st.silos, sA, sB, destinoId, a, b);
    InsertarMovimientosMezcla(st, sA, sB, destinoId, loteA, loteB, nuevo, a, b, now);
    DescontarLotesMezcla(st, lotes0, nuevo, codigo, loteA, loteB, a, b);
    r := Ok(nuevo);
  }

  /** The three movement rows of a merge, inserted in order. */
  method InsertarMovimientosMezcla(st: Store, sA: int, sB: int, destinoId: int, loteA: int, loteB: int, nuevo: int,
                                   a: int, b: int, now: int)
    requires st.ValidInventario() && loteA in st.lotes && loteB in st.lotes && nuevo in st.lotes
    requires loteA != loteB && nuevo != loteA && nuevo != loteB
    requires forall i :: 0 <= i < |st.movimientos| ==> st.movimientos[i].lote != nuevo
    modifies st`movimientos, st`nextMovimiento
    ensures st.ValidInventario()
    ensures st.movimientos == old(st.movimientos) +
      MovimientosMezcla(old(st.nextMovimiento), sA, sB, destinoId, loteA, loteB, nuevo, a, b, now)
    ensures SiloActual(st.movimientos, nuevo) == Some(destinoId)
    ensures RelojAlDia(old(st.movimientos), now) ==>
      SiloActual(st.movimientos, loteA) == Some(destinoId) && SiloActual(st.movimientos, loteB) == Some(destinoId)
  {
    var movs0 := st.movimientos;
    var movA := st.InsertarMovimiento(MezclaSalida, Some(sA), Some(destinoId), loteA, a, now);
    var movB := st.InsertarMovimiento(MezclaSalida, Some(sB), Some(destinoId), loteB, b, now);
    var movN := st.InsertarMovimiento(MezclaEntrada, None, Some(destinoId), nuevo, a + b, now);
    assert st.movimientos == movs0 + [movA, movB, movN];
    MezclaSiloActual(movs0, movA, movB, movN, now);
  }

  /**
   * The balance updates of the two source lots of a merge, once the merged lot
   * `nuevo` has been added to the lots `lotes0`.
   */
  method DescontarLotesMezcla(st: Store, ghost lotes0: map<int, Lote>, nuevo: int, codigo: string,
                              loteA: int, loteB: int, a: int, b: int)
    requires st.ValidInventario() && loteA in lotes0 && loteB in lotes0 && loteA != loteB && nuevo !in lotes0
    requires st.lotes == lotes0[nuevo := Lote(codigo, None, a + b, a + b, LoteActivo)]
    modifies st`lotes
    ensures st.ValidInventario()
    ensures st.lotes == LotesTrasMezcla(lotes0, nuevo, codigo, loteA, loteB, a, b)
  {
    var la := st.lotes[loteA];
    st.ActualizarLote(loteA, la.(actual := la.actual - a));
    var lb := st.lotes[loteB];
    st.ActualizarLote(loteB, lb.(actual := lb.actual - b));
  }

  lemma MezclaSiloActual(movs: seq<Movimiento>, movA: Movimiento, movB: Movimiento, movN: Movimiento, now: int)
    requires IdsBajo(movs, movA.id) && movA.id < movB.id < movN.id
    requires movA.fecha == now && movB.fecha == now && movN.fecha == now
    requires movA.lote != movB.lote && movN.lote != movA.lote && movN.lote != movB.lote
    requires movA.destino.Some? && movB.destino.Some? && movN.destino.Some?
    requires forall i :: 0 <= i < |movs| ==> movs[i].lote != movN.lote
    ensures SiloActual(movs + [movA, movB, movN], movN.lote) == movN.destino
    ensures RelojAlDia(movs, now) ==>
      SiloActual(movs + [movA, movB, movN], movA.lote) == movA.destino
      && SiloActual(movs + [movA, movB, movN], movB.lote) == movB.destino
  {
    var m1 := movs + [movA];
    var m2 := m1 + [movB];
    assert movs + [movA, movB, movN] == m2 + [movN];
    assert (m2 + [movN])[..|m2|] == m2;
    assert IdsBajo(m2, movN.id);
    if RelojAlDia(movs, now) {
      UltimoTrasAgregar(movs, movA);
      UltimoOtroLote(m1, movB, movA.lote);
      UltimoOtroLote(m2, movN, movA.lote);
      UltimoTrasAgregar(m1, movB);
      UltimoOtroLote(m2, movN, movB.lote);
    }
  }
}
